=== FILE: README.md ===
# ConcertAI generative timeline, modelled in Dafny

This project models the browser-side core of ConcertAI, a multi-track MIDI
editor that keeps splicing machine-generated segments onto a composition
while it plays. Everything is written as immutable datatypes and pure
functions, plus a few methods that mirror the source's loops. Times are
exact `real` seconds. A composition's duration is always recomputed as the
latest note release, and is never stored.

Modules (one per source component):

- `Wrappers`, `Text`: `Option`, and the JavaScript string built-ins the
  formatters rely on: `String(n)`, `Number(s)` for digit strings, `split`,
  `join`, `endsWith`, `includes`. Each comes with the round-trip lemmas the
  formatters need.
- `Timeline`: notes, tracks, header (tempos, time signatures), compositions.
  Also the default tempo, `allNotes` and the recomputed duration.
- `PianoRoll`: seconds and pixels per measure, the measure count with its
  fallback of 12 for an empty composition, measure lines, note-bar and playhead geometry.
- `Podcast`: the continuous generation session.
  - Context extraction: the last four measures, re-based to 0.
  - `mergeMidi`: drops the echoed context with a 0.1 s tolerance, shifts the
    new notes, and matches tracks by channel or else by index.
  - The loop as a pure step: `LoopStep` is one wake-up (stop, start
    playback, back off 2000 ms, or generate). `OnGenerated` is what happens
    when the generator settles. `Drive` runs both over any sequence of
    wake-ups, settlements and exits.
  - Also: clip selection, `stopLoop`, the header statistics and the
    instrument chips.
- `Routing`: the solo-dominant binary gain, mute/solo toggles, and the
  renumbering of the flags when a track is deleted.
- `Player`: the scheduling effect (cancel every issued id, then issue one
  event per note) and the play, pause, stop and clear handlers.
- `Generate`, for the main editor:
  - the request's preconditions;
  - the chord timing sent with fine-tuned ("sft") models;
  - the dispatch of the generator's response (archive, MIDI, fallback,
    error text);
  - the splice of an sft result after the prompt.
- `StepGrid`: the stand-alone step-grid editor (`script.js`).
  - The MIDI note-name table and the 128 × (12·steps) boolean grid.
  - Remapping the grid when the note division changes.
  - Cutting rows into maximal runs for playback.
  - The tick-based export, and the generate and candidate handlers.
- `VsMode`: the model-versus-model comparison. Covers the step machine, the
  second-model filter, the base-capture and reset effects, play and
  generate-both.
- `KeySelector`, `Chords`, `Settings`: the key dialog, the chord lane and its
  palette, and the tempo field validator.

The generator, the network, audio output, timers and the MIDI binary codec
are outside the model. Their results enter as parameters or input
datatypes: `Podcast.Outcome`, `Generate.Response`, `VsMode.Reply`, the
transport cursor and started flag.

## Model

| member | source | states |
|---|---|---|
| Timeline.Bpm | client/src/components/PianoRoll.jsx:31 | The tempo read everywhere is the first tempo event, or 120 when there is none; it is never 0 and is positive for a valid header |
| Timeline.AllNotes | client/src/components/PianoRoll.jsx:29 | `allNotes` holds exactly the notes of all tracks, and its length is the sum of the tracks' note counts |
| Timeline.AllNotesConcatenates | client/src/components/PianoRoll.jsx:29 | `flatMap` lays the tracks' notes end to end: track i's notes, in order, fill the slice that follows the notes of tracks 0..i−1, so every note appears as often as in its track |
| Timeline.MaxEnd | client/src/App.jsx:360 | The reduce over `time + duration` from 0: a bound on every release time, reached by some note unless it is 0 |
| Timeline.DurationIsLatestEnd | client/src/components/PodcastMode.jsx:178 | A composition's duration bounds every note's release time and is reached by one of them (or is 0) |
| PianoRoll.Beats | client/src/components/PianoRoll.jsx:32 | Beats per measure come from the first time signature, defaulting to 4 |
| PianoRoll.SecondsPerMeasure | client/src/components/PianoRoll.jsx:34 | `spm · bpm = 60 · beats`, positive for a valid header |
| PianoRoll.PixelsPerMeasure | client/src/components/PianoRoll.jsx:35 | Pixels per measure are seconds per measure times 80 |
| PianoRoll.TotalMeasures | client/src/components/PianoRoll.jsx:38 | For a positive duration: the fewest whole measures covering it (`m·spm >= duration > (m−1)·spm`). Otherwise 12 |
| PianoRoll.MeasureLines | client/src/components/PianoRoll.jsx:43 | One line per measure, line i at `(i+1)·pixelsPerMeasure` |
| PianoRoll.MeasureLinesIncreasing | client/src/components/PianoRoll.jsx:43 | The measure lines are strictly increasing. The first is one measure in and the last is on the canvas's right edge |
| PianoRoll.NoteBar | client/src/components/PianoRoll.jsx:6-9 | A bar's top is within the 128 rows, and its right edge is the note's release time in pixels |
| PianoRoll.NoteRowsDisjoint | client/src/components/PianoRoll.jsx:7 | A higher pitch is drawn a full row above a lower one |
| PianoRoll.NotesFitCanvas | client/src/components/PianoRoll.jsx:38-40 | Every note of the composition is drawn inside the canvas width `totalMeasures·pixelsPerMeasure` |
| PianoRoll.PlayheadWithinCanvas | client/src/components/PianoRoll.jsx:45 | For progress in [0, 1], the playhead stays between 0 and the canvas width |
| Podcast.MeasureDuration | client/src/components/PodcastMode.jsx:176-177 | A 4/4 measure at the composition's tempo (120 by default), positive for a valid header |
| Podcast.MovedFrom | client/src/components/PodcastMode.jsx:310-318 | Keeps exactly the notes starting at or after the cutoff, each moved by the shift with pitch, length and velocity kept. All of them start at or after cutoff + shift |
| Podcast.MovedFromNothing | client/src/components/PodcastMode.jsx:311 | No note passes a cutoff that every note starts before |
| Podcast.ContextStart | client/src/components/PodcastMode.jsx:203-205 | The context starts at `max(0, duration − 4·measureDuration)` |
| Podcast.ContextFrom | client/src/components/PodcastMode.jsx:207-235 | The context has the same header and one track per composition track, with the same instrument and channel |
| Podcast.ContextNotes | client/src/components/PodcastMode.jsx:225-233 | Exactly the notes starting at or after the context start reach the context, re-timed to `time − start >= 0`. Pitch, length and velocity are kept |
| Podcast.ContextFitsFourMeasures | client/src/components/PodcastMode.jsx:203-235 | The extracted context never lasts more than four measures |
| Podcast.FindChannel | client/src/components/PodcastMode.jsx:307 | `tracks.find` by channel yields the first track on that channel, or none exists |
| Podcast.Merge | client/src/components/PodcastMode.jsx:294-321 | The merge keeps the header and the track count. Each track keeps its instrument and channel, and its old notes are an untouched prefix: it only appends |
| Podcast.MergeSource | client/src/components/PodcastMode.jsx:305-309 | Track i is fed by the first segment track on its channel, else by the segment track at index i. With neither, it is unchanged |
| Podcast.MergeAppendsContinuation | client/src/components/PodcastMode.jsx:295-318 | Appended notes are exactly the source track's notes at or after `4·measureDuration − 0.1`, shifted by `duration − 4·measureDuration`. Each starts at or after `oldDuration − 0.1` with pitch, length and velocity kept |
| Podcast.MergeDurationGrows | client/src/components/PodcastMode.jsx:305-325 | Merging never shortens the composition |
| Podcast.MergeOfEchoOnly | client/src/components/PodcastMode.jsx:309-320 | A segment with nothing past the cutoff leaves the composition unchanged |
| Podcast.MergeMayDuplicate | client/src/components/PodcastMode.jsx:203-318 | The merge does not deduplicate: at 120 BPM, a composition whose only note is at 7.95 s sends that note as context, and a generator that echoes the context unchanged gets it appended a second time at 7.95 s |
| Podcast.Stats | client/src/components/PodcastMode.jsx:158-165 | The statistics are the whole measures and whole seconds of the duration (floors) |
| Podcast.WholeUnits | client/src/components/PodcastMode.jsx:164 | `Math.floor(d / unit)` is the number of whole units that fit in d |
| Podcast.LoopStep | client/src/components/PodcastMode.jsx:167-248 | One wake-up of the loop. It halts when the flag is off or there is no composition. It starts playback iff the composition is over 16 measures (strict) and the transport is not started. It backs off 2000 ms iff more than 16 measures are buffered ahead of the cursor. Otherwise it stops (flag cleared) when the model is missing, else it requests a continuation of the last-four-measure context |
| Podcast.OnGenerated | client/src/components/PodcastMode.jsx:263-280 | An exception clears the flag, ends the loop and shows "Podcast loop error: …". No result ends the loop. Otherwise the first result is merged and the loop continues, and the application's update call (`onAppendMidi`/`setMidiData`) is made only while the flag is set |
| Podcast.SelectClip | client/src/components/PodcastMode.jsx:136-156 | The chosen clip becomes the composition and is handed to the app, and the flag is set |
| Podcast.StopLoop | client/src/components/PodcastMode.jsx:341-345 | Exit clears the looping flag and the generating badge and keeps the composition. It then stops the shared transport and rewinds it and the progress bar to 0, touching no MIDI data |
| Podcast.StoppedSessionIsInert | client/src/components/PodcastMode.jsx:329-345 | Once the flag is cleared, whatever happens next, no request is issued and no update call is made, even with a request in flight |
| Podcast.ExitDiscardsLateResult | client/src/components/PodcastMode.jsx:329-338 | A result arriving after Exit triggers no update call (`onAppendMidi`/`setMidiData`), and no further request follows |
| Podcast.ThrottleBoundary | client/src/components/PodcastMode.jsx:188-199 | At 120 BPM, 32 s of material with the cursor at 0 (exactly 16 measures ahead) generates. 34 s backs off for 2000 ms. 34 s with the cursor at 2 s generates again |
| Podcast.PlaybackWaitsForBuffer | client/src/components/PodcastMode.jsx:176-185 | Playback is never started with 16 measures or fewer of material |
| Podcast.Without | client/src/components/PodcastMode.jsx:94 | `filter(i => i !== x)` removes x and keeps every other member |
| Podcast.ToggleInstrument | client/src/components/PodcastMode.jsx:91-98 | The toggled instrument is selected afterwards iff it was not before. Other members are unaffected |
| Podcast.ToggleInstrumentTwice | client/src/components/PodcastMode.jsx:91-98 | Toggling twice restores membership, and restores the list when the instrument was absent |
| Routing.Gain | client/src/App.jsx:207-219 | The gain is 0 or 1. With any solo set it is 1 iff the track is soloed, otherwise 1 iff the track is not muted |
| Routing.Gains | client/src/App.jsx:209-219 | One gain per instrument, index by index |
| Routing.SoloOverridesMute | client/src/App.jsx:212-216 | While any solo is set, the mute flags have no effect at all |
| Routing.Toggle | client/src/App.jsx:530-542 | A toggle flips exactly one key and leaves every other key and value unchanged |
| Routing.ToggleTwice | client/src/App.jsx:530-542 | Toggling a key twice restores every flag's reading |
| Routing.ToggleMuteIsLocal | client/src/App.jsx:530-535 | Toggling one track's mute changes no other track's gain |
| Routing.Splice | client/src/App.jsx:547 | `splice(i, 1)` removes exactly element i, shifting later elements down; an index past the end removes nothing |
| Routing.Shifted | client/src/App.jsx:550-558 | Mute keys below i are kept, keys above i move to k−1, and key i is dropped |
| Routing.DeleteTrack | client/src/App.jsx:544-559 | As written: a no-op without MIDI data. Otherwise it removes track i and renumbers the mutes, and leaves the solo map untouched |
| Routing.DeleteMovesMuteWithTrack | client/src/App.jsx:544-559 | After a delete, each surviving track's mute flag has moved with it |
| Routing.StaleSoloSilencesRemainingTracks | client/src/App.jsx:544-559 | As written, deleting the only soloed track leaves every remaining track silent |
| Routing.StaleSoloMovesToNeighbour | client/src/App.jsx:544-559 | As written, deleting a track below the soloed one moves the solo onto its neighbour |
| Routing.DeleteTrackRenumbered | client/src/App.jsx:544-559 | Corrected delete: the solo flags are renumbered exactly like the mute flags |
| Routing.DeleteRenumberedKeepsKeysInRange | client/src/App.jsx:550-558 | With both maps renumbered, flag keys keep naming existing tracks |
| Routing.ShiftedKeepsSoloActive | client/src/App.jsx:208 | Renumbering keeps "some solo active" unless the deleted track was the soloed one |
| Routing.DeleteRenumberedMovesSolo | client/src/App.jsx:550-558 | With both maps renumbered, each surviving track keeps its own mute and solo flags |
| Routing.DeleteRenumberedKeepsGains | client/src/App.jsx:207-219 | With both maps renumbered, every surviving track keeps the gain it had unless the deleted track was soloed |
| Player.TrackEvents | client/src/App.jsx:240-254 | One event per note of a track, in note order |
| Player.EventsAreNotes | client/src/App.jsx:237-256 | The scheduled events are exactly the notes of every track, one per note. Mute does not filter them |
| Player.Replaced | client/src/App.jsx:232-259 | Rescheduling cancels exactly the previously issued ids and issues fresh consecutive ids, one per event. Other callbacks are kept |
| Player.Reschedule | client/src/App.jsx:230-264 | The effect runs only with MIDI data, the samplers loaded and one instrument per track. Then it cancels, issues one event per note and loops the transport over `[0, duration]`; otherwise nothing changes |
| Player.ScheduleTrack | client/src/App.jsx:240-254 | The inner loop numbers the track's notes on from the events already scheduled |
| Player.RescheduleIssuesOnePerNote | client/src/App.jsx:237-258 | It issues as many distinct live ids as there are notes, each bound to its event |
| Player.RescheduleCoversEveryNote | client/src/App.jsx:237-256 | The issued callbacks play exactly the composition's notes, muted or not, and nothing else |
| Player.RescheduleCancelsPrevious | client/src/App.jsx:232-233 | No previously issued id survives unless reissued, so rescheduling never doubles a note |
| Player.Play | client/src/App.jsx:284-290 | Play is refused without MIDI data or before the samplers load, and keeps the position |
| Player.Pause | client/src/App.jsx:292-295 | Pause keeps the position and progress |
| Player.Stop | client/src/App.jsx:297-302 | Stop rewinds the position and the progress to 0 and touches no data |
| Player.ClearAll | client/src/App.jsx:561-570 | Clear drops the MIDI data, the upload, the results, the instruments and both flag maps, then stops |
| Player.ClearAllIsQuiet | client/src/App.jsx:561-570 | After clearing, play is refused, the scheduling effect's guard is closed so no new events are issued, and every gain is 1 |
| Player.StopAndPause | client/src/App.jsx:292-302 | Stop is idempotent, and play after pause resumes from the paused position |
| Generate.ModelTypeOf | client/src/App.jsx:321-322 | The type of the first model with the selected name (every earlier model has another name), or none when no model has that name |
| Generate.Refuse | client/src/App.jsx:316-333 | A request is refused without a selected model. It is also refused without an upload or without selected notes, unless the model is pretrained |
| Generate.ChordStartOfCellKey | client/src/App.jsx:368-370 | Splitting a cell key at '-' yields `measure·spm + beat·spb` |
| Generate.SentEntries | client/src/App.jsx:374 | The chords sent are exactly those whose start is a number at or after the prompt end |
| Generate.SubsequentChords | client/src/App.jsx:374-377 | One text and one offset per sent chord, in map order. Each offset is `start − promptEnd >= 0` |
| Generate.MidiEntries | client/src/App.jsx:401-403 | An entry is kept iff it is in the archive and its name ends in `.mid` |
| Generate.MidiEntriesConcat | client/src/App.jsx:401-403 | The `.mid` filter distributes over concatenation: the `.mid` entries of an earlier part of the archive come before those of a later part, so archive order and repeats are kept |
| Generate.JsonTexts | client/src/App.jsx:404-406 | It is empty iff the archive has no `.json` entry (that is not also `.mid`) |
| Generate.DecodeAll | client/src/App.jsx:409 | `Promise.all` yields every decoded MIDI in order, or fails iff some decode throws |
| Generate.FailureMessage | client/src/App.jsx:442-455 | The error message is the truthy JSON `detail`, else the response text, else the status text |
| Generate.DispatchResponse | client/src/App.jsx:393-456 | Results are non-empty iff the notice is a success, and then result 0 is selected. An error response or a failed archive read gives no results and an error notice. An archive with neither `.mid` nor `.json` entries gives the "no relevant files" warning. Any other content type is decoded as MIDI (one result, "fallback"), or else reports "Unknown response format" with the content type |
| Generate.ArchiveJsonWins | client/src/App.jsx:412-413 | An archive holding any `.json` shows the joined texts and discards its MIDIs |
| Generate.ArchiveMidisOnly | client/src/App.jsx:414-417 | An archive of MIDIs only yields them in order, with index 0 selected |
| Generate.MidiResponseSingle | client/src/App.jsx:421-427 | A MIDI content type gives exactly one result |
| Generate.Before | client/src/App.jsx:493 | Exactly the notes starting before the prompt end |
| Generate.PromptNotes | client/src/App.jsx:489-497 | The prompt part is exactly the notes before the prompt end of the unmuted original tracks |
| Generate.Continuation | client/src/App.jsx:499-503 | Every generated note, track by track, shifted by `+promptEnd` |
| Generate.Combine | client/src/App.jsx:465-506 | Nothing is set without a model type or result. A pretrained result is shown as is. An sft result becomes one track: the prompt part, then the shifted continuation, under the upload's header |
| Generate.CombineSeam | client/src/App.jsx:485-503 | In a combined sft track, every prompt note starts before every continuation note, and comes from an unmuted original track |
| StepGrid.StepsFor | script.js:24-35 | A division on the menu gives its positive steps per bar; one not on the menu gives none |
| StepGrid.DefaultIsSixteenSteps | script.js:38-39 | The page starts at 16 steps per bar |
| StepGrid.NoteNameRoundTrip | script.js:43-52 | Each name is the pitch class of `i mod 12` followed by the octave `i div 12 − 1`, and it reads back as i |
| StepGrid.NoteNamesDistinct | script.js:43-52 | No two of the 128 rows share a name |
| StepGrid.NoteNameExamples | script.js:43-52 | 60 is "C4", 0 is "C-1", 127 is "G9" |
| StepGrid.EmptyGrid | script.js:97-99 | 128 rows of `12·stepsPerBar` cells, all unlit |
| StepGrid.RoundRatioNearest | script.js:227 | `Math.round(n/d)` is the nearest whole number, with halves rounding up |
| StepGrid.Cells | script.js:227 | A lit cell covers at least one new step |
| StepGrid.CellsNearestRatio | script.js:227 | The number of covered steps is `max(1, round(new/old))` |
| StepGrid.NewStartInSameBar | script.js:222-226 | A moved cell starts at `bar·new + floor(step·new/old)`, inside its own bar |
| StepGrid.Remap | script.js:217-236 | The remapped grid has the new shape |
| StepGrid.RemapCell | script.js:218-236 | A new cell is lit iff a lit old cell of the same row, moved and stretched, covers it within `totalSteps` |
| StepGrid.RemapKeepsNotes | script.js:221-233 | Every lit cell stays lit at its new start in the same row and bar, unless that start falls past the grid |
| StepGrid.SameDivisionMovesNothing | script.js:222-227 | With the same division a cell keeps its index and covers one step |
| StepGrid.RemapSameDivision | script.js:209-236 | Remapping to the division already in use reproduces the grid exactly |
| StepGrid.RemapRowLoop | script.js:220-235 | The handler's cell loop computes the remapped row |
| StepGrid.RemapLoop | script.js:217-236 | The handler's row loop computes the remapped grid |
| StepGrid.RunEnd | script.js:549-553 | The inner scan stops at the last lit step of the run, before an unlit step or the limit |
| StepGrid.RowRunsAreMaximal | script.js:545-615 | A row's runs are non-empty, lit throughout and separated by unlit steps. None can be extended on either side, and together they cover every lit step: one note per maximal run |
| StepGrid.SegmentRow | script.js:545-615 | The source's scan of one row produces exactly those runs |
| StepGrid.NoRunsIffDark | script.js:617-620 | A row has no notes iff none of its steps is lit |
| StepGrid.AllRunsMember | script.js:545-615 | The notes of the grid are exactly the runs of each row, tagged with that row |
| StepGrid.AllRunsEmptyIff | script.js:617-620 | The grid has no notes iff no cell is lit |
| StepGrid.StepDuration | script.js:503-507 | A step lasts `(60/120·4)/stepsPerBar` seconds |
| StepGrid.Schedule | script.js:545-615 | One scheduled event per run of the grid |
| StepGrid.EventsWithinPlayback | script.js:555-556 | Each event starts at `start·stepDuration >= 0` and ends by the end-of-playback callback at 24 s |
| StepGrid.Encode | script.js:842-858 | One `addNote` command per run |
| StepGrid.EncodeRoundTrip | script.js:842-858 | Reading the command list back with signed waits, where a negative wait steps back in time, recovers each note's start tick `round(start·512/stepsPerBar)`; row and rounded length are kept |
| StepGrid.ExportRoundTrip | script.js:822-864 | The exported command list holds one command per run of the selected bars. Read with signed waits, each command starts at its run's start tick and keeps its row and rounded length |
| StepGrid.ExportReadsSelectedBars | script.js:839-849 | Only columns below `numBars·stepsPerBar` are read |
| StepGrid.BuildMidi | script.js:822-864 | The nested loops, with `currentTick` carried across rows, produce the exported file |
| StepGrid.NegativeWaitAcrossRows | script.js:842-858 | Because `currentTick` is never reset between rows, a later row's earlier note gets a negative wait |
| StepGrid.ChordWaitIsNegative | script.js:842-858 | Two notes starting on the same step, written one after the other, give the second a wait of minus the first note's length in ticks |
| StepGrid.EnableControls | script.js:114-118 | Play and stop are enabled; generate is disabled iff no bars are selected |
| StepGrid.ChangeResolution | script.js:209-247 | A division change remaps the grid and resets the bar selection, the playhead and the candidates. Generate is disabled, and every control is disabled when no pattern is loaded |
| StepGrid.ChangeToSameResolution | script.js:209-236 | Choosing the current division leaves the notes unchanged |
| StepGrid.PlayGrid | script.js:488-645 | Nothing happens while playing. Otherwise playback starts iff there is at least one note, scheduling one event per run |
| StepGrid.PlayStartsIffSomeCellLit | script.js:617-620 | Playback starts iff some cell of the grid is lit |
| StepGrid.Generate | script.js:773-817 | Generate is a no-op unless a pattern is loaded and bars are selected. Otherwise it makes `numOutputs` independent copies of the grid with the file of the selected bars, and selects candidate 0 |
| StepGrid.SelectCandidate | script.js:806-812 | Selecting a candidate loads its grid |
| StepGrid.CandidatesRestoreGrid | script.js:789-811 | Every candidate brings back the grid as it was when generate was pressed |
| StepGrid.GenerateBlockedAfterResolutionChange | script.js:237-243 | After a division change, generate stays disabled and does nothing |
| VsMode.Filter | client/src/components/VSMode.jsx:113 | Keeps exactly the models with model 1's `tag.model` and a different name |
| VsMode.FilteredModels | client/src/components/VSMode.jsx:111-114 | Empty without a model 1 or a model list. Otherwise exactly the same-family models with another name |
| VsMode.FirstModelNotOffered | client/src/components/VSMode.jsx:113 | Model 1 is never offered as model 2 |
| VsMode.FilterKeepsOrder | client/src/components/VSMode.jsx:113 | The filtered list keeps list order |
| VsMode.SelectModel1 | client/src/components/VSMode.jsx:116-119 | Selecting model 1 goes to step 2 |
| VsMode.SelectModel2 | client/src/components/VSMode.jsx:121-124 | Selecting model 2 goes to step 3 |
| VsMode.ResetSelection | client/src/components/VSMode.jsx:126-130 | Reset goes to step 1 with both models cleared |
| VsMode.Back | client/src/components/VSMode.jsx:153 | Back from step 2 changes only the step, to 1 |
| VsMode.Capture | client/src/components/VSMode.jsx:42-46 | At step 3 with MIDI data, the base is captured only while it is still empty |
| VsMode.Reset | client/src/components/VSMode.jsx:49-54 | A model change clears both results, the base and the playing model, and nothing else |
| VsMode.CommitAsWritten | client/src/components/VSMode.jsx:42-54 | As written (capture effect before reset effect), any model change leaves no base |
| VsMode.CaptureLostOnSecondModel | client/src/components/VSMode.jsx:42-54 | As written, choosing model 2 clears the base the same commit captured, so neither play button plays anything before a generation |
| VsMode.Commit | client/src/components/VSMode.jsx:42-54 | Corrected order (reset, then capture): a model change clears the results, and the base at step 3 is the current MIDI |
| VsMode.CaptureKeptOnSecondModel | client/src/components/VSMode.jsx:42-54 | Corrected order: after choosing model 2, the base is the loaded MIDI and both play buttons play it |
| VsMode.BaseCapturedOnce | client/src/components/VSMode.jsx:42-46 | Once captured, later MIDI changes do not overwrite the base |
| VsMode.SelectionReachesComparison | client/src/components/VSMode.jsx:116-124 | Choosing model 1 then model 2 reaches step 3 with both models, no results and the loaded MIDI as base |
| VsMode.ResetReturnsToStart | client/src/components/VSMode.jsx:126-130 | Reset returns to step 1 with no models, no results and no base |
| VsMode.PlayModel | client/src/components/VSMode.jsx:56-68 | Plays result i, else the base. When both are null, nothing changes |
| VsMode.GenerateBoth | client/src/components/VSMode.jsx:79-107 | A no-op without a generator or both models. Otherwise each result becomes the first element of a non-empty reply, else keeps its old value. A failure of the first call skips the second |
| VsMode.PlayAfterGenerate | client/src/components/VSMode.jsx:56-107 | After both models answer, each play button plays its own model's first result |
| KeySelector.KeyParts | client/src/components/KeySelector.jsx:13 | The key split at every space: part 0 is the root, and part 1, when present, is the scale |
| KeySelector.OnOpen | client/src/components/KeySelector.jsx:11-17 | On open with a key: the root updates only if it is one of the 12 roots, and the scale only if it is M or m. Otherwise the prior value is kept |
| KeySelector.Save | client/src/components/KeySelector.jsx:19-22 | Save emits `root ++ " " ++ scale`, which splits back into the pair, and then closes |
| KeySelector.SaveThenOpenRoundTrip | client/src/components/KeySelector.jsx:11-22 | Opening on a saved valid key restores exactly that root and scale, whatever was shown |
| KeySelector.UnknownKeyKeepsDefaults | client/src/components/KeySelector.jsx:8-17 | An unrecognised key leaves the defaults C and M |
| KeySelector.RootOnlyKey | client/src/components/KeySelector.jsx:13-15 | A key with only a root changes only the root |
| Chords.Shown | client/src/components/ChordProgression.jsx:31-32 | 'None' is shown as nothing; any other field is shown as is |
| Chords.ChordTextShape | client/src/components/ChordProgression.jsx:29-34 | Chord text is '' for a missing chord, otherwise it begins with the root and is only the root for a chord with no quality or bass |
| Chords.CellKeyRoundTrip | client/src/components/ChordProgression.jsx:12 | Splitting `measure-beat` on '-' and reading both parts recovers the measure and the beat |
| Chords.CellKeysDistinct | client/src/components/ChordProgression.jsx:12 | Different cells have different keys |
| Chords.Get | client/src/components/ChordProgression.jsx:58 | A lookup finds the stored chord, or nothing iff the key is absent |
| Chords.Put | client/src/components/ChordProgression.jsx:22 | `{...m, [k]: v}` sets k and leaves every other entry unchanged |
| Chords.DoubleClick | client/src/components/ChordProgression.jsx:11-14 | A double-click selects that cell's key and opens the palette |
| Chords.PaletteClose | client/src/components/ChordProgression.jsx:16-19 | Close clears the selected key and closes the palette |
| Chords.PaletteSave | client/src/components/ChordProgression.jsx:21-27 | Saving sets only the selected key, and the callback receives the same new map |
| Chords.OrElse | client/src/components/ChordPalette.jsx:12-14 | `s || fallback` keeps a non-empty s |
| Chords.OnOpen | client/src/components/ChordPalette.jsx:10-16 | On open, the palette resets to the chord's fields, or to C / None / None |
| Chords.ChangeRoot | client/src/components/ChordPalette.jsx:33-37 | A null value is ignored; otherwise only the root changes |
| Chords.ChangeQuality | client/src/components/ChordPalette.jsx:39-43 | A null value is ignored; otherwise only the quality changes |
| Chords.ChangeBase | client/src/components/ChordPalette.jsx:45-49 | A null value is ignored; otherwise only the bass changes |
| Chords.PaletteTextAgrees | client/src/components/ChordPalette.jsx:27-31 | The palette's preview drops 'None' exactly as the lane's chord text does |
| Chords.SaveAndClose | client/src/components/ChordPalette.jsx:18-25 | Save emits `{root, quality, base}` from the state, and the lane then stores it and closes |
| Chords.EditUnchanged | client/src/components/ChordPalette.jsx:10-25 | Saving an untouched palette restores a filled chord (or stores C for an empty cell) and changes no other cell |
| Settings.TempoChange | client/src/components/Settings.jsx:8-13 | An accepted value becomes the tempo verbatim, and a rejected one leaves it unchanged |
| Settings.EmptyAccepted | client/src/components/Settings.jsx:10 | The empty string is accepted |
| Settings.DigitsAccepted | client/src/components/Settings.jsx:10-11 | Any digit string is accepted verbatim |
| Settings.NegativeRejected | client/src/components/Settings.jsx:10 | A minus sign before any positive decimal (digits, with or without a fraction, such as "-1" or "-2.5") is rejected |
| Settings.FractionRejected | client/src/components/Settings.jsx:10 | A decimal with a non-zero fraction is rejected, with or without a minus sign ("1.5", "-1.5") |
| Settings.TempoExamples | client/src/components/Settings.jsx:10-12 | 120 and 0 are taken; -1 and 1.5 are refused; "-0" is taken |

## Left out

- Audio output is not modelled: Tone.js samplers and synths, soundfont-player, effects chains and Web MIDI output. These are foreign libraries and hardware. Schedules are modelled as data.
- Networking is not modelled: the model-info fetch, the `/generate` POST and the server proxy. Generator results enter as the `Podcast.Outcome`, `Generate.Response` and `VsMode.Reply` inputs.
- The binary codecs are not modelled: `@tonejs/midi` `toArray`/`new Midi`, jsmidgen `toBytes` and JSZip. The clone and refresh round trips are the identity. `JSON.parse` of an error body enters as an optional `detail`.
- Track `addNote` inserts in tick order; the model appends. Note order inside a track is observed only by the two contracts below, which state the appended order.
- Podcast.Merge: states the old notes as an untouched prefix with the new notes appended after them. The source's `addNote` sorts by ticks, so a new note up to 0.1 s before an old note's start is placed before it. The set of notes per track is the same.
- Generate.Combine: states the combined track as the prompt part followed by the continuation, track by track. The source's `addNote` sorts the notes by ticks.
- Routing.DeleteTrack: the model builds a fresh composition without track i. The source's `{...midiData}` is a shallow copy, so the splice also removes the track from the original upload, which is the same object after an upload. The spread copy also loses the `duration` getter, so the loop end then reads `undefined`. Neither effect is modelled.
- Podcast.ExitDiscardsLateResult: promises only that no update call and no request follow Exit. The session's composition is the object the application already holds, so a late merge still adds notes to the application's tracks. This alias is not modelled.
- Podcast.OnGenerated: the merge is written into the composition even after Exit, and that composition is shared with the application (see the line above).
- A composition with zero tracks has duration −∞ in `@tonejs/midi`; the model uses 0.
- Timers, `requestAnimationFrame`, promises and the progress cadence are left out. The podcast loop is the pure step pair `LoopStep`/`OnGenerated`, and `Drive` orders their events.
- Floating point is left out: times, tempo and the 0.1 s tolerance are exact reals. `Number()` in the tempo field is modelled only for plain decimal strings.
- Generate.Continuation: keeps each generated note's start and length in seconds. The source copies the note with a spread, so its ticks are re-read under the upload's header. Lengths and shifted starts survive only when the generated file and the upload share resolution (ppq) and tempo map.
- Measure-range selection (`getSelectedNotes`, `getSelectedRange`) is not part of this model. Its result enters as the prompt notes and the selected-note count. The repository contains no implementation of measure selection, so none is modelled.
- Pure UI components are left out: ModelGridSelector, Sidebar, Header, Controls, ModelSelector, ShortcutGuide, MidiInput, AdvancedSettings, MiniPlayer, the random visualizer, log trimming and the debug prompt.
- `handleInitialGenerate` and `handlePreviewClip` of the podcast player are left out. They are a generator call and a preview play with no logic beyond clip selection.
- Player seek, the upload handler and the space-bar shortcut are left out; they only forward to the transport.
- Helper scripts, configuration and the chord constant lists are not modelled.
- Player.Reschedule: events are issued for every note, muted or not. Audibility is applied by the gain alone, as the code does.
- Generate.Combine: with an sft result but no original upload, the source throws inside the effect; the model sets nothing.
- PianoRoll.TotalMeasures: requires a positive measure length, i.e. a positive tempo and beat count. The source does not guard a zero or negative tempo event.
- Podcast.Stats: requires a valid header (positive tempo), for the same reason.
- Podcast.SelectClip: the preceding `onStop()` (the preview is stopped and the transport rewound) and the hiding of the candidate list are not modelled; only the session and the composition handed over are.
- StepGrid.ExportRoundTrip: the start ticks are recovered only by a reader that accepts negative waits. `currentTick` is carried across rows, so a note on a higher row that starts before the previous note ended, as in any chord (`StepGrid.ChordWaitIsNegative`), gets a negative wait (`StepGrid.NegativeWaitAcrossRows`). A MIDI delta time is unsigned, so such a wait cannot be written into the file, and the model does not say what the byte encoder makes of it.
- Podcast.Drive: a wake-up while a request is pending, or a settlement with none pending, cannot occur in the source and is ignored.

## Findings

| source | as written | input that shows it | evidently intended | confidence | as-written member | corrected member |
|---|---|---|---|---|---|---|
| client/src/App.jsx:544-559 | `deleteTrack` renumbers the mute flags but keeps the solo flags keyed by old indices | three tracks with track 2 soloed, delete track 2: both remaining tracks go silent; with track 1 soloed, delete track 0: the old track 2 is soloed instead | solo flags follow their tracks like mute flags | medium, not executed | Routing.StaleSoloSilencesRemainingTracks | Routing.DeleteRenumberedKeepsGains |
| client/src/components/VSMode.jsx:42-54 | the base-capture effect is declared before the reset effect, and both run in the commit that picks model 2 | at step 2 with MIDI loaded, choose model 2: the base is captured then cleared, and both play buttons do nothing until a generation | the loaded MIDI becomes the base on entering step 3 | medium, not executed | VsMode.CaptureLostOnSecondModel | VsMode.CaptureKeptOnSecondModel |

=== FILE: chords.dfy ===
/** The chord lane above the piano roll and its chord palette dialog.
    Chords are stored in a JavaScript object keyed by "measure-beat",
    modelled as an association list in insertion order; the palette holds
    the root, quality and bass being edited. */
module Chords {
  import opened Wrappers
  import opened Text

  /** `{ root, quality, base }`; quality and bass are the literal 'None' when absent. */
  datatype Chord = Chord(root: string, quality: string, base: string)

  const NoneName: string := "None"

  /** A quality or bass as displayed: 'None' shows as nothing. */
  function Shown(field: string): (s: string)
    ensures field == NoneName ==> s == ""
    ensures field != NoneName ==> s == field
  {
    if field == NoneName then "" else field
  }

  /** `getChordText`: '' for a missing chord, else root, quality and bass
      run together with the 'None' placeholders dropped. */
  function ChordText(chord: Option<Chord>): (s: string)
  {
    match chord
    case None => ""
    case Some(c) => c.root + Shown(c.quality) + Shown(c.base)
  }

  /** The text starts with the root, is just the root for a plain triad
      without bass, and is empty exactly for a missing chord or one whose
      fields are all empty or placeholders. */
  lemma ChordTextShape(chord: Option<Chord>)
    ensures chord.Some? ==> |chord.value.root| <= |ChordText(chord)| && ChordText(chord)[..|chord.value.root|] == chord.value.root
    ensures chord.Some? && chord.value.quality == NoneName && chord.value.base == NoneName ==> ChordText(chord) == chord.value.root
    ensures ChordText(chord) == "" <==>
              chord.None? || (chord.value.root == "" && Shown(chord.value.quality) == "" && Shown(chord.value.base) == "")
  {
    if chord.Some? {
      var c := chord.value;
      assert ChordText(chord) == c.root + (Shown(c.quality) + Shown(c.base));
    }
  }

  // ---------------------------------------------------------------------
  // Cell keys
  // ---------------------------------------------------------------------

  const BeatsPerMeasure: nat := 4

  /** `${measure}-${beat}`. */
  function CellKey(measure: nat, beat: nat): string {
    NatToString(measure) + "-" + NatToString(beat)
  }

  /** `key.split('-').map(Number)` recovers the measure and the beat. */
  lemma CellKeyRoundTrip(measure: nat, beat: nat)
    ensures Split(CellKey(measure, beat), '-') == [NatToString(measure), NatToString(beat)]
    ensures NumberOfDigits(Split(CellKey(measure, beat), '-')[0]) == Some(measure)
    ensures NumberOfDigits(Split(CellKey(measure, beat), '-')[1]) == Some(beat)
  {
    var parts := [NatToString(measure), NatToString(beat)];
    forall k | 0 <= k < 2 ensures '-' !in parts[k] {
      assert AllDigits(parts[k]);
    }
    assert Join(parts, '-') == CellKey(measure, beat);
    SplitJoinRoundTrip(parts, '-');
    NumberOfNatToString(measure);
    NumberOfNatToString(beat);
  }

  /** Different cells have different keys. */
  lemma CellKeysDistinct(m1: nat, b1: nat, m2: nat, b2: nat)
    requires CellKey(m1, b1) == CellKey(m2, b2)
    ensures m1 == m2 && b1 == b2
  {
    CellKeyRoundTrip(m1, b1);
    CellKeyRoundTrip(m2, b2);
  }

  // ---------------------------------------------------------------------
  // The chord map
  // ---------------------------------------------------------------------

  /** Object entries in insertion order. */
  type ChordMap = seq<(string, Chord)>

  function Keys(m: ChordMap): seq<string> {
    seq(|m|, i requires 0 <= i < |m| => m[i].0)
  }

  /** `m[k]`: the entry's chord, or undefined. */
  function Get(m: ChordMap, k: string): (r: Option<Chord>)
    ensures r.None? <==> k !in Keys(m)
    ensures r.Some? ==> (k, r.value) in m
  {
    if |m| == 0 then None
    else
      assert Keys(m) == [m[0].0] + Keys(m[1..]);
      if m[0].0 == k then Some(m[0].1) else Get(m[1..], k)
  }

  /** `{ ...m, [k]: v }`: an existing key keeps its position and takes the
      new value; a new key goes last. */
  function Put(m: ChordMap, k: string, v: Chord): (r: ChordMap)
    ensures Get(r, k) == Some(v)
    ensures forall j :: j != k ==> Get(r, j) == Get(m, j)
    ensures k in Keys(m) ==> Keys(r) == Keys(m)
    ensures k !in Keys(m) ==> Keys(r) == Keys(m) + [k]
  {
    if |m| == 0 then [(k, v)]
    else
      assert m == [m[0]] + m[1..];
      ConsEntry(m[0], m[1..]);
      if m[0].0 == k then
        ConsEntry((k, v), m[1..]);
        [(k, v)] + m[1..]
      else
        var rest := Put(m[1..], k, v);
        ConsEntry(m[0], rest);
        [m[0]] + rest
  }

  /** Looking up in a map with one more entry in front. */
  lemma ConsEntry(e: (string, Chord), m: ChordMap)
    ensures Keys([e] + m) == [e.0] + Keys(m)
    ensures forall j :: Get([e] + m, j) == if e.0 == j then Some(e.1) else Get(m, j)
  {
    var n := [e] + m;
    assert n[0] == e && n[1..] == m;
  }

  // ---------------------------------------------------------------------
  // The chord lane
  // ---------------------------------------------------------------------

  /** The lane's state: its chords, whether the palette is open, and the
      key of the cell being edited (`null` when none). */
  datatype Lane = Lane(chords: ChordMap, paletteOpen: bool, selected: Option<string>)

  /** `handleDoubleClick`: select the cell and open the palette. */
  function DoubleClick(l: Lane, measure: nat, beat: nat): (r: Lane)
    ensures r.paletteOpen && r.selected == Some(CellKey(measure, beat)) && r.chords == l.chords
  {
    l.(paletteOpen := true, selected := Some(CellKey(measure, beat)))
  }

  /** `handlePaletteClose`: close the palette and forget the selection. */
  function PaletteClose(l: Lane): (r: Lane)
    ensures !r.paletteOpen && r.selected.None? && r.chords == l.chords
  {
    l.(paletteOpen := false, selected := None)
  }

  /** The property name `[selectedChordIndex]` produces: the key, or "null". */
  function SelectedKey(selected: Option<string>): string {
    selected.GetOr("null")
  }

  /** `handlePaletteSave`: the new map, which is also what the change
      callback receives. Only the selected key changes. */
  function PaletteSave(l: Lane, chord: Chord): (r: (Lane, ChordMap))
    ensures r.1 == r.0.chords
    ensures Get(r.0.chords, SelectedKey(l.selected)) == Some(chord)
    ensures forall k :: k != SelectedKey(l.selected) ==> Get(r.0.chords, k) == Get(l.chords, k)
    ensures r.0.paletteOpen == l.paletteOpen && r.0.selected == l.selected
  {
    var chords := Put(l.chords, SelectedKey(l.selected), chord);
    (l.(chords := chords), chords)
  }

  /** The chord the palette is given: the one stored under the selected key. */
  function PaletteInput(l: Lane): Option<Chord> {
    Get(l.chords, SelectedKey(l.selected))
  }

  // ---------------------------------------------------------------------
  // The palette dialog
  // ---------------------------------------------------------------------

  /** What the palette is editing. */
  datatype Palette = Palette(root: string, quality: string, base: string)

  const DefaultPalette: Palette := Palette("C", NoneName, NoneName)

  /** JavaScript's `s || fallback` for a string. */
  function OrElse(s: string, fallback: string): (r: string)
    ensures r == "" ==> fallback == ""
    ensures s != "" ==> r == s
  {
    if s == "" then fallback else s
  }

  /** The reset-on-open effect: when open, each field takes the chord's
      value, falling back to 'C' / 'None' / 'None' for a missing chord or
      an empty field; when closed nothing changes. */
  function OnOpen(p: Palette, open: bool, chord: Option<Chord>): (r: Palette)
    ensures !open ==> r == p
    ensures open && chord.None? ==> r == DefaultPalette
    ensures open && chord.Some? && chord.value.root != "" && chord.value.quality != "" && chord.value.base != "" ==>
              r == Palette(chord.value.root, chord.value.quality, chord.value.base)
  {
    if !open then p
    else match chord
      case None => DefaultPalette
      case Some(c) => Palette(OrElse(c.root, "C"), OrElse(c.quality, NoneName), OrElse(c.base, NoneName))
  }

  /** The change handlers: a `null` value (the toggle being deselected) is
      ignored, any other value replaces its own field only. */
  function ChangeRoot(p: Palette, v: Option<string>): (r: Palette)
    ensures r.quality == p.quality && r.base == p.base
    ensures r.root == v.GetOr(p.root)
  {
    if v.Some? then p.(root := v.value) else p
  }

  function ChangeQuality(p: Palette, v: Option<string>): (r: Palette)
    ensures r.root == p.root && r.base == p.base
    ensures r.quality == v.GetOr(p.quality)
  {
    if v.Some? then p.(quality := v.value) else p
  }

  function ChangeBase(p: Palette, v: Option<string>): (r: Palette)
    ensures r.root == p.root && r.quality == p.quality
    ensures r.base == v.GetOr(p.base)
  {
    if v.Some? then p.(base := v.value) else p
  }

  /** The palette's own `getChordText`, read from its state. */
  function PaletteText(p: Palette): string {
    p.root + (if p.quality == NoneName then "" else p.quality) + (if p.base == NoneName then "" else p.base)
  }

  /** The chord `handleSave` emits. */
  function PaletteChord(p: Palette): Chord {
    Chord(p.root, p.quality, p.base)
  }

  /** The palette previews exactly the text the lane shows once saved. */
  lemma PaletteTextAgrees(p: Palette)
    ensures PaletteText(p) == ChordText(Some(PaletteChord(p)))
  {
  }

  /** The palette's `handleSave` followed by its `onClose`: the lane stores
      the chord under the selected cell and then closes the palette. */
  function SaveAndClose(l: Lane, p: Palette): (r: (Lane, ChordMap))
    ensures r.1 == PaletteSave(l, PaletteChord(p)).1
    ensures !r.0.paletteOpen && r.0.selected.None? && r.0.chords == r.1
  {
    var (saved, callback) := PaletteSave(l, PaletteChord(p));
    (PaletteClose(saved), callback)
  }

  /** Double-clicking a cell and saving the palette untouched stores the
      cell's chord back unchanged when all its fields are filled, and stores
      C with no quality or bass when the cell was empty; no other cell changes. */
  lemma EditUnchanged(l: Lane, p: Palette, measure: nat, beat: nat)
    ensures var editing := DoubleClick(l, measure, beat);
            var shown := OnOpen(p, true, PaletteInput(editing));
            var key := CellKey(measure, beat);
            var (closed, _) := SaveAndClose(editing, shown);
            && (Get(l.chords, key).None? ==> Get(closed.chords, key) == Some(Chord("C", NoneName, NoneName)))
            && (Get(l.chords, key).Some? && Get(l.chords, key).value.root != ""
                && Get(l.chords, key).value.quality != "" && Get(l.chords, key).value.base != "" ==>
                  Get(closed.chords, key) == Get(l.chords, key))
            && (forall k :: k != key ==> Get(closed.chords, k) == Get(l.chords, k))
  {
  }
}

=== FILE: generate.dfy ===
/** Generation in the main editor: when a request may be sent, the chord
    timing sent with a fine-tuned ("sft") model, how the generator's response
    is turned into results and a notice, and how an sft result is spliced
    after the prompt for display. The request itself and the decoders are
    not modelled: their results are inputs. */
module Generate {
  import opened Wrappers
  import opened Timeline
  import opened Text
  import opened Routing
  import opened Chords
  import opened PianoRoll

  // ---------------------------------------------------------------------
  // Preconditions of a request
  // ---------------------------------------------------------------------

  /** An entry of the model list: its name and its `tag.model`, if any. */
  datatype ModelInfo = ModelInfo(name: string, modelType: Option<string>)

  /** `modelInfo.find(m => m.model_name === selected)`, as an index. */
  function FindModel(models: seq<ModelInfo>, selected: string): (r: Option<nat>)
    ensures r.Some? ==> r.value < |models| && models[r.value].name == selected
    ensures r.Some? ==> forall j :: 0 <= j < r.value ==> models[j].name != selected
    ensures r.None? ==> forall k :: 0 <= k < |models| ==> models[k].name != selected
  {
    if |models| == 0 then None
    else if models[0].name == selected then Some(0)
    else match FindModel(models[1..], selected)
      case None => None
      case Some(k) => Some(k + 1)
  }

  /** `modelInfo.find(m => m.model_name === selected)?.tag?.model`: the
      type of the first model with the selected name. */
  function ModelTypeOf(models: seq<ModelInfo>, selected: string): (t: Option<string>)
    ensures t.Some? ==> exists k :: 0 <= k < |models| && models[k].name == selected && models[k].modelType == t
    ensures (forall k :: 0 <= k < |models| ==> models[k].name != selected) ==> t.None?
    ensures forall k ::
              (0 <= k < |models| && models[k].name == selected && (forall j :: 0 <= j < k ==> models[j].name != selected))
              ==> t == models[k].modelType
  {
    match FindModel(models, selected)
    case None => None
    case Some(k) => models[k].modelType
  }

  const Pretrained: string := "pretrained"
  const Sft: string := "sft"

  /** Why a request is refused. */
  datatype Refusal = NoModel | NoUpload | NoSelection

  function RefusalMessage(r: Refusal): string {
    match r
    case NoModel => "Please select a model from the Settings dropdown first."
    case NoUpload => "Please upload a MIDI file first."
    case NoSelection => "ピアノロールで生成元の小節を選択してください。"
  }

  /** The checks at the top of `handleGenerate`, in order. A pretrained
      model needs neither an upload nor a selection. */
  function Refuse(models: seq<ModelInfo>, selected: string, hasOriginal: bool, selectedNotes: nat): (r: Option<Refusal>)
    ensures r == Some(NoModel) <==> selected == ""
    ensures r.None? <==>
              selected != "" && (ModelTypeOf(models, selected) == Some(Pretrained) || (hasOriginal && selectedNotes > 0))
    ensures r == Some(NoUpload) ==> !hasOriginal
    ensures r == Some(NoSelection) ==> hasOriginal && selectedNotes == 0
  {
    var pretrained := ModelTypeOf(models, selected) == Some(Pretrained);
    if selected == "" then Some(NoModel)
    else if !hasOriginal && !pretrained then Some(NoUpload)
    else if selectedNotes == 0 && !pretrained then Some(NoSelection)
    else None
  }

  // ---------------------------------------------------------------------
  // Chord timing
  // ---------------------------------------------------------------------

  /** `prompt.reduce((max, n) => Math.max(max, n.time + n.duration), 0)`. */
  function PromptEnd(prompt: seq<Note>): real {
    MaxEnd(prompt)
  }

  /** `60 / bpm` for the original upload's tempo (120 by default). */
  function SecondsPerBeat(h: Header): real {
    60.0 / Bpm(h)
  }

  /** The grid chords are placed on: seconds per measure and per beat. */
  datatype Meter = Meter(spm: real, spb: real)

  /** The meter of the original upload (120 BPM and 4/4 by default). */
  function MeterOf(h: Header): Meter {
    Meter(SecondsPerMeasure(h), SecondsPerBeat(h))
  }

  /** `measure * secondsPerMeasure + beat * secondsPerBeat`. */
  function StartOf(measure: nat, beat: nat, meter: Meter): real {
    measure as real * meter.spm + beat as real * meter.spb
  }

  /** The start time of the chord stored under `key`: the key is split at
      '-' and both halves read with `Number`; a part that is not a number
      makes the time NaN, written `None`. */
  function ChordStart(key: string, meter: Meter): Option<real> {
    var parts := Split(key, '-');
    var measure := NumberOfDigits(parts[0]);
    var beat := if |parts| > 1 then NumberOfDigits(parts[1]) else None;
    if measure.None? || beat.None? then None
    else Some(StartOf(measure.value, beat.value, meter))
  }

  /** A cell key gives back the start of that measure and beat. */
  lemma ChordStartOfCellKey(measure: nat, beat: nat, meter: Meter)
    ensures ChordStart(CellKey(measure, beat), meter) == Some(StartOf(measure, beat, meter))
  {
    CellKeyRoundTrip(measure, beat);
  }

  /** What an sft request carries about chords: the text of each chord, and
      its offset from the end of the prompt. */
  datatype ChordMeta = ChordMeta(items: seq<string>, times: seq<real>)

  /** Whether the entry is sent: its start is a number at or after the end of the prompt. */
  predicate Sent(entry: (string, Chord), meter: Meter, promptEnd: real) {
    ChordStart(entry.0, meter).Some? && ChordStart(entry.0, meter).value >= promptEnd
  }

  /** The entries sent, in the map's order. */
  function SentEntries(chords: ChordMap, meter: Meter, promptEnd: real): (r: ChordMap)
    ensures |r| <= |chords|
    ensures forall e :: e in r <==> e in chords && Sent(e, meter, promptEnd)
  {
    if |chords| == 0 then []
    else (if Sent(chords[0], meter, promptEnd) then [chords[0]] else []) + SentEntries(chords[1..], meter, promptEnd)
  }

  /** `chord_item` / `chord_times`: for each chord whose start is at or
      after the end of the prompt, in the map's order, its text and its
      offset from the end of the prompt. A NaN start is never at or after
      anything, so such a chord is never sent. */
  function SubsequentChords(chords: ChordMap, meter: Meter, promptEnd: real): (r: ChordMeta)
    ensures |r.items| == |r.times| == |SentEntries(chords, meter, promptEnd)|
    ensures forall k :: 0 <= k < |r.times| ==> r.times[k] >= 0.0
    ensures forall k :: 0 <= k < |r.items| ==>
              var e := SentEntries(chords, meter, promptEnd)[k];
              && e in chords && Sent(e, meter, promptEnd)
              && r.items[k] == ChordText(Some(e.1))
              && r.times[k] + promptEnd == ChordStart(e.0, meter).value
  {
    var sent := SentEntries(chords, meter, promptEnd);
    assert forall k :: 0 <= k < |sent| ==> sent[k] in sent;
    ChordMeta(seq(|sent|, k requires 0 <= k < |sent| => ChordText(Some(sent[k].1))),
              seq(|sent|, k requires 0 <= k < |sent| => ChordStart(sent[k].0, meter).value - promptEnd))
  }

  /** The chord timing of an sft request for the original upload's header. */
  function ChordTiming(chords: ChordMap, original: Header, prompt: seq<Note>): ChordMeta {
    SubsequentChords(chords, MeterOf(original), PromptEnd(prompt))
  }

  // ---------------------------------------------------------------------
  // Response dispatch
  // ---------------------------------------------------------------------

  /** What a decoder makes of some bytes: a value, or the message it throws. */
  datatype Decoded<T> = Decoded(value: T) | Threw(message: string)

  /** A file of the returned archive: its name, its text, and what the MIDI
      decoder makes of its bytes. */
  datatype ArchiveEntry = ArchiveEntry(name: string, text: string, midi: Decoded<Composition>)

  /** The generator's response. A successful one carries its content type
      and what the archive reader and the MIDI decoder each make of the
      body; a failed one its text, the `detail` of that text read as JSON
      (when there is a truthy one), and the status text. */
  datatype Response =
    | Ok(contentType: Option<string>, archive: Decoded<seq<ArchiveEntry>>, midi: Decoded<Composition>)
    | Failed(text: string, detail: Option<string>, statusText: string)

  datatype Severity = Info | Success | Warning | Error

  /** The outcome of a request: the results list (emptied before the
      request), whether result 0 is selected, and the notice shown. */
  datatype Dispatch = Dispatch(results: seq<Composition>, selectFirst: bool, message: string, severity: Severity)

  const ErrorPrefix: string := "An error occurred: "

  predicate IsMidiFile(e: ArchiveEntry) {
    EndsWith(e.name, ".mid")
  }

  predicate IsJsonFile(e: ArchiveEntry) {
    !EndsWith(e.name, ".mid") && EndsWith(e.name, ".json")
  }

  /** The `.mid` entries in archive order. */
  function MidiEntries(entries: seq<ArchiveEntry>): (r: seq<ArchiveEntry>)
    ensures forall e :: e in r <==> e in entries && IsMidiFile(e)
  {
    if |entries| == 0 then []
    else (if IsMidiFile(entries[0]) then [entries[0]] else []) + MidiEntries(entries[1..])
  }

  /** An archive without `.mid` entries yields no MIDI entry. */
  lemma {:induction false} MidiEntriesNone(entries: seq<ArchiveEntry>)
    requires forall e :: e in entries ==> !IsMidiFile(e)
    ensures MidiEntries(entries) == []
    decreases |entries|
  {
    if |entries| > 0 {
      assert entries[0] in entries;
      assert forall e :: e in entries[1..] ==> e in entries;
      MidiEntriesNone(entries[1..]);
    }
  }

  /** The filter distributes over concatenation, so the `.mid` entries keep
      their archive order: those of an earlier part of the archive come
      before those of a later part. */
  lemma {:induction false} MidiEntriesConcat(a: seq<ArchiveEntry>, b: seq<ArchiveEntry>)
    ensures MidiEntries(a + b) == MidiEntries(a) + MidiEntries(b)
    decreases |a|
  {
    if |a| > 0 {
      var head := if IsMidiFile(a[0]) then [a[0]] else [];
      assert (a + b)[0] == a[0];
      assert (a + b)[1..] == a[1..] + b;
      MidiEntriesConcat(a[1..], b);
      calc {
        MidiEntries(a + b);
        head + MidiEntries(a[1..] + b);
        head + (MidiEntries(a[1..]) + MidiEntries(b));
        (head + MidiEntries(a[1..])) + MidiEntries(b);
        MidiEntries(a) + MidiEntries(b);
      }
    } else {
      assert a + b == b;
    }
  }

  /** The texts of the `.json` entries in archive order. */
  function JsonTexts(entries: seq<ArchiveEntry>): (r: seq<string>)
    ensures |r| == 0 <==> forall e :: e in entries ==> !IsJsonFile(e)
  {
    if |entries| == 0 then []
    else (if IsJsonFile(entries[0]) then [entries[0].text] else []) + JsonTexts(entries[1..])
  }

  /** `Promise.all` over the MIDI decodes: every value, or the first message thrown. */
  function DecodeAll(entries: seq<ArchiveEntry>): (r: Decoded<seq<Composition>>)
    ensures r.Decoded? <==> forall e :: e in entries ==> e.midi.Decoded?
    ensures r.Decoded? ==> |r.value| == |entries|
    ensures r.Decoded? ==> forall k :: 0 <= k < |entries| ==> r.value[k] == entries[k].midi.value
  {
    if |entries| == 0 then Decoded([])
    else match entries[0].midi
      case Threw(msg) => Threw(msg)
      case Decoded(m) =>
        match DecodeAll(entries[1..])
        case Threw(msg) => Threw(msg)
        case Decoded(rest) => Decoded([m] + rest)
  }

  /** `errorMessage || response.statusText` where `errorMessage` is the
      truthy `detail`, else the response text. */
  function FailureMessage(text: string, detail: Option<string>, statusText: string): (msg: string)
    ensures detail.Some? && detail.value != "" ==> msg == "Generation failed: " + detail.value
    ensures (detail.None? || detail.value == "") && text != "" ==> msg == "Generation failed: " + text
    ensures (detail.None? || detail.value == "") && text == "" ==> msg == "Generation failed: " + statusText
  {
    var errorMessage := if detail.Some? && detail.value != "" then detail.value else text;
    "Generation failed: " + (if errorMessage != "" then errorMessage else statusText)
  }

  /** The archive branch. */
  function FromArchive(entries: seq<ArchiveEntry>): Dispatch {
    var mids := MidiEntries(entries);
    match DecodeAll(mids)
    case Threw(msg) => Dispatch([], false, ErrorPrefix + msg, Error)
    case Decoded(loaded) =>
      var texts := JsonTexts(entries);
      if |texts| > 0 then Dispatch([], false, Join(texts, '\n'), Info)
      else if |loaded| > 0 then
        Dispatch(loaded, true, "Successfully generated " + NatToString(|loaded|) + " MIDI file(s).", Success)
      else Dispatch([], false, NothingProduced, Warning)
  }

  const NothingProduced: string := "Generation complete, but no relevant files were produced."

  predicate IsArchiveType(contentType: Option<string>) {
    contentType.Some? && Contains(contentType.value, "application/zip")
  }

  predicate IsMidiType(contentType: Option<string>) {
    contentType.Some? && (Contains(contentType.value, "audio/midi") || Contains(contentType.value, "application/x-midi"))
  }

  /** The content type as a template literal prints it (`null` when absent). */
  function ContentTypeText(contentType: Option<string>): string {
    if contentType.Some? then contentType.value else "null"
  }

  /** The whole response branch of `handleGenerate`. */
  function DispatchResponse(r: Response): (d: Dispatch)
    ensures d.selectFirst <==> |d.results| > 0
    ensures |d.results| > 0 <==> d.severity == Success
    ensures r.Failed? ==> d == Dispatch([], false, FailureMessage(r.text, r.detail, r.statusText), Error)
    ensures r.Ok? && r.contentType.Some? && Contains(r.contentType.value, "application/zip") && r.archive.Threw? ==>
              d == Dispatch([], false, ErrorPrefix + r.archive.message, Error)
    ensures r.Ok? && r.contentType.Some? && Contains(r.contentType.value, "application/zip") && r.archive.Decoded?
            && (forall e :: e in r.archive.value ==> !IsMidiFile(e) && !IsJsonFile(e)) ==>
              d == Dispatch([], false, NothingProduced, Warning)
    ensures r.Ok? && !IsArchiveType(r.contentType) && !IsMidiType(r.contentType) ==>
              d == match r.midi
                   case Decoded(m) => Dispatch([m], true, "Successfully generated MIDI file (fallback).", Success)
                   case Threw(_) => Dispatch([], false, "Unknown response format: " + ContentTypeText(r.contentType), Error)
  {
    match r
    case Failed(text, detail, statusText) => Dispatch([], false, FailureMessage(text, detail, statusText), Error)
    case Ok(contentType, archive, midi) =>
      if IsArchiveType(contentType) then
        match archive
        case Threw(msg) => Dispatch([], false, ErrorPrefix + msg, Error)
        case Decoded(entries) =>
          var d := FromArchive(entries);
          assert (forall e :: e in entries ==> !IsMidiFile(e) && !IsJsonFile(e)) ==> d == Dispatch([], false, NothingProduced, Warning) by {
            if forall e :: e in entries ==> !IsMidiFile(e) && !IsJsonFile(e) {
              MidiEntriesNone(entries);
            }
          }
          assert d.severity == Success ==> |d.results| > 0 by {
            if d.severity == Success {
              assert DecodeAll(MidiEntries(entries)).Decoded?;
            }
          }
          d
      else if IsMidiType(contentType) then
        match midi
        case Threw(msg) => Dispatch([], false, ErrorPrefix + msg, Error)
        case Decoded(m) => Dispatch([m], true, "Successfully generated MIDI file.", Success)
      else
        match midi
        case Threw(_) =>
          Dispatch([], false, "Unknown response format: " + ContentTypeText(contentType), Error)
        case Decoded(m) => Dispatch([m], true, "Successfully generated MIDI file (fallback).", Success)
  }

  /** An archive holding any `.json` file shows the joined texts and keeps
      no MIDI, even when MIDI files are present. */
  lemma ArchiveJsonWins(ct: string, entries: seq<ArchiveEntry>, midi: Decoded<Composition>)
    requires Contains(ct, "application/zip")
    requires forall e :: e in entries && IsMidiFile(e) ==> e.midi.Decoded?
    requires exists e :: e in entries && IsJsonFile(e)
    ensures DispatchResponse(Ok(Some(ct), Decoded(entries), midi)) ==
              Dispatch([], false, Join(JsonTexts(entries), '\n'), Info)
  {
  }

  /** An archive of MIDI files only yields those files, in order, with the
      first selected. */
  lemma ArchiveMidisOnly(ct: string, entries: seq<ArchiveEntry>, midi: Decoded<Composition>)
    requires Contains(ct, "application/zip")
    requires forall e :: e in entries ==> IsMidiFile(e) && e.midi.Decoded?
    requires |entries| > 0
    ensures var d := DispatchResponse(Ok(Some(ct), Decoded(entries), midi));
            && d.selectFirst && d.severity == Success
            && |d.results| == |entries|
            && forall k :: 0 <= k < |entries| ==> d.results[k] == entries[k].midi.value
  {
    assert MidiEntries(entries) == entries by {
      MidiEntriesAll(entries);
    }
    assert entries[0] in entries;
  }

  lemma {:induction false} MidiEntriesAll(entries: seq<ArchiveEntry>)
    requires forall e :: e in entries ==> IsMidiFile(e)
    ensures MidiEntries(entries) == entries
    decreases |entries|
  {
    if |entries| > 0 {
      assert entries[0] in entries;
      assert forall e :: e in entries[1..] ==> e in entries;
      MidiEntriesAll(entries[1..]);
      assert entries == [entries[0]] + entries[1..];
    }
  }

  /** A MIDI content type gives exactly one result. */
  lemma MidiResponseSingle(ct: string, archive: Decoded<seq<ArchiveEntry>>, m: Composition)
    requires !Contains(ct, "application/zip") && Contains(ct, "audio/midi")
    ensures DispatchResponse(Ok(Some(ct), archive, Decoded(m))).results == [m]
  {
  }

  // ---------------------------------------------------------------------
  // Combining an sft result with the prompt
  // ---------------------------------------------------------------------

  /** The notes of `notes` that start before `end`, in order. */
  function Before(notes: seq<Note>, end: real): (r: seq<Note>)
    ensures forall n :: n in r <==> n in notes && n.time < end
  {
    if |notes| == 0 then []
    else (if notes[0].time < end then [notes[0]] else []) + Before(notes[1..], end)
  }

  /** The prompt part of the combined track: the notes before `end` of every
      track that is not muted, track by track. */
  function PromptNotes(tracks: seq<Track>, mutes: Flags, end: real): (r: seq<Note>)
    ensures forall n :: n in r <==>
              exists i :: 0 <= i < |tracks| && !Flag(mutes, i) && n in tracks[i].notes && n.time < end
    decreases |tracks|
  {
    if |tracks| == 0 then []
    else
      var init := tracks[..|tracks| - 1];
      var rest := PromptNotes(init, mutes, end);
      var own := if Flag(mutes, |tracks| - 1) then [] else Before(tracks[|tracks| - 1].notes, end);
      assert forall i :: 0 <= i < |init| ==> init[i] == tracks[i];
      rest + own
  }

  /** Every generated note, track by track, moved `delta` seconds later. */
  function Continuation(generated: Composition, delta: real): (r: seq<Note>)
    ensures |r| == NoteCount(generated.tracks)
    ensures forall k :: 0 <= k < |r| ==> r[k] == Moved(AllNotes(generated.tracks)[k], delta)
  {
    var all := AllNotes(generated.tracks);
    seq(|all|, k requires 0 <= k < |all| => Moved(all[k], delta))
  }

  /** The selected-result effect: `None` when it sets nothing. A pretrained
      result is shown as it is; an sft result becomes one track holding the
      prompt part followed by the generated notes moved to the end of the
      prompt, under the original upload's header. */
  function Combine(modelType: Option<string>, generated: seq<Composition>, selected: int,
                   original: Option<Composition>, prompt: seq<Note>, mutes: Flags): (r: Option<Composition>)
    ensures r.Some? ==> 0 <= selected < |generated| && modelType.Some?
    ensures modelType == Some(Pretrained) && 0 <= selected < |generated| ==> r == Some(generated[selected])
    ensures modelType == Some(Sft) && 0 <= selected < |generated| && original.Some? ==>
              && r.Some? && r.value.header == original.value.header && |r.value.tracks| == 1
              && r.value.tracks[0].notes ==
                   PromptNotes(original.value.tracks, mutes, PromptEnd(prompt)) + Continuation(generated[selected], PromptEnd(prompt))
  {
    if modelType.None? || modelType.value == "" || !(0 <= selected < |generated|) then None
    else if modelType.value == Pretrained then Some(generated[selected])
    else if modelType.value == Sft then
      match original
      case None => None
      case Some(o) =>
        var end := PromptEnd(prompt);
        Some(Composition(o.header, [Track(PromptNotes(o.tracks, mutes, end) + Continuation(generated[selected], end), 0, 0)]))
    else None
  }

  /** In a combined sft track every prompt note starts before every
      continuation note (for generated notes at non-negative times), and the
      muted tracks contribute nothing. */
  lemma CombineSeam(generated: seq<Composition>, selected: nat, original: Composition, prompt: seq<Note>, mutes: Flags)
    requires selected < |generated|
    requires forall i, n :: 0 <= i < |generated[selected].tracks| && n in generated[selected].tracks[i].notes ==> n.time >= 0.0
    ensures var r := Combine(Some(Sft), generated, selected, Some(original), prompt, mutes).value.tracks[0].notes;
            var p := |PromptNotes(original.tracks, mutes, PromptEnd(prompt))|;
            && (forall a, b :: 0 <= a < p <= b < |r| ==> r[a].time < r[b].time)
            && (forall a :: 0 <= a < p ==> exists i :: 0 <= i < |original.tracks| && !Flag(mutes, i) && r[a] in original.tracks[i].notes)
  {
    var end := PromptEnd(prompt);
    var pre := PromptNotes(original.tracks, mutes, end);
    var post := Continuation(generated[selected], end);
    var r := pre + post;
    var all := AllNotes(generated[selected].tracks);
    forall a, b | 0 <= a < |pre| <= b < |r|
      ensures r[a].time < r[b].time
    {
      assert r[a] == pre[a] && pre[a] in pre;
      assert r[b] == post[b - |pre|];
      assert all[b - |pre|] in all;
    }
    forall a | 0 <= a < |pre|
      ensures exists i :: 0 <= i < |original.tracks| && !Flag(mutes, i) && r[a] in original.tracks[i].notes
    {
      assert r[a] == pre[a] && pre[a] in pre;
    }
  }
}

=== FILE: keyselector.dfy ===
/** The key dialog: a root (one of the twelve pitch classes) and a scale
    (major "M" or minor "m"), read from and written back to a key string
    such as "F# m". */
module KeySelector {
  import opened Wrappers
  import opened Text

  const Roots: seq<string> := ["C", "C#", "D", "D#", "E", "F", "F#", "G", "G#", "A", "A#", "B"]
  const Scales: seq<string> := ["M", "m"]

  /** The dialog's state: the root and scale being edited. */
  datatype Picker = Picker(root: string, scale: string)

  /** The state a fresh dialog starts in. */
  const DefaultPicker: Picker := Picker("C", "M")

  /** `currentKey.split(' ')` destructured into `[root, scale]`: the second
      part is absent when there is no space. */
  function KeyParts(key: string): (r: (string, Option<string>))
    ensures r.0 == Split(key, ' ')[0]
    ensures |Split(key, ' ')| >= 2 <==> r.1.Some?
    ensures r.1.Some? ==> r.1.value == Split(key, ' ')[1]
  {
    var parts := Split(key, ' ');
    (parts[0], if |parts| >= 2 then Some(parts[1]) else None)
  }

  /** The effect on open: with the dialog open and a non-empty key, the
      root is taken when it is one of the twelve and the scale when it is
      M or m; anything else keeps the value already shown. */
  function OnOpen(p: Picker, open: bool, currentKey: string): (r: Picker)
    ensures !open || currentKey == "" ==> r == p
    ensures open && currentKey != "" ==>
              && (KeyParts(currentKey).0 in Roots ==> r.root == KeyParts(currentKey).0)
              && (KeyParts(currentKey).0 !in Roots ==> r.root == p.root)
              && (KeyParts(currentKey).1.Some? && KeyParts(currentKey).1.value in Scales ==> r.scale == KeyParts(currentKey).1.value)
              && (KeyParts(currentKey).1.None? || KeyParts(currentKey).1.value !in Scales ==> r.scale == p.scale)
  {
    if !open || currentKey == "" then p
    else
      var (root, scale) := KeyParts(currentKey);
      var p1 := if root in Roots then p.(root := root) else p;
      if scale.Some? && scale.value in Scales then p1.(scale := scale.value) else p1
  }

  /** A well-formed picker: a known root and a known scale. */
  predicate Valid(p: Picker) {
    p.root in Roots && p.scale in Scales
  }

  /** `handleSave`: the key string handed to `onSave`, `${root} ${scale}`;
      the dialog then closes. */
  function Save(p: Picker): (r: (string, bool))
    ensures !r.1
    ensures Valid(p) ==> Split(r.0, ' ') == [p.root, p.scale]
  {
    var key := p.root + " " + p.scale;
    assert Valid(p) ==> Split(key, ' ') == [p.root, p.scale] by {
      if Valid(p) {
        NoSpaceInNames(p);
        assert Join([p.root, p.scale], ' ') == key;
        SplitJoinRoundTrip([p.root, p.scale], ' ');
      }
    }
    (key, false)
  }

  lemma NoSpaceInNames(p: Picker)
    requires Valid(p)
    ensures ' ' !in p.root && ' ' !in p.scale
  {
  }

  /** Saving a valid key and opening the dialog again on it restores exactly
      the saved root and scale, whatever the dialog showed in between. */
  lemma SaveThenOpenRoundTrip(p: Picker, shown: Picker)
    requires Valid(p)
    ensures OnOpen(shown, true, Save(p).0) == p
  {
    var key := Save(p).0;
    assert KeyParts(key) == (p.root, Some(p.scale));
  }

  /** A key whose parts are not recognised leaves the dialog's defaults in
      place; a recognised root alone moves only the root. */
  lemma UnknownKeyKeepsDefaults(key: string)
    requires key != "" && KeyParts(key).0 !in Roots
    requires KeyParts(key).1.None? || KeyParts(key).1.value !in Scales
    ensures OnOpen(DefaultPicker, true, key) == DefaultPicker
  {
  }

  /** A key with only a root, such as "D", changes the root and keeps the scale. */
  lemma RootOnlyKey(root: string, p: Picker)
    requires root in Roots
    ensures OnOpen(p, true, root) == p.(root := root)
  {
    NoSpaceInNames(Picker(root, "M"));
    SplitSingle(root, ' ');
  }
}

=== FILE: pianoroll.dfy ===
/** Measure arithmetic and geometry of the read-only piano roll: how many
    measures the canvas shows, where the measure lines go, where each note
    bar and the playhead are drawn. */
module PianoRoll {
  import opened Wrappers
  import opened Timeline

  const PixelsPerSecond: real := 80.0
  const NoteHeight: int := 6
  /** Measures shown when there is nothing to play, to keep an editable canvas. */
  const EmptyMeasures: int := 12

  /** The header the view reads: the composition's, or an empty one (giving
      the defaults) when no MIDI data is loaded. */
  function ViewHeader(midi: Option<Composition>): Header {
    match midi
    case Some(c) => c.header
    case None => Header([], [])
  }

  /** `timeSignatures[0]?.timeSignature || [4, 4]`, first component. */
  function Beats(h: Header): (b: int)
    ensures ValidHeader(h) ==> b > 0
    ensures |h.timeSignatures| == 0 ==> b == 4
  {
    if |h.timeSignatures| > 0 then h.timeSignatures[0].beats else 4
  }

  /** `(60 / bpm) * beats`: a measure of `Beats(h)` beats at `Bpm(h)` beats per minute. */
  function SecondsPerMeasure(h: Header): (spm: real)
    ensures ValidHeader(h) ==> spm > 0.0
    ensures spm * Bpm(h) == 60.0 * Beats(h) as real
  {
    (60.0 / Bpm(h)) * Beats(h) as real
  }

  function PixelsPerMeasure(h: Header): (ppm: real)
    ensures ValidHeader(h) ==> ppm > 0.0
    ensures ppm == SecondsPerMeasure(h) * PixelsPerSecond
  {
    SecondsPerMeasure(h) * PixelsPerSecond
  }

  /** `Math.ceil(x)` for a real. */
  function Ceil(x: real): (m: int)
    ensures m as real >= x && (m - 1) as real < x
  {
    -((-x).Floor)
  }

  /** `duration > 0 ? Math.ceil(duration / spm) : 12`: the fewest whole
      measures covering the duration, or 12 for an empty canvas. */
  function TotalMeasures(duration: real, spm: real): (m: int)
    requires spm > 0.0
    ensures duration > 0.0 ==> m >= 1 && m as real * spm >= duration && (m - 1) as real * spm < duration
    ensures duration <= 0.0 ==> m == EmptyMeasures
  {
    if duration > 0.0 then
      var m := Ceil(duration / spm);
      CeilScales(duration, spm, m);
      m
    else EmptyMeasures
  }

  lemma CeilScales(duration: real, spm: real, m: int)
    requires spm > 0.0 && duration > 0.0
    requires m as real >= duration / spm && (m - 1) as real < duration / spm
    ensures m >= 1 && m as real * spm >= duration && (m - 1) as real * spm < duration
  {
    var q := duration / spm;
    assert q * spm == duration;
    assert q > 0.0;
    MulMonotone(q, m as real, spm);
    MulStrict((m - 1) as real, q, spm);
  }

  /** `Array.from({length: totalMeasures}, (_, i) => (i + 1) * pixelsPerMeasure)`. */
  function MeasureLines(totalMeasures: nat, ppm: real): (lines: seq<real>)
    ensures |lines| == totalMeasures
    ensures forall i :: 0 <= i < totalMeasures ==> lines[i] == (i + 1) as real * ppm
  {
    seq(totalMeasures, i => (i + 1) as real * ppm)
  }

  /** The measure lines are strictly increasing, start one measure in and the
      last one sits on the right edge of the canvas. */
  lemma MeasureLinesIncreasing(totalMeasures: nat, ppm: real)
    requires ppm > 0.0
    ensures forall i, j :: 0 <= i < j < totalMeasures ==>
              MeasureLines(totalMeasures, ppm)[i] < MeasureLines(totalMeasures, ppm)[j]
    ensures totalMeasures > 0 ==> MeasureLines(totalMeasures, ppm)[0] == ppm
    ensures totalMeasures > 0 ==> MeasureLines(totalMeasures, ppm)[totalMeasures - 1] == totalMeasures as real * ppm
  {
    var lines := MeasureLines(totalMeasures, ppm);
    forall i, j | 0 <= i < j < totalMeasures
      ensures lines[i] < lines[j]
    {
      MulStrict((i + 1) as real, (j + 1) as real, ppm);
    }
  }

  /** The box a `NoteBar` occupies: pixels from the top, from the left, and width. */
  datatype Bar = Bar(top: int, left: real, width: real)

  /** `top = (127 - midi) * 6`, `left = time * 80`, `width = duration * 80`. */
  function NoteBar(n: Note): (b: Bar)
    ensures 0 <= n.midi <= 127 ==> 0 <= b.top <= 127 * NoteHeight
    ensures b.left + b.width == End(n) * PixelsPerSecond
  {
    Bar((127 - n.midi) * NoteHeight, n.time * PixelsPerSecond, n.duration * PixelsPerSecond)
  }

  /** Higher pitches are drawn higher, one full row apart, so bars of
      different pitches never overlap vertically. */
  lemma NoteRowsDisjoint(a: Note, b: Note)
    requires a.midi > b.midi
    ensures NoteBar(a).top + NoteHeight <= NoteBar(b).top
  {
  }

  /** `progress * totalDuration * pixelsPerSecond`. */
  function Playhead(progress: real, duration: real): real {
    progress * duration * PixelsPerSecond
  }

  /** `totalMeasures * pixelsPerMeasure`. */
  function ContentWidth(h: Header, duration: real): real
    requires ValidHeader(h)
  {
    TotalMeasures(duration, SecondsPerMeasure(h)) as real * PixelsPerMeasure(h)
  }

  /** Every note of the composition is drawn inside the canvas. */
  lemma NotesFitCanvas(c: Composition, i: nat, n: Note)
    requires ValidHeader(c.header)
    requires i < |c.tracks| && n in c.tracks[i].notes && n.time >= 0.0
    ensures 0.0 <= NoteBar(n).left
    ensures NoteBar(n).left + NoteBar(n).width <= ContentWidth(c.header, Duration(c))
  {
    DurationIsLatestEnd(c);
    var spm := SecondsPerMeasure(c.header);
    var m := TotalMeasures(Duration(c), spm);
    if Duration(c) <= 0.0 {
      assert End(n) <= 0.0;
      assert m as real * spm > 0.0;
    }
    assert End(n) <= m as real * spm;
    MulMonotone(End(n), m as real * spm, PixelsPerSecond);
  }

  /** With progress in [0, 1] the playhead stays between the left edge and
      the end of the canvas. */
  lemma PlayheadWithinCanvas(h: Header, progress: real, duration: real)
    requires ValidHeader(h)
    requires 0.0 <= progress <= 1.0 && duration >= 0.0
    ensures 0.0 <= Playhead(progress, duration) <= ContentWidth(h, duration)
  {
    var spm := SecondsPerMeasure(h);
    var m := TotalMeasures(duration, spm);
    var w := m as real * spm;
    assert duration <= w by {
      if duration == 0.0 {
        assert w > 0.0;
      }
    }
    var pd := progress * duration;
    assert 0.0 <= pd <= duration by {
      if duration > 0.0 {
        MulMonotone(progress, 1.0, duration);
        MulMonotone(0.0, progress, duration);
      }
    }
    MulMonotone(pd, w, PixelsPerSecond);
    Regroup(m as real, spm, PixelsPerSecond);
  }

  lemma Regroup(a: real, b: real, c: real)
    ensures a * (b * c) == (a * b) * c
  {
  }
}

=== FILE: player.dfy ===
/** The main editor's player: the transport's scheduled note events, the
    rescheduling effect that rebuilds them whenever the composition or its
    instruments change, and the play / pause / stop / clear handlers. */
module Player {
  import opened Wrappers
  import opened Timeline
  import opened Routing

  /** One scheduled callback: play `note` on the instrument of `track` at `note.time`. */
  datatype NoteEvent = NoteEvent(track: nat, note: Note)

  /** The part of `Tone.Transport` the player drives: scheduled callbacks by
      id, the next id it will hand out, and the loop region. */
  datatype Transport = Transport(events: map<nat, NoteEvent>, nextId: nat, loop: bool, loopStart: real, loopEnd: real)

  /** Ids the transport hands out are fresh: every id in use is below `nextId`. */
  predicate FreshIds(t: Transport) {
    forall id :: id in t.events ==> id < t.nextId
  }

  /** One event per note of track `i`, in the order of its notes. */
  function TrackEvents(i: nat, notes: seq<Note>): (es: seq<NoteEvent>)
    ensures |es| == |notes|
    ensures forall j :: 0 <= j < |notes| ==> es[j] == NoteEvent(i, notes[j])
  {
    seq(|notes|, j requires 0 <= j < |notes| => NoteEvent(i, notes[j]))
  }

  /** The events the scheduling effect issues: track by track, note by note. */
  function Events(tracks: seq<Track>): seq<NoteEvent>
    decreases |tracks|
  {
    if |tracks| == 0 then []
    else Events(tracks[..|tracks| - 1]) + TrackEvents(|tracks| - 1, tracks[|tracks| - 1].notes)
  }

  /** The events are exactly the notes of the tracks, each tagged with its
      track: one per note, none filtered out (mute flags are not consulted). */
  lemma {:induction false} EventsAreNotes(tracks: seq<Track>)
    ensures |Events(tracks)| == NoteCount(tracks)
    ensures forall e :: e in Events(tracks) <==> e.track < |tracks| && e.note in tracks[e.track].notes
    decreases |tracks|
  {
    if |tracks| > 0 {
      var init := tracks[..|tracks| - 1];
      var last := tracks[|tracks| - 1];
      EventsAreNotes(init);
      NoteCountSnoc(init, last);
      assert tracks == init + [last];
      forall e ensures e in Events(tracks) <==> e.track < |tracks| && e.note in tracks[e.track].notes {
        if e.track == |tracks| - 1 && e.note in last.notes {
          var j :| 0 <= j < |last.notes| && last.notes[j] == e.note;
          assert TrackEvents(|tracks| - 1, last.notes)[j] == e;
        }
        if e in TrackEvents(|tracks| - 1, last.notes) {
          var j :| 0 <= j < |last.notes| && TrackEvents(|tracks| - 1, last.notes)[j] == e;
        }
      }
    }
  }

  lemma {:induction false} NoteCountSnoc(tracks: seq<Track>, t: Track)
    ensures NoteCount(tracks + [t]) == NoteCount(tracks) + |t.notes|
    decreases |tracks|
  {
    if |tracks| == 0 {
      assert [t][1..] == [];
    } else {
      assert (tracks + [t])[1..] == tracks[1..] + [t];
      NoteCountSnoc(tracks[1..], t);
    }
  }

  /** The scheduling effect runs only with a composition loaded, the
      instruments loaded, and one instrument per track. */
  predicate ShouldSchedule(midi: Option<Composition>, samplerLoaded: bool, instruments: nat) {
    midi.Some? && samplerLoaded && instruments == |midi.value.tracks|
  }

  /** The transport after cancelling `issued` and scheduling `es` under
      fresh consecutive ids, and the ids issued. */
  function Replaced(t: Transport, issued: seq<nat>, es: seq<NoteEvent>): (r: (map<nat, NoteEvent>, seq<nat>))
    requires FreshIds(t)
    ensures |r.1| == |es|
    ensures forall k :: 0 <= k < |r.1| ==> r.1[k] == t.nextId + k
    ensures forall id :: id in r.0 <==> (id in t.events && id !in issued) || t.nextId <= id < t.nextId + |es|
    ensures forall id :: id in t.events && id !in issued ==> r.0[id] == t.events[id]
    ensures forall k :: 0 <= k < |es| ==> r.0[t.nextId + k] == es[k]
  {
    (Kept(t, issued) + Numbered(t.nextId, es), Ids(t.nextId, |es|))
  }

  /** The callbacks that survive cancelling `issued`. */
  function Kept(t: Transport, issued: seq<nat>): map<nat, NoteEvent> {
    map id | id in t.events && id !in issued :: t.events[id]
  }

  /** What rescheduling leaves behind: the previously issued ids cancelled,
      one fresh id per event of `Events(tracks)`, and the transport looping
      over the whole composition. */
  function Rescheduled(c: Composition, t: Transport, issued: seq<nat>): (r: (Transport, seq<nat>))
    requires FreshIds(t)
  {
    var (events, ids) := Replaced(t, issued, Events(c.tracks));
    (Transport(events, t.nextId + |ids|, true, 0.0, Duration(c)), ids)
  }

  /** `es` under consecutive ids from `first`. */
  function Numbered(first: nat, es: seq<NoteEvent>): (m: map<nat, NoteEvent>)
    ensures forall id :: id in m <==> first <= id < first + |es|
    ensures forall k :: 0 <= k < |es| ==> m[first + k] == es[k]
    decreases |es|
  {
    if |es| == 0 then map[]
    else Numbered(first, es[..|es| - 1])[first + |es| - 1 := es[|es| - 1]]
  }

  /** `n` consecutive ids from `first`. */
  function Ids(first: nat, n: nat): (ids: seq<nat>)
    ensures |ids| == n
    ensures forall k :: 0 <= k < n ==> ids[k] == first + k
  {
    seq(n, k => first + k)
  }

  /** The scheduling effect: when it should run, cancels every id it issued
      last time, then schedules one callback per note of every track and
      loops the transport over `[0, duration]`; otherwise leaves everything. */
  method Reschedule(midi: Option<Composition>, samplerLoaded: bool, instruments: nat, t: Transport, issued: seq<nat>)
      returns (t': Transport, issued': seq<nat>)
    requires FreshIds(t)
    ensures !ShouldSchedule(midi, samplerLoaded, instruments) ==> t' == t && issued' == issued
    ensures ShouldSchedule(midi, samplerLoaded, instruments) ==> (t', issued') == Rescheduled(midi.value, t, issued)
  {
    if !ShouldSchedule(midi, samplerLoaded, instruments) {
      return t, issued;
    }
    var c := midi.value;
    var added, ids := ScheduleAll(t.nextId, c.tracks);
    t' := Transport(Kept(t, issued) + added, t.nextId + |ids|, true, 0.0, Duration(c));
    issued' := ids;
    RescheduledIs(c, t, issued);
  }

  /** The outer loop of the scheduling effect: track by track, each note
      under the next id from `first`. */
  method ScheduleAll(first: nat, tracks: seq<Track>) returns (added: map<nat, NoteEvent>, ids: seq<nat>)
    ensures added == Numbered(first, Events(tracks))
    ensures ids == Ids(first, |Events(tracks)|)
  {
    added, ids := map[], [];
    var i := 0;
    while i < |tracks|
      invariant 0 <= i <= |tracks|
      invariant added == Numbered(first, Events(tracks[..i]))
      invariant ids == Ids(first, |Events(tracks[..i])|)
    {
      EventsSnoc(tracks, i);
      added, ids := ScheduleTrack(first, Events(tracks[..i]), added, ids, i, tracks[i].notes);
      i := i + 1;
    }
    assert tracks[..i] == tracks;
  }

  /** One more track appends its events after those of the tracks before it. */
  lemma EventsSnoc(tracks: seq<Track>, i: nat)
    requires i < |tracks|
    ensures Events(tracks[..i + 1]) == Events(tracks[..i]) + TrackEvents(i, tracks[i].notes)
  {
    assert tracks[..i + 1][..i] == tracks[..i];
  }

  /** `Rescheduled` spelled out: the kept callbacks, then the events under
      consecutive fresh ids. */
  lemma RescheduledIs(c: Composition, t: Transport, issued: seq<nat>)
    requires FreshIds(t)
    ensures var es := Events(c.tracks);
            Rescheduled(c, t, issued) ==
              (Transport(Kept(t, issued) + Numbered(t.nextId, es), t.nextId + |es|, true, 0.0, Duration(c)),
               Ids(t.nextId, |es|))
  {
  }

  /** The parts of `Rescheduled` are those of `Replaced`. */
  lemma RescheduledParts(c: Composition, t: Transport, issued: seq<nat>)
    requires FreshIds(t)
    ensures Rescheduled(c, t, issued).0.events == Replaced(t, issued, Events(c.tracks)).0
    ensures Rescheduled(c, t, issued).1 == Replaced(t, issued, Events(c.tracks)).1
  {
  }

  lemma EventCount(tracks: seq<Track>)
    ensures |Events(tracks)| == NoteCount(tracks)
  {
    EventsAreNotes(tracks);
  }

  /** The inner loop of the scheduling effect: one fresh id per note of
      track `i`, numbered on from the events already scheduled. */
  method ScheduleTrack(first: nat, before: seq<NoteEvent>, added: map<nat, NoteEvent>, ids: seq<nat>, i: nat, notes: seq<Note>)
      returns (added': map<nat, NoteEvent>, ids': seq<nat>)
    requires added == Numbered(first, before)
    requires ids == Ids(first, |before|)
    ensures added' == Numbered(first, before + TrackEvents(i, notes))
    ensures ids' == Ids(first, |before| + |notes|)
  {
    ghost var es := before + TrackEvents(i, notes);
    added', ids' := added, ids;
    var j := 0;
    while j < |notes|
      invariant 0 <= j <= |notes|
      invariant forall id :: id in added' <==> first <= id < first + |before| + j
      invariant forall k :: 0 <= k < |before| + j ==> added'[first + k] == es[k]
      invariant |ids'| == |before| + j
      invariant forall k :: 0 <= k < |ids'| ==> ids'[k] == first + k
    {
      var e := NoteEvent(i, notes[j]);
      assert es[|before| + j] == e;
      var next := first + |before| + j;
      added' := added'[next := e];
      ids' := ids' + [next];
      j := j + 1;
    }
    NumberedOf(first, es, added');
    IdsOf(first, |es|, ids');
  }

  /** A map holding exactly `es` under consecutive ids from `first` is
      `Numbered(first, es)`. */
  lemma NumberedOf(first: nat, es: seq<NoteEvent>, m: map<nat, NoteEvent>)
    requires forall id :: id in m <==> first <= id < first + |es|
    requires forall k :: 0 <= k < |es| ==> m[first + k] == es[k]
    ensures m == Numbered(first, es)
  {
    var n := Numbered(first, es);
    forall id | id in m
      ensures m[id] == n[id]
    {
      assert m[first + (id - first)] == es[id - first];
    }
  }

  /** A sequence of consecutive ids from `first` is `Ids(first, n)`. */
  lemma IdsOf(first: nat, n: nat, ids: seq<nat>)
    requires |ids| == n && forall k :: 0 <= k < n ==> ids[k] == first + k
    ensures ids == Ids(first, n)
  {
  }

  /** Rescheduling issues one fresh id per note, all distinct and all live. */
  lemma RescheduleIssuesOnePerNote(c: Composition, t: Transport, issued: seq<nat>)
    requires FreshIds(t)
    ensures var r := Rescheduled(c, t, issued);
            && |r.1| == NoteCount(c.tracks)
            && (forall k, l :: 0 <= k < l < |r.1| ==> r.1[k] != r.1[l])
            && (forall k :: 0 <= k < |r.1| ==> r.1[k] in r.0.events && r.0.events[r.1[k]] == Events(c.tracks)[k])
  {
    RescheduledParts(c, t, issued);
    EventCount(c.tracks);
  }

  /** The callbacks behind the issued ids are exactly the notes of the
      composition: every note of every track, muted or not, and nothing else. */
  lemma RescheduleCoversEveryNote(c: Composition, t: Transport, issued: seq<nat>, e: NoteEvent)
    requires FreshIds(t)
    ensures var r := Rescheduled(c, t, issued);
            (exists k :: 0 <= k < |r.1| && r.0.events[r.1[k]] == e) <==> e.track < |c.tracks| && e.note in c.tracks[e.track].notes
  {
    var r := Rescheduled(c, t, issued);
    var es := Events(c.tracks);
    EventsAreNotes(c.tracks);
    RescheduleIssuesOnePerNote(c, t, issued);
    if e in es {
      var k :| 0 <= k < |es| && es[k] == e;
      assert r.0.events[r.1[k]] == e;
    }
  }

  /** None of the ids issued before survives unless it was issued again,
      and callbacks scheduled by anyone else are left alone; so rescheduling
      twice never plays a note twice. */
  lemma RescheduleCancelsPrevious(c: Composition, t: Transport, issued: seq<nat>)
    requires FreshIds(t)
    ensures var r := Rescheduled(c, t, issued);
            && (forall id :: id in issued && id !in r.1 ==> id !in r.0.events)
            && (forall id :: id in t.events && id !in issued ==> id in r.0.events && r.0.events[id] == t.events[id])
  {
    var r := Rescheduled(c, t, issued);
    forall id | id in issued && id in r.0.events
      ensures id in r.1
    {
      assert r.1[id - t.nextId] == id;
    }
  }

  // ---------------------------------------------------------------------
  // Transport handlers
  // ---------------------------------------------------------------------

  datatype PlayState = Stopped | Playing | Paused

  /** The player state the handlers read and write. `instruments` counts the
      loaded instruments. */
  datatype Deck = Deck(
    mixer: Mixer,
    original: Option<Composition>,
    generated: seq<Composition>,
    instruments: nat,
    samplerLoaded: bool,
    state: PlayState,
    position: real,
    progress: real)

  /** `handlePlay`: ignored without a composition or before the instruments
      are loaded; otherwise starts the transport where it stands. */
  function Play(d: Deck): (r: Deck)
    ensures r.state == Playing <==> d.state == Playing || (d.mixer.midi.Some? && d.samplerLoaded)
    ensures r.position == d.position && r.progress == d.progress && r.mixer == d.mixer
  {
    if d.mixer.midi.None? || !d.samplerLoaded then d else d.(state := Playing)
  }

  /** `handlePause`: stops the transport where it stands. */
  function Pause(d: Deck): (r: Deck)
    ensures r.state == Paused && r.position == d.position && r.progress == d.progress
  {
    d.(state := Paused)
  }

  /** `handleStop`: stops the transport and rewinds it and the progress bar to 0. */
  function Stop(d: Deck): (r: Deck)
    ensures r.state == Stopped && r.position == 0.0 && r.progress == 0.0
    ensures r.mixer == d.mixer && r.original == d.original && r.generated == d.generated
  {
    d.(state := Stopped, position := 0.0, progress := 0.0)
  }

  /** `clearAllTracks`: drops the composition, the original upload, the
      generated results, the instruments and every flag, then stops. */
  function ClearAll(d: Deck): (r: Deck)
    ensures r.mixer == Mixer(None, map[], map[]) && r.original.None? && r.generated == [] && r.instruments == 0
    ensures r.state == Stopped && r.position == 0.0 && r.progress == 0.0
  {
    Stop(d.(mixer := Mixer(None, map[], map[]), original := None, generated := [], instruments := 0))
  }

  /** After clearing, play is refused, the scheduling effect's guard is
      closed so no new events are issued, and every track would play at
      full gain. (Events scheduled before the clear stay registered:
      stopping the transport does not cancel them.) */
  lemma ClearAllIsQuiet(d: Deck)
    ensures Play(ClearAll(d)).state == Stopped
    ensures !ShouldSchedule(ClearAll(d).mixer.midi, ClearAll(d).samplerLoaded, ClearAll(d).instruments)
    ensures forall i :: Gain(ClearAll(d).mixer.mutes, ClearAll(d).mixer.solos, i) == 1
  {
  }

  /** Stop is idempotent and pause keeps the position a later play resumes from. */
  lemma StopAndPause(d: Deck)
    ensures Stop(Stop(d)) == Stop(d)
    ensures d.mixer.midi.Some? && d.samplerLoaded ==> Play(Pause(d)).position == d.position && Play(Pause(d)).state == Playing
  {
  }
}

=== FILE: podcast.dfy ===
/** "Podcast" mode: the generation session that keeps extending a
    composition while it plays. Each round sends the last four measures as
    context to the generator, splices the new material onto the end, starts
    playback once there is more than 16 measures of material, and backs off
    while more than 16 measures are buffered ahead of the playback cursor.

    The asynchronous self-rescheduling loop is modelled as two pure
    functions over an explicit `Session` value: `LoopStep` (one wake-up of
    the loop, up to issuing the generator request) and `OnGenerated` (what
    happens when the request resolves). `Drive` runs them over any sequence
    of wake-ups, resolutions and exits. */
module Podcast {
  import opened Wrappers
  import opened Timeline
  import Player

  /** Measures of context sent to the generator (and echoed back by it). */
  const ContextMeasures: real := 4.0
  /** Playback starts once the composition is longer than this many measures. */
  const PlaybackStartMeasures: real := 16.0
  /** No new request while more than this many measures lie ahead of the cursor. */
  const BufferAheadMeasures: real := 16.0
  /** Delay before the loop looks again when it backs off. */
  const RecheckDelayMs: nat := 2000
  /** Slack for generator timing jitter when dropping the echoed context. */
  const Tolerance: real := 0.1

  /** `(60 / bpm) * 4`: a 4/4 measure at the composition's tempo. */
  function MeasureDuration(h: Header): (md: real)
    ensures ValidHeader(h) ==> md > 0.0
  {
    (60.0 / Bpm(h)) * 4.0
  }

  // ---------------------------------------------------------------------
  // Moving notes in time
  // ---------------------------------------------------------------------

  /** The notes starting at or after `from`, in order, each moved by `delta`.
      Pitch, length and velocity are kept. */
  function MovedFrom(notes: seq<Note>, from: real, delta: real): (r: seq<Note>)
    ensures |r| <= |notes|
    ensures forall m :: m in notes && m.time >= from ==> Moved(m, delta) in r
    ensures forall n :: n in r ==> exists m :: m in notes && m.time >= from && n == Moved(m, delta)
    ensures forall k :: 0 <= k < |r| ==> r[k].time >= from + delta
  {
    if |notes| == 0 then []
    else
      var rest := MovedFrom(notes[1..], from, delta);
      assert forall m :: m in notes[1..] ==> m in notes;
      if notes[0].time >= from then [Moved(notes[0], delta)] + rest else rest
  }

  /** Nothing survives when no note starts at or after `from`. */
  lemma MovedFromNothing(notes: seq<Note>, from: real, delta: real)
    requires forall k :: 0 <= k < |notes| ==> notes[k].time < from
    ensures MovedFrom(notes, from, delta) == []
  {
  }

  // ---------------------------------------------------------------------
  // Context extraction
  // ---------------------------------------------------------------------

  /** `Math.max(0, duration - 4 * measureDuration)`: where the last four measures begin. */
  function ContextStart(c: Composition): (start: real)
    ensures start >= 0.0
    ensures start >= Duration(c) - ContextMeasures * MeasureDuration(c.header)
    ensures start == 0.0 || start == Duration(c) - ContextMeasures * MeasureDuration(c.header)
  {
    var s := Duration(c) - ContextMeasures * MeasureDuration(c.header);
    if s > 0.0 then s else 0.0
  }

  /** One track per composition track, with its instrument and channel,
      holding the notes that start at or after `start`, re-based to it. */
  function ContextFrom(c: Composition, start: real): (ctx: Composition)
    ensures ctx.header == c.header
    ensures |ctx.tracks| == |c.tracks|
    ensures forall i :: 0 <= i < |c.tracks| ==>
              && ctx.tracks[i].instrument == c.tracks[i].instrument
              && ctx.tracks[i].channel == c.tracks[i].channel
              && ctx.tracks[i].notes == MovedFrom(c.tracks[i].notes, start, -start)
  {
    Composition(c.header, seq(|c.tracks|, i requires 0 <= i < |c.tracks| =>
      Track(MovedFrom(c.tracks[i].notes, start, -start), c.tracks[i].instrument, c.tracks[i].channel)))
  }

  /** The context sent to the generator: the composition's last four measures. */
  function ExtractContext(c: Composition): Composition {
    ContextFrom(c, ContextStart(c))
  }

  /** Exactly the notes starting at or after `start` reach the context,
      each re-based to a non-negative time with pitch, length and velocity
      unchanged. */
  lemma ContextNotes(c: Composition, i: nat, start: real)
    requires i < |c.tracks|
    ensures forall m :: m in c.tracks[i].notes && m.time >= start ==>
              m.(time := m.time - start) in ContextFrom(c, start).tracks[i].notes
    ensures forall n :: n in ContextFrom(c, start).tracks[i].notes ==>
              && n.time >= 0.0
              && exists m :: m in c.tracks[i].notes && m.time >= start
                   && n.midi == m.midi && n.duration == m.duration && n.velocity == m.velocity
                   && n.time == m.time - start
  {
    var ctx := ContextFrom(c, start).tracks[i].notes;
    forall m | m in c.tracks[i].notes && m.time >= start
      ensures m.(time := m.time - start) in ctx
    {
      assert Moved(m, -start) == m.(time := m.time - start);
    }
    forall n | n in ctx
      ensures n.time >= 0.0
    {
      var k :| 0 <= k < |ctx| && ctx[k] == n;
    }
  }

  /** Re-basing at `start` keeps every release time within `end - start`
      when no note of the composition is released after `end`. */
  lemma ContextFromSpan(c: Composition, start: real, end: real)
    requires forall i, m :: 0 <= i < |c.tracks| && m in c.tracks[i].notes ==> End(m) <= end
    ensures forall i, n :: 0 <= i < |c.tracks| && n in ContextFrom(c, start).tracks[i].notes ==> End(n) <= end - start
  {
    var ctx := ContextFrom(c, start);
    forall i, n | 0 <= i < |c.tracks| && n in ctx.tracks[i].notes
      ensures End(n) <= end - start
    {
      assert n in MovedFrom(c.tracks[i].notes, start, -start);
      var m :| m in c.tracks[i].notes && m.time >= start && n == Moved(m, -start);
      assert End(m) <= end;
      assert End(n) == End(m) - start;
    }
  }

  /** The context never spans more than four measures (at a positive tempo). */
  lemma ContextFitsFourMeasures(c: Composition)
    requires ValidHeader(c.header)
    ensures Duration(ExtractContext(c)) <= ContextMeasures * MeasureDuration(c.header)
  {
    var start := ContextStart(c);
    var ctx := ContextFrom(c, start);
    var window := ContextMeasures * MeasureDuration(c.header);
    DurationIsLatestEnd(c);
    ContextFromSpan(c, start, Duration(c));
    DurationIsLatestEnd(ctx);
    assert Duration(c) - start <= window;
  }

  // ---------------------------------------------------------------------
  // Segment merge
  // ---------------------------------------------------------------------

  /** `tracks.find(t => t.channel === channel)`, as an index. */
  function FindChannel(tracks: seq<Track>, channel: int): (r: Option<nat>)
    ensures r.Some? ==> r.value < |tracks| && tracks[r.value].channel == channel
    ensures r.Some? ==> forall k :: 0 <= k < r.value ==> tracks[k].channel != channel
    ensures r.None? ==> forall k :: 0 <= k < |tracks| ==> tracks[k].channel != channel
  {
    if |tracks| == 0 then None
    else if tracks[0].channel == channel then Some(0)
    else match FindChannel(tracks[1..], channel)
      case None => None
      case Some(k) => Some(k + 1)
  }

  /** The segment track that feeds composition track `i`: the first one on
      the same channel, else the one at the same position, else none. */
  function SourceTrack(segment: seq<Track>, channel: int, i: nat): Option<Track> {
    match FindChannel(segment, channel)
    case Some(k) => Some(segment[k])
    case None => if i < |segment| then Some(segment[i]) else None
  }

  /** Segment notes starting before this time are the echoed context. */
  function Cutoff(h: Header): real {
    ContextMeasures * MeasureDuration(h) - Tolerance
  }

  /** `duration - contextDuration`: how far the segment's notes move. */
  function ShiftAmount(c: Composition): real {
    Duration(c) - ContextMeasures * MeasureDuration(c.header)
  }

  /** `mergeMidi`: every composition track keeps its notes and gets, appended,
      its source track's notes past the cutoff, moved by the shift amount. */
  function Merge(c: Composition, segment: Composition): (r: Composition)
    ensures r.header == c.header
    ensures |r.tracks| == |c.tracks|
    ensures forall i :: 0 <= i < |c.tracks| ==>
              && r.tracks[i].instrument == c.tracks[i].instrument
              && r.tracks[i].channel == c.tracks[i].channel
              && |c.tracks[i].notes| <= |r.tracks[i].notes|
              && r.tracks[i].notes[..|c.tracks[i].notes|] == c.tracks[i].notes
  {
    var cutoff := Cutoff(c.header);
    var shift := ShiftAmount(c);
    Composition(c.header, seq(|c.tracks|, i requires 0 <= i < |c.tracks| =>
      match SourceTrack(segment.tracks, c.tracks[i].channel, i)
      case None => c.tracks[i]
      case Some(s) => c.tracks[i].(notes := c.tracks[i].notes + MovedFrom(s.notes, cutoff, shift))))
  }

  /** The notes `Merge` appends to track `i`. */
  function Appended(c: Composition, segment: Composition, i: nat): seq<Note>
    requires i < |c.tracks|
  {
    Merge(c, segment).tracks[i].notes[|c.tracks[i].notes|..]
  }

  /** Track `i` takes its notes from the first segment track on its channel,
      else from the segment track at its own index; with neither it is
      left exactly as it was. */
  lemma MergeSource(c: Composition, segment: Composition, i: nat)
    requires i < |c.tracks|
    ensures forall k :: (0 <= k < |segment.tracks| && segment.tracks[k].channel == c.tracks[i].channel
              && (forall j :: 0 <= j < k ==> segment.tracks[j].channel != c.tracks[i].channel)) ==>
              Appended(c, segment, i) == MovedFrom(segment.tracks[k].notes, Cutoff(c.header), ShiftAmount(c))
    ensures (forall k :: 0 <= k < |segment.tracks| ==> segment.tracks[k].channel != c.tracks[i].channel) && i < |segment.tracks| ==>
              Appended(c, segment, i) == MovedFrom(segment.tracks[i].notes, Cutoff(c.header), ShiftAmount(c))
    ensures (forall k :: 0 <= k < |segment.tracks| ==> segment.tracks[k].channel != c.tracks[i].channel) && i >= |segment.tracks| ==>
              Merge(c, segment).tracks[i] == c.tracks[i]
  {
    var r := Merge(c, segment);
    var ch := c.tracks[i].channel;
    forall k | 0 <= k < |segment.tracks| && segment.tracks[k].channel == ch
      && (forall j :: 0 <= j < k ==> segment.tracks[j].channel != ch)
      ensures Appended(c, segment, i) == MovedFrom(segment.tracks[k].notes, Cutoff(c.header), ShiftAmount(c))
    {
      var f := FindChannel(segment.tracks, ch);
      assert f == Some(k);
    }
  }

  /** Every appended note is a segment note from past the cutoff, moved by
      the shift amount, so it starts no earlier than 0.1 s before the old
      end of the composition; pitch, length and velocity are untouched.
      Conversely every such segment note is appended. */
  lemma MergeAppendsContinuation(c: Composition, segment: Composition, i: nat, s: Track)
    requires i < |c.tracks|
    requires SourceTrack(segment.tracks, c.tracks[i].channel, i) == Some(s)
    ensures forall m :: m in s.notes && m.time >= Cutoff(c.header) ==>
              m.(time := m.time + ShiftAmount(c)) in Appended(c, segment, i)
    ensures forall n :: n in Appended(c, segment, i) ==>
              && n.time >= Duration(c) - Tolerance
              && exists m :: m in s.notes && m.time >= Cutoff(c.header)
                   && n.midi == m.midi && n.duration == m.duration && n.velocity == m.velocity
                   && n.time == m.time + ShiftAmount(c)
  {
    var app := Appended(c, segment, i);
    assert app == MovedFrom(s.notes, Cutoff(c.header), ShiftAmount(c));
    forall n | n in app
      ensures n.time >= Duration(c) - Tolerance
    {
      var k :| 0 <= k < |app| && app[k] == n;
    }
  }

  /** Merging never shortens the composition. */
  lemma MergeDurationGrows(c: Composition, segment: Composition)
    ensures Duration(Merge(c, segment)) >= Duration(c)
  {
    var r := Merge(c, segment);
    forall i, n | 0 <= i < |c.tracks| && n in c.tracks[i].notes
      ensures exists j :: 0 <= j < |r.tracks| && n in r.tracks[j].notes
    {
      var k :| 0 <= k < |c.tracks[i].notes| && c.tracks[i].notes[k] == n;
      assert r.tracks[i].notes[k] == n;
    }
    DurationMonotone(c, r);
  }

  /** A segment with nothing past the cutoff leaves the composition as it was. */
  lemma MergeOfEchoOnly(c: Composition, segment: Composition)
    requires forall k, m :: 0 <= k < |segment.tracks| && m in segment.tracks[k].notes ==> m.time < Cutoff(c.header)
    ensures Merge(c, segment) == c
  {
    var r := Merge(c, segment);
    forall i | 0 <= i < |c.tracks|
      ensures r.tracks[i] == c.tracks[i]
    {
      match SourceTrack(segment.tracks, c.tracks[i].channel, i)
      case None =>
      case Some(s) =>
        var k :| 0 <= k < |segment.tracks| && segment.tracks[k] == s;
        forall j | 0 <= j < |s.notes|
          ensures s.notes[j].time < Cutoff(c.header)
        {
          assert s.notes[j] in segment.tracks[k].notes;
        }
        MovedFromNothing(s.notes, Cutoff(c.header), ShiftAmount(c));
        assert c.tracks[i].notes + [] == c.tracks[i].notes;
    }
    assert r.tracks == c.tracks;
  }

  /** The merge does not deduplicate. A note that ends the composition
      inside the 0.1 s tolerance before the end of the four-measure window
      is sent as context; the generator echoes it unchanged, it passes the
      cutoff, and it is appended a second time at the same place. */
  lemma MergeMayDuplicate()
    ensures var n := Note(60, 7.95, 0.05, 1.0);
            var c := Composition(Header([120.0], []), [Track([n], 0, 0)]);
            && ExtractContext(c).tracks[0].notes == [n]
            && Merge(c, ExtractContext(c)).tracks[0].notes == [n, n]
  {
    var n := Note(60, 7.95, 0.05, 1.0);
    var c := Composition(Header([120.0], []), [Track([n], 0, 0)]);
    assert AllNotes(c.tracks) == [n];
    assert Duration(c) == 8.0;
    assert MeasureDuration(c.header) == 2.0;
    assert ContextStart(c) == 0.0;
    assert MovedFrom([n], 0.0, -0.0) == [n];
    var seg := ExtractContext(c);
    assert seg.tracks[0].notes == [n];
    assert FindChannel(seg.tracks, 0) == Some(0);
    assert MovedFrom(seg.tracks[0].notes, Cutoff(c.header), ShiftAmount(c)) == [n];
  }

  // ---------------------------------------------------------------------
  // Statistics shown in the header bar
  // ---------------------------------------------------------------------

  /** `updateStats`: whole measures and whole seconds of the composition. */
  function Stats(c: Composition): (r: (int, int))
    requires ValidHeader(c.header)
    ensures r.1 as real <= Duration(c) < r.1 as real + 1.0
    ensures r.0 as real * MeasureDuration(c.header) <= Duration(c) < (r.0 + 1) as real * MeasureDuration(c.header)
  {
    (WholeUnits(Duration(c), MeasureDuration(c.header)), Duration(c).Floor)
  }

  /** `Math.floor(d / unit)`: how many whole units fit in `d`. */
  function WholeUnits(d: real, unit: real): (m: int)
    requires unit > 0.0
    ensures m as real * unit <= d < (m + 1) as real * unit
  {
    var q := d / unit;
    var f := q.Floor;
    assert q * unit == d;
    assert f as real <= q < (f + 1) as real;
    MulMonotone(f as real, q, unit);
    MulStrict(q, (f + 1) as real, unit);
    assert f as real * unit <= d;
    assert d < (f + 1) as real * unit;
    f
  }

  // ---------------------------------------------------------------------
  // The loop
  // ---------------------------------------------------------------------

  /** The state the loop reads and writes: the looping flag, the growing
      composition, whether a model is selected, and the "generating" badge. */
  datatype Session = Session(looping: bool, composition: Option<Composition>, modelAvailable: bool, generating: bool)

  /** What one wake-up of the loop does after its playback check. */
  datatype Effect =
    | Halt                          // return without scheduling another wake-up
    | Recheck(delayMs: nat)         // back off and wake up again after the delay
    | Generate(context: Composition) // ask the generator to continue this context

  datatype Step = Step(session: Session, startPlayback: bool, effect: Effect)

  /** Length of the composition in (fractional) measures. */
  function MeasuresOf(c: Composition): real {
    Duration(c) / MeasureDuration(c.header)
  }

  /** Measures of material lying ahead of the playback cursor. */
  function FutureBuffer(c: Composition, cursorSeconds: real): real {
    MeasuresOf(c) - cursorSeconds / MeasureDuration(c.header)
  }

  /** One wake-up of `recursiveGenerationLoop`, given the transport's cursor
      and whether the transport is started. */
  function LoopStep(s: Session, cursorSeconds: real, transportStarted: bool): (st: Step)
    ensures !s.looping || s.composition.None? ==> st == Step(s, false, Halt)
    ensures st.startPlayback <==>
              s.looping && s.composition.Some? && MeasuresOf(s.composition.value) > PlaybackStartMeasures && !transportStarted
    ensures st.effect.Recheck? <==>
              s.looping && s.composition.Some? && FutureBuffer(s.composition.value, cursorSeconds) > BufferAheadMeasures
    ensures st.effect.Recheck? ==> st.effect.delayMs == RecheckDelayMs && st.session == s
    ensures st.effect.Generate? <==>
              && s.looping && s.composition.Some? && s.modelAvailable
              && FutureBuffer(s.composition.value, cursorSeconds) <= BufferAheadMeasures
    ensures st.effect.Generate? ==>
              && st.effect.context == ExtractContext(s.composition.value)
              && st.session == s.(generating := true)
    ensures st.effect.Halt? && s.looping && s.composition.Some? ==> !s.modelAvailable && st.session == s.(looping := false)
  {
    if !s.looping then Step(s, false, Halt)
    else match s.composition
      case None => Step(s, false, Halt)
      case Some(c) =>
        var play := MeasuresOf(c) > PlaybackStartMeasures && !transportStarted;
        if FutureBuffer(c, cursorSeconds) > BufferAheadMeasures then Step(s, play, Recheck(RecheckDelayMs))
        else if !s.modelAvailable then Step(s.(looping := false), play, Halt)
        else Step(s.(generating := true), play, Generate(ExtractContext(c)))
  }

  /** How the generator request settled: a list of results, or an exception. */
  datatype Outcome = Returned(results: seq<Composition>) | Threw(message: string)

  /** What happens after the request settles: the new session, the
      composition passed to the application's update call (`onAppendMidi`
      or `setMidiData`) for playback, if any, whether
      another wake-up is scheduled, and the error notice (if any). */
  datatype Resumption = Resumption(session: Session, published: Option<Composition>, recurse: bool, notice: Option<string>)

  const LoopErrorPrefix: string := "Podcast loop error: "

  /** The rest of the wake-up once the request settles. The first result is
      merged into the session's composition whatever the flag; the update
      call is made only while the flag is still set. (The session's
      composition is the object the application already holds, so a late
      merge still lands in it; see README "Left out".) */
  function OnGenerated(s: Session, outcome: Outcome): (r: Resumption)
    requires s.composition.Some?
    ensures r.published.Some? ==> s.looping && r.published == r.session.composition
    ensures outcome.Threw? ==> !r.session.looping && !r.recurse && r.notice == Some(LoopErrorPrefix + outcome.message)
    ensures outcome.Returned? && |outcome.results| == 0 ==>
              r == Resumption(s.(generating := false), None, false, None)
    ensures outcome.Returned? && |outcome.results| > 0 ==>
              && r.recurse
              && r.session == s.(composition := Some(Merge(s.composition.value, outcome.results[0])))
              && (s.looping ==> r.published.Some?)
    ensures r.session.looping ==> s.looping
  {
    match outcome
    case Threw(msg) => Resumption(s.(looping := false), None, false, Some(LoopErrorPrefix + msg))
    case Returned(results) =>
      if |results| == 0 then Resumption(s.(generating := false), None, false, None)
      else
        var merged := Merge(s.composition.value, results[0]);
        Resumption(s.(composition := Some(merged)), if s.looping then Some(merged) else None, true, None)
  }

  /** `handleSelectClip`: the chosen clip (a clone; the binary round trip is
      the identity here) becomes the composition and is handed to the
      application, and the loop starts. */
  function SelectClip(s: Session, clip: Composition): (r: (Session, Composition))
    ensures r.0.looping && r.0.composition == Some(clip) && r.1 == clip
    ensures r.0.modelAvailable == s.modelAvailable && r.0.generating == s.generating
  {
    (s.(looping := true, composition := Some(clip)), clip)
  }

  /** The session half of `stopLoop`: the flag and the badge are cleared. */
  function ClearLoop(s: Session): (r: Session)
    ensures !r.looping && !r.generating
    ensures r.composition == s.composition && r.modelAvailable == s.modelAvailable
  {
    s.(looping := false, generating := false)
  }

  /** `stopLoop` (the Exit button): clears the flag and the badge, then
      calls the application's stop handler, which stops the shared
      transport and rewinds it and the progress bar to 0. */
  function StopLoop(s: Session, deck: Player.Deck): (r: (Session, Player.Deck))
    ensures !r.0.looping && !r.0.generating
    ensures r.0.composition == s.composition && r.0.modelAvailable == s.modelAvailable
    ensures r.1.state == Player.Stopped && r.1.position == 0.0 && r.1.progress == 0.0
    ensures r.1.mixer == deck.mixer && r.1.original == deck.original && r.1.generated == deck.generated
  {
    (ClearLoop(s), Player.Stop(deck))
  }

  // ---------------------------------------------------------------------
  // Runs of the loop
  // ---------------------------------------------------------------------

  /** Things that can happen to a session: the loop wakes up (with the
      transport's cursor and state), the pending request settles, or the
      user exits. */
  datatype Event = Wake(cursorSeconds: real, transportStarted: bool) | Settle(outcome: Outcome) | Exit

  /** A run's observable result: the final session, every composition handed
      to the application, and the number of generator requests issued. */
  datatype Trace = Trace(session: Session, published: seq<Composition>, requests: nat)

  /** Runs the loop over `events`. A wake-up while a request is pending, or
      a settlement with none pending, cannot happen in the source (the loop
      awaits each request before anything else) and is ignored. */
  function Drive(s: Session, pending: bool, events: seq<Event>): Trace
    requires pending ==> s.composition.Some?
    decreases |events|
  {
    if |events| == 0 then Trace(s, [], 0)
    else match events[0]
      case Exit => Drive(ClearLoop(s), pending, events[1..])
      case Wake(cursor, started) =>
        if pending then Drive(s, pending, events[1..])
        else
          var st := LoopStep(s, cursor, started);
          var rest := Drive(st.session, st.effect.Generate?, events[1..]);
          if st.effect.Generate? then rest.(requests := rest.requests + 1) else rest
      case Settle(outcome) =>
        if !pending then Drive(s, pending, events[1..])
        else
          var r := OnGenerated(s, outcome);
          var rest := Drive(r.session, false, events[1..]);
          match r.published
          case Some(p) => rest.(published := [p] + rest.published)
          case None => rest
  }

  /** Once the flag is cleared no request is issued and no update call is
      made, whatever happens next, even when a request was pending. */
  lemma {:induction false} StoppedSessionIsInert(s: Session, pending: bool, events: seq<Event>)
    requires !s.looping
    requires pending ==> s.composition.Some?
    ensures Drive(s, pending, events).published == []
    ensures Drive(s, pending, events).requests == 0
    ensures !Drive(s, pending, events).session.looping
    decreases |events|
  {
    if |events| > 0 {
      match events[0]
      case Exit => StoppedSessionIsInert(ClearLoop(s), pending, events[1..]);
      case Wake(cursor, started) =>
        if pending {
          StoppedSessionIsInert(s, pending, events[1..]);
        } else {
          var st := LoopStep(s, cursor, started);
          StoppedSessionIsInert(st.session, st.effect.Generate?, events[1..]);
        }
      case Settle(outcome) =>
        if pending {
          var r := OnGenerated(s, outcome);
          StoppedSessionIsInert(r.session, false, events[1..]);
        } else {
          StoppedSessionIsInert(s, pending, events[1..]);
        }
    }
  }

  /** After Exit, a result that arrives for the request in flight triggers
      no update call and no further request. */
  lemma ExitDiscardsLateResult(s: Session, outcome: Outcome, later: seq<Event>)
    requires s.composition.Some?
    ensures Drive(s, true, [Exit, Settle(outcome)] + later).published == []
    ensures Drive(s, true, [Exit, Settle(outcome)] + later).requests == 0
  {
    var events := [Exit, Settle(outcome)] + later;
    assert events[1..] == [Settle(outcome)] + later;
    StoppedSessionIsInert(ClearLoop(s), true, events[1..]);
  }

  /** 120 BPM, 4/4, 32 s of material and the cursor at 0 is exactly 16
      measures ahead: the loop generates. Two seconds more material (17
      measures) makes it back off; moving the cursor one measure on makes
      it generate again. */
  lemma ThrottleBoundary()
    ensures var c := Composition(Header([120.0], []), [Track([Note(60, 0.0, 32.0, 1.0)], 0, 0)]);
            LoopStep(Session(true, Some(c), true, false), 0.0, false).effect.Generate?
    ensures var c := Composition(Header([120.0], []), [Track([Note(60, 0.0, 34.0, 1.0)], 0, 0)]);
            LoopStep(Session(true, Some(c), true, false), 0.0, false).effect == Recheck(2000)
    ensures var c := Composition(Header([120.0], []), [Track([Note(60, 0.0, 34.0, 1.0)], 0, 0)]);
            LoopStep(Session(true, Some(c), true, false), 2.0, false).effect.Generate?
  {
    var c32 := Composition(Header([120.0], []), [Track([Note(60, 0.0, 32.0, 1.0)], 0, 0)]);
    var c34 := Composition(Header([120.0], []), [Track([Note(60, 0.0, 34.0, 1.0)], 0, 0)]);
    assert AllNotes(c32.tracks) == [Note(60, 0.0, 32.0, 1.0)];
    assert AllNotes(c34.tracks) == [Note(60, 0.0, 34.0, 1.0)];
    assert Duration(c32) == 32.0;
    assert Duration(c34) == 34.0;
    assert MeasureDuration(c32.header) == 2.0;
    assert FutureBuffer(c32, 0.0) == 16.0;
    assert FutureBuffer(c34, 0.0) == 17.0;
    assert FutureBuffer(c34, 2.0) == 16.0;
  }

  /** Playback never starts with 16 measures or fewer; at 32 s (exactly 16
      measures at 120 BPM) it has not started yet. */
  lemma PlaybackWaitsForBuffer(s: Session, cursorSeconds: real, transportStarted: bool)
    requires s.composition.Some? && ValidHeader(s.composition.value.header)
    requires Duration(s.composition.value) <= PlaybackStartMeasures * MeasureDuration(s.composition.value.header)
    ensures !LoopStep(s, cursorSeconds, transportStarted).startPlayback
  {
    var c := s.composition.value;
    DivAtMost(Duration(c), MeasureDuration(c.header), PlaybackStartMeasures);
    assert MeasuresOf(c) <= PlaybackStartMeasures;
  }

  lemma DivAtMost(a: real, b: real, k: real)
    requires b > 0.0 && a <= k * b
    ensures a / b <= k
  {
    var q := a / b;
    assert q * b == a;
    if q > k {
      MulStrict(k, q, b);
    }
  }

  // ---------------------------------------------------------------------
  // Instrument chips
  // ---------------------------------------------------------------------

  /** `list.filter(i => i !== x)`. */
  function Without(list: seq<string>, x: string): (r: seq<string>)
    ensures x !in r
    ensures forall y :: y != x ==> (y in r <==> y in list)
    ensures x !in list ==> r == list
  {
    if |list| == 0 then []
    else if list[0] == x then Without(list[1..], x)
    else assert list == [list[0]] + list[1..]; [list[0]] + Without(list[1..], x)
  }

  /** `toggleInstrument`: removes every copy of the instrument when it is
      selected, appends it otherwise. */
  function ToggleInstrument(selected: seq<string>, inst: string): (r: seq<string>)
    ensures inst in r <==> inst !in selected
    ensures forall y :: y != inst ==> (y in r <==> y in selected)
  {
    if inst in selected then Without(selected, inst) else selected + [inst]
  }

  /** Toggling twice restores membership, and restores the list itself when
      the instrument was not selected to begin with. */
  lemma ToggleInstrumentTwice(selected: seq<string>, inst: string)
    ensures forall y :: y in ToggleInstrument(ToggleInstrument(selected, inst), inst) <==> y in selected
    ensures inst !in selected ==> ToggleInstrument(ToggleInstrument(selected, inst), inst) == selected
  {
    if inst !in selected {
      var once := selected + [inst];
      assert Without(once, inst) == selected by {
        WithoutLast(selected, inst);
      }
    }
  }

  lemma {:induction false} WithoutLast(list: seq<string>, x: string)
    requires x !in list
    ensures Without(list + [x], x) == list
    decreases |list|
  {
    if |list| == 0 {
    } else {
      assert (list + [x])[1..] == list[1..] + [x];
      WithoutLast(list[1..], x);
      assert list == [list[0]] + list[1..];
    }
  }
}

=== FILE: routing.dfy ===
/** Track routing in the main editor: per-track mute and solo flags, the
    gain each track's instrument gets from them, and what deleting a track
    does to the flags. Flags are kept as JavaScript objects keyed by track
    index; a key that was never toggled reads as `undefined`, i.e. false. */
module Routing {
  import opened Wrappers
  import opened Timeline

  /** `{ [trackIndex]: boolean }`. */
  type Flags = map<int, bool>

  /** `flags[k]` read as a boolean: a missing key is falsy. */
  predicate Flag(flags: Flags, k: int) {
    k in flags && flags[k]
  }

  /** `Object.values(trackSolos).some(s => s)`: any key set, including keys
      of tracks that no longer exist. */
  predicate SoloActive(solos: Flags) {
    exists k | k in solos :: solos[k]
  }

  /** The gain the mute/solo effect gives the instrument of track `i`. */
  function Gain(mutes: Flags, solos: Flags, i: int): (g: int)
    ensures g == 0 || g == 1
    ensures Flag(solos, i) ==> g == 1
    ensures SoloActive(solos) && !Flag(solos, i) ==> g == 0
    ensures !SoloActive(solos) ==> (g == 1 <==> !Flag(mutes, i))
  {
    var shouldPlay := if SoloActive(solos) then Flag(solos, i) else !Flag(mutes, i);
    if shouldPlay then 1 else 0
  }

  /** The gains of the first `n` instruments, index by index. */
  function Gains(mutes: Flags, solos: Flags, n: nat): (gs: seq<int>)
    ensures |gs| == n
    ensures forall i :: 0 <= i < n ==> gs[i] == Gain(mutes, solos, i)
  {
    seq(n, i => Gain(mutes, solos, i))
  }

  /** While any solo is set the mute flags have no effect at all, and a
      soloed track plays even when it is muted. */
  lemma SoloOverridesMute(mutes1: Flags, mutes2: Flags, solos: Flags, i: int)
    requires SoloActive(solos)
    ensures Gain(mutes1, solos, i) == Gain(mutes2, solos, i)
    ensures Flag(mutes1, i) && Flag(solos, i) ==> Gain(mutes1, solos, i) == 1
  {
  }

  /** `toggleMute` / `toggleSolo`: `{ ...prev, [k]: !prev[k] }`. */
  function Toggle(flags: Flags, k: int): (r: Flags)
    ensures Flag(r, k) == !Flag(flags, k)
    ensures k in r
    ensures forall j :: j != k ==> (j in r <==> j in flags)
    ensures forall j :: j != k && j in flags ==> r[j] == flags[j]
  {
    flags[k := !Flag(flags, k)]
  }

  /** Toggling the same key twice restores every flag's reading. */
  lemma ToggleTwice(flags: Flags, k: int)
    ensures forall j :: Flag(Toggle(Toggle(flags, k), k), j) == Flag(flags, j)
  {
  }

  /** Toggling one track's flag changes no other track's gain while the set
      of solo states stays on the same side of "any solo active". */
  lemma ToggleMuteIsLocal(mutes: Flags, solos: Flags, k: int, j: int)
    requires j != k
    ensures Gain(Toggle(mutes, k), solos, j) == Gain(mutes, solos, j)
  {
  }

  // ---------------------------------------------------------------------
  // Deleting a track
  // ---------------------------------------------------------------------

  /** `tracks.splice(i, 1)`: removes the element at `i`; an index past the
      end removes nothing. */
  function Splice<T>(xs: seq<T>, i: nat): (r: seq<T>)
    ensures i < |xs| ==> |r| == |xs| - 1
    ensures i >= |xs| ==> r == xs
    ensures forall j :: 0 <= j < |r| ==> r[j] == (if j < i then xs[j] else xs[j + 1])
  {
    if i < |xs| then xs[..i] + xs[i + 1..] else xs
  }

  /** The old index of the track found at index `k` after track `i` is
      deleted: indices below `i` are unchanged, the rest moved down by one. */
  function Origin(k: int, i: int): (o: int)
    ensures o != i
  {
    if k < i then k else k + 1
  }

  /** The new index of the key `j` when track `i` (not `j`) is deleted. */
  function Target(j: int, i: int): int {
    if j < i then j else j - 1
  }

  /** The mute renumbering of `deleteTrack`: keys below `i` stay, keys above
      move down by one, key `i` is dropped. */
  function Shifted(flags: Flags, i: int): (r: Flags)
    ensures forall k :: k in r <==> Origin(k, i) in flags
    ensures forall k :: k in r ==> r[k] == flags[Origin(k, i)]
  {
    var keys := set j | j in flags && j != i :: Target(j, i);
    assert forall k :: k in keys <==> Origin(k, i) in flags by {
      forall k ensures k in keys <==> Origin(k, i) in flags {
        if Origin(k, i) in flags {
          assert Target(Origin(k, i), i) == k;
        }
      }
    }
    map k | k in keys :: flags[Origin(k, i)]
  }

  /** The state `deleteTrack` reads and writes. */
  datatype Mixer = Mixer(midi: Option<Composition>, mutes: Flags, solos: Flags)

  /** `deleteTrack`, as written: removes the track and renumbers the mute
      flags, but leaves the solo flags keyed by the old indices. */
  function DeleteTrack(x: Mixer, i: nat): (r: Mixer)
    ensures x.midi.None? ==> r == x
    ensures x.midi.Some? ==> r.midi == Some(x.midi.value.(tracks := Splice(x.midi.value.tracks, i)))
    ensures x.midi.Some? ==> r.mutes == Shifted(x.mutes, i)
    ensures r.solos == x.solos
  {
    match x.midi
    case None => x
    case Some(c) => Mixer(Some(c.(tracks := Splice(c.tracks, i))), Shifted(x.mutes, i), x.solos)
  }

  /** After a deletion each surviving track is where `Splice` put it, and its
      mute flag has moved with it. */
  lemma DeleteMovesMuteWithTrack(x: Mixer, i: nat, j: nat)
    requires x.midi.Some? && i < |x.midi.value.tracks| && j < |x.midi.value.tracks| - 1
    ensures var r := DeleteTrack(x, i);
            && r.midi.value.tracks[j] == x.midi.value.tracks[Origin(j, i)]
            && Flag(r.mutes, j) == Flag(x.mutes, Origin(j, i))
  {
    var r := DeleteTrack(x, i);
    assert j in r.mutes <==> Origin(j, i) in x.mutes;
  }

  /** The solo flag of a deleted track outlives it: with three tracks and
      track 2 soloed, deleting track 2 leaves both remaining tracks silent. */
  lemma StaleSoloSilencesRemainingTracks()
    ensures var x := Mixer(Some(Composition(Header([], []), [Track([], 0, 0), Track([], 1, 1), Track([], 2, 2)])),
                           map[], map[2 := true]);
            var r := DeleteTrack(x, 2);
            && |r.midi.value.tracks| == 2
            && Gains(r.mutes, r.solos, 2) == [0, 0]
  {
    var tracks := [Track([], 0, 0), Track([], 1, 1), Track([], 2, 2)];
    assert Splice(tracks, 2) == tracks[..2];
    var mutes := Shifted(map[], 2);
    OnlySoloPlays(mutes, 2, 0);
    OnlySoloPlays(mutes, 2, 1);
    assert Gains(mutes, map[2 := true], 2) == [0, 0];
  }

  /** With track 1 soloed, deleting track 0 moves the solo onto the track
      that used to be track 2. */
  lemma StaleSoloMovesToNeighbour()
    ensures var x := Mixer(Some(Composition(Header([], []), [Track([], 0, 0), Track([], 1, 1), Track([], 2, 2)])),
                           map[], map[1 := true]);
            var r := DeleteTrack(x, 0);
            && r.midi.value.tracks == [Track([], 1, 1), Track([], 2, 2)]
            && Gains(r.mutes, r.solos, 2) == [0, 1]
  {
    var tracks := [Track([], 0, 0), Track([], 1, 1), Track([], 2, 2)];
    assert Splice(tracks, 0) == tracks[1..] == [Track([], 1, 1), Track([], 2, 2)];
    var mutes := Shifted(map[], 0);
    OnlySoloPlays(mutes, 1, 0);
    OnlySoloPlays(mutes, 1, 1);
    assert Gains(mutes, map[1 := true], 2) == [0, 1];
  }

  /** With one track soloed, that track alone plays, whatever is muted. */
  lemma OnlySoloPlays(mutes: Flags, k: int, i: int)
    ensures Gain(mutes, map[k := true], i) == if i == k then 1 else 0
  {
    SingleSolo(k);
  }

  /** A map holding one solo flag: that track alone is soloed. */
  lemma SingleSolo(k: int)
    ensures SoloActive(map[k := true]) && Flag(map[k := true], k)
    ensures forall j :: j != k ==> !Flag(map[k := true], j)
  {
    assert k in map[k := true];
  }

  /** `deleteTrack` with the solo flags renumbered like the mute flags. */
  function DeleteTrackRenumbered(x: Mixer, i: nat): (r: Mixer)
    ensures x.midi.None? ==> r == x
    ensures x.midi.Some? ==> r.midi == DeleteTrack(x, i).midi && r.mutes == DeleteTrack(x, i).mutes
    ensures x.midi.Some? ==> r.solos == Shifted(x.solos, i)
  {
    match x.midi
    case None => x
    case Some(c) => DeleteTrack(x, i).(solos := Shifted(x.solos, i))
  }

  /** Flag keys stay within the track list. */
  predicate KeysInRange(flags: Flags, n: int) {
    forall k :: k in flags ==> 0 <= k < n
  }

  /** With the solo flags renumbered, flags keep naming existing tracks. */
  lemma DeleteRenumberedKeepsKeysInRange(x: Mixer, i: nat)
    requires x.midi.Some? && i < |x.midi.value.tracks|
    ensures var r := DeleteTrackRenumbered(x, i);
            var n := |x.midi.value.tracks|;
            && (KeysInRange(x.mutes, n) ==> KeysInRange(r.mutes, n - 1))
            && (KeysInRange(x.solos, n) ==> KeysInRange(r.solos, n - 1))
  {
  }

  /** Renumbering keeps "some track is soloed" unless the deleted track was
      the one soloed. */
  lemma ShiftedKeepsSoloActive(solos: Flags, i: int)
    requires !Flag(solos, i)
    ensures SoloActive(Shifted(solos, i)) <==> SoloActive(solos)
  {
    var r := Shifted(solos, i);
    if SoloActive(solos) {
      var k :| k in solos && solos[k];
      var n := Target(k, i);
      assert Origin(n, i) == k;
      assert n in r;
    }
    if SoloActive(r) {
      var k :| k in r && r[k];
      assert Flag(solos, Origin(k, i));
    }
  }

  /** Where the surviving track at `j` came from, and that its solo flag
      came along when the solo flags are renumbered. */
  lemma DeleteRenumberedMovesSolo(x: Mixer, i: nat, j: nat)
    requires x.midi.Some? && i < |x.midi.value.tracks| && j < |x.midi.value.tracks| - 1
    ensures Flag(DeleteTrackRenumbered(x, i).solos, j) == Flag(x.solos, Origin(j, i))
    ensures Flag(DeleteTrackRenumbered(x, i).mutes, j) == Flag(x.mutes, Origin(j, i))
  {
    DeleteMovesMuteWithTrack(x, i, j);
  }

  /** With the solo flags renumbered, every surviving track keeps the gain
      it had, unless the deleted track was soloed; when no solo survives,
      the mute flags decide as before. */
  lemma DeleteRenumberedKeepsGains(x: Mixer, i: nat, j: nat)
    requires x.midi.Some? && i < |x.midi.value.tracks| && j < |x.midi.value.tracks| - 1
    ensures !Flag(x.solos, i) ==>
              Gain(DeleteTrackRenumbered(x, i).mutes, DeleteTrackRenumbered(x, i).solos, j) == Gain(x.mutes, x.solos, Origin(j, i))
    ensures !SoloActive(DeleteTrackRenumbered(x, i).solos) ==>
              (Gain(DeleteTrackRenumbered(x, i).mutes, DeleteTrackRenumbered(x, i).solos, j) == 1 <==> !Flag(x.mutes, Origin(j, i)))
  {
    DeleteRenumberedMovesSolo(x, i, j);
    if !Flag(x.solos, i) {
      ShiftedKeepsSoloActive(x.solos, i);
    }
  }
}

=== FILE: settings.dfy ===
/** The tempo field of the settings panel. The field is a number input, so
    what reaches the handler is either the empty string or the text of a
    decimal number; the handler keeps it only when it denotes a whole
    number that is not negative. */
module Settings {
  import opened Wrappers
  import opened Text

  function Pow10(n: nat): (p: nat)
    ensures p >= 1
  {
    if n == 0 then 1 else 10 * Pow10(n - 1)
  }

  /** A digit string is below ten to the power of its length. */
  lemma {:induction false} DigitsBelowPow10(s: string)
    requires AllDigits(s)
    ensures DigitsValue(s) < Pow10(|s|)
  {
    if |s| > 0 {
      DigitsBelowPow10(s[..|s| - 1]);
    }
  }

  /** `Number(s)` on the text of a decimal number: an optional minus sign,
      digits, and an optional fraction after a point, with at least one
      digit in all; NaN (None) for anything else. */
  function NumberOfDecimal(s: string): Option<real> {
    if |s| > 0 && s[0] == '-' then
      match Unsigned(s[1..])
      case None => None
      case Some(v) => Some(-v)
    else Unsigned(s)
  }

  /** The unsigned part: digits with an optional fraction after a point. */
  function Unsigned(body: string): Option<real> {
    match IndexOf(body, '.')
    case None =>
      if |body| > 0 && AllDigits(body) then Some(DigitsValue(body) as real) else None
    case Some(i) =>
      var whole := body[..i];
      var frac := body[i + 1..];
      if |whole| + |frac| > 0 && AllDigits(whole) && AllDigits(frac) then
        Some(DigitsValue(whole) as real + DigitsValue(frac) as real / Pow10(|frac|) as real)
      else None
  }

  /** `value === '' || (Number.isInteger(Number(value)) && value >= 0)`. */
  predicate Accepts(value: string) {
    value == "" ||
    (NumberOfDecimal(value).Some? && NumberOfDecimal(value).value.Floor as real == NumberOfDecimal(value).value
     && NumberOfDecimal(value).value >= 0.0)
  }

  /** `handleTempoChange`: an accepted value becomes the tempo exactly as
      typed; any other value leaves the tempo as it was. */
  function TempoChange(tempo: string, value: string): (r: string)
    ensures Accepts(value) ==> r == value
    ensures !Accepts(value) ==> r == tempo
  {
    if Accepts(value) then value else tempo
  }

  /** Clearing the field is accepted. */
  lemma EmptyAccepted(tempo: string)
    ensures TempoChange(tempo, "") == ""
  {
  }

  /** Any plain run of digits is accepted and kept verbatim, leading
      zeros included. */
  lemma DigitsAccepted(tempo: string, value: string)
    requires |value| > 0 && AllDigits(value)
    ensures TempoChange(tempo, value) == value
  {
  }

  /** A minus sign before any positive reading (digits, with or without a
      fraction) is rejected. */
  lemma NegativeRejected(tempo: string, body: string)
    requires Unsigned(body).Some? && Unsigned(body).value > 0.0
    ensures TempoChange(tempo, "-" + body) == tempo
  {
    var value := "-" + body;
    assert value[1..] == body;
    assert NumberOfDecimal(value) == Some(-Unsigned(body).value);
  }

  /** A digit string reads as its value. */
  lemma ReadDigits(digits: string)
    requires |digits| > 0 && AllDigits(digits)
    ensures Unsigned(digits) == Some(DigitsValue(digits) as real)
  {
  }

  /** The text `whole.frac` reads as the whole part plus the fraction. */
  lemma ReadFraction(value: string, whole: string, frac: string)
    requires value == whole + "." + frac
    requires AllDigits(whole) && AllDigits(frac) && |whole| + |frac| > 0
    ensures NumberOfDecimal(value) ==
              Some(DigitsValue(whole) as real + DigitsValue(frac) as real / Pow10(|frac|) as real)
  {
    PointAfterDigits(whole, frac);
    UnsignedAt(value, |whole|, whole, frac);
    NotSigned(whole, frac);
  }

  lemma PointAfterDigits(whole: string, frac: string)
    requires AllDigits(whole)
    ensures IndexOf(whole + "." + frac, '.') == Some(|whole|)
    ensures (whole + "." + frac)[..|whole|] == whole && (whole + "." + frac)[|whole| + 1..] == frac
  {
    var value := whole + "." + frac;
    assert value[|whole|] == '.';
    assert value[..|whole|] == whole;
    assert '.' !in whole;
  }

  lemma UnsignedAt(body: string, i: nat, whole: string, frac: string)
    requires IndexOf(body, '.') == Some(i) && body[..i] == whole && body[i + 1..] == frac
    requires AllDigits(whole) && AllDigits(frac) && |whole| + |frac| > 0
    ensures Unsigned(body) == Some(DigitsValue(whole) as real + DigitsValue(frac) as real / Pow10(|frac|) as real)
  {
    var w, f := body[..i], body[i + 1..];
    assert w == whole && f == frac;
    assert AllDigits(w) && AllDigits(f) && |w| + |f| > 0;
  }

  lemma NotSigned(whole: string, frac: string)
    requires AllDigits(whole)
    ensures (whole + "." + frac)[0] != '-'
  {
    if |whole| > 0 {
      assert (whole + "." + frac)[0] == whole[0] && IsDigit(whole[0]);
    }
  }

  /** A whole number plus a proper fraction is not whole. */
  lemma ProperFractionNotWhole(w: nat, f: real)
    requires 0.0 < f < 1.0
    ensures (w as real + f).Floor == w && (w as real + f).Floor as real != w as real + f
  {
  }

  /** A number with a non-zero fraction is rejected, with or without a
      minus sign. */
  lemma FractionRejected(tempo: string, sign: string, whole: string, frac: string)
    requires sign == "" || sign == "-"
    requires AllDigits(whole) && AllDigits(frac) && DigitsValue(frac) > 0
    ensures TempoChange(tempo, sign + whole + "." + frac) == tempo
  {
    var body := whole + "." + frac;
    NonEmptyDigits(frac);
    ReadFraction(body, whole, frac);
    var f := FractionValue(frac);
    if sign == "" {
      assert sign + whole + "." + frac == body;
      ReadsNotWhole(body, DigitsValue(whole), f);
    } else {
      assert sign + whole + "." + frac == "-" + body;
      PointAfterDigits(whole, frac);
      UnsignedAt(body, |whole|, whole, frac);
      NegativeRejected(tempo, body);
    }
  }

  lemma NonEmptyDigits(s: string)
    requires AllDigits(s) && DigitsValue(s) > 0
    ensures |s| > 0
  {
  }

  /** The value of the digits after the point, strictly between 0 and 1
      when they are not all zero. */
  function FractionValue(frac: string): (f: real)
    requires AllDigits(frac) && DigitsValue(frac) > 0
    ensures 0.0 < f < 1.0
    ensures f == DigitsValue(frac) as real / Pow10(|frac|) as real
  {
    DigitsBelowPow10(frac);
    RatioInUnit(DigitsValue(frac), Pow10(|frac|));
    DigitsValue(frac) as real / Pow10(|frac|) as real
  }

  lemma RatioInUnit(a: nat, b: nat)
    requires 0 < a < b
    ensures 0.0 < a as real / b as real < 1.0
  {
    var x, y := a as real, b as real;
    var q := x / y;
    assert q * y == x;
  }

  /** Text reading as a whole number plus a proper fraction is rejected. */
  lemma ReadsNotWhole(value: string, w: nat, f: real)
    requires NumberOfDecimal(value) == Some(w as real + f) && 0.0 < f < 1.0
    ensures !Accepts(value)
  {
    ProperFractionNotWhole(w, f);
  }

  /** Concrete readings: 120 is taken; -1 and 1.5 are refused; 0 and -0 are
      whole numbers that are not negative, so both are taken. */
  lemma TempoExamples()
    ensures TempoChange("100", "120") == "120"
    ensures TempoChange("100", "-1") == "100"
    ensures TempoChange("100", "1.5") == "100"
    ensures TempoChange("100", "0") == "0"
    ensures TempoChange("100", "-0") == "-0"
  {
    DigitsAccepted("100", "120");
    ReadDigits("1");
    NegativeRejected("100", "1");
    assert "" + "1" + "." + "5" == "1.5";
    FractionRejected("100", "", "1", "5");
    DigitsAccepted("100", "0");
    NegativeZeroAccepted();
  }

  lemma NegativeZeroAccepted()
    ensures Accepts("-0")
  {
    assert "-0"[1..] == "0";
    assert IndexOf("0", '.') == None;
    assert NumberOfDecimal("-0") == Some(-0.0);
  }
}

=== FILE: stepgrid.dfy ===
/** The step-grid editor of the stand-alone page: a grid of 128 pitch rows,
    each holding one boolean cell per step, twelve bars of `stepsPerBar`
    steps; its note-name table, the remapping done when the note division
    changes, the cutting of rows into notes for playback, the tick-based
    export and the generate button. */
module StepGrid {
  import opened Wrappers
  import opened Text
  import Timeline

  const BarCountMax: nat := 12
  const PitchCount: nat := 128

  /** `RES_OPTIONS`: each note division on the menu and the steps per bar it gives. */
  const ResOptions: seq<(string, nat)> :=
    [("1/4", 4), ("1/8", 8), ("1/16", 16), ("1/32", 32), ("1/64", 64),
     ("1/4t", 6), ("1/8t", 12), ("1/16t", 24), ("1/32t", 48), ("1/64t", 96)]

  const DefaultResolution: string := "1/16"

  /** `RES_OPTIONS[key]`, undefined for a key not on the menu. */
  function StepsFor(key: string): (r: Option<nat>)
    ensures r.Some? <==> exists k :: 0 <= k < |ResOptions| && ResOptions[k].0 == key
    ensures r.Some? ==> r.value > 0 && (key, r.value) in ResOptions
  {
    Lookup(ResOptions, key)
  }

  function Lookup(options: seq<(string, nat)>, key: string): (r: Option<nat>)
    requires forall k :: 0 <= k < |options| ==> options[k].1 > 0
    ensures r.Some? <==> exists k :: 0 <= k < |options| && options[k].0 == key
    ensures r.Some? ==> r.value > 0 && (key, r.value) in options
  {
    if |options| == 0 then None
    else if options[0].0 == key then Some(options[0].1)
    else
      var r := Lookup(options[1..], key);
      assert forall k :: 1 <= k < |options| ==> options[k] == options[1..][k - 1];
      r
  }

  /** The page starts at sixteen steps per bar. */
  lemma DefaultIsSixteenSteps()
    ensures StepsFor(DefaultResolution) == Some(16)
  {
  }

  /** Steps in the whole grid, `BAR_COUNT_MAX * stepsPerBar`. */
  function TotalSteps(spb: nat): nat {
    BarCountMax * spb
  }

  // ---------------------------------------------------------------------
  // Note names
  // ---------------------------------------------------------------------

  const PitchClasses: seq<string> := ["C", "C#", "D", "D#", "E", "F", "F#", "G", "G#", "A", "A#", "B"]

  /** The name of MIDI note `i`: pitch class, then the octave `floor(i / 12) - 1`. */
  function NoteName(i: nat): string {
    PitchClasses[i % 12] + IntToString(i / 12 - 1)
  }

  /** `NOTE_NAMES`, one name per row of the grid. */
  const NoteNames: seq<string> := seq(PitchCount, i requires 0 <= i => NoteName(i))

  /** The index of a pitch class name in the table. */
  function PitchClassIndex(name: string): (r: Option<nat>)
    ensures r.Some? ==> r.value < 12 && PitchClasses[r.value] == name
    ensures r.None? ==> name !in PitchClasses
  {
    Find(PitchClasses, name)
  }

  function Find(xs: seq<string>, x: string): (r: Option<nat>)
    ensures r.Some? ==> r.value < |xs| && xs[r.value] == x && x !in xs[..r.value]
    ensures r.None? ==> x !in xs
  {
    if |xs| == 0 then None
    else if xs[0] == x then Some(0)
    else
      var r := Find(xs[1..], x);
      if r.None? then None
      else
        assert xs[..r.value + 1] == [xs[0]] + xs[1..][..r.value];
        Some(r.value + 1)
  }

  /** Reads a note name back: a pitch class ("C" or a sharp such as "C#")
      followed by a signed octave number. */
  function ParseNoteName(s: string): Option<int> {
    var cut := if |s| >= 2 && s[1] == '#' then 2 else 1;
    if |s| < cut then None
    else match (PitchClassIndex(s[..cut]), ParseInt(s[cut..]))
      case (Some(pc), Some(octave)) => Some((octave + 1) * 12 + pc)
      case _ => None
  }

  /** Each pitch class is found at its own position. */
  lemma PitchClassFound(k: nat)
    requires k < 12
    ensures PitchClassIndex(PitchClasses[k]) == Some(k)
  {
    ClassCodeOf(k);
    assert PitchClasses[k] in PitchClasses;
    var r := PitchClassIndex(PitchClasses[k]);
    ClassCodeOf(r.value);
  }

  /** The semitone a pitch class names: its letter's offset above C, one
      more for a sharp. */
  function ClassCode(name: string): int {
    if |name| == 0 then -1
    else
      var c := name[0];
      var letter :=
        if c == 'C' then 0 else if c == 'D' then 2 else if c == 'E' then 4
        else if c == 'F' then 5 else if c == 'G' then 7 else if c == 'A' then 9
        else if c == 'B' then 11 else -100;
      letter + |name| - 1
  }

  /** Each pitch class names its own semitone, so no two are equal. */
  lemma ClassCodeOf(k: nat)
    requires k < 12
    ensures ClassCode(PitchClasses[k]) == k
  {
  }

  /** A pitch class is one letter, or a letter and a sharp sign. */
  lemma PitchClassShape(k: nat)
    requires k < 12
    ensures |PitchClasses[k]| == 1 || (|PitchClasses[k]| == 2 && PitchClasses[k][1] == '#')
  {
  }

  /** Where the name is cut: after the sharp sign when there is one. */
  lemma CutAfterClass(pc: string, digits: string)
    requires |pc| == 1 || (|pc| == 2 && pc[1] == '#')
    requires |digits| >= 1 && digits[0] != '#'
    ensures var s := pc + digits;
            var cut := if |s| >= 2 && s[1] == '#' then 2 else 1;
            cut == |pc| && s[..cut] == pc && s[cut..] == digits
  {
    var s := pc + digits;
    if |pc| == 1 {
      assert s[1] == digits[0];
    }
    assert s[..|pc|] == pc && s[|pc|..] == digits;
  }

  /** A pitch class followed by an octave number reads back as the note. */
  lemma ParseClassThenOctave(pc: string, k: nat, octave: int)
    requires |pc| == 1 || (|pc| == 2 && pc[1] == '#')
    requires PitchClassIndex(pc) == Some(k)
    ensures ParseNoteName(pc + IntToString(octave)) == Some((octave + 1) * 12 + k)
  {
    var digits := IntToString(octave);
    IntToStringStart(octave);
    CutAfterClass(pc, digits);
    IntToStringRoundTrip(octave);
    ParseCut(pc + digits, |pc|, k, octave);
  }

  /** `ParseNoteName` once the cut point and both halves are known. */
  lemma ParseCut(s: string, cut: nat, k: nat, octave: int)
    requires cut == (if |s| >= 2 && s[1] == '#' then 2 else 1) && cut <= |s|
    requires PitchClassIndex(s[..cut]) == Some(k) && ParseInt(s[cut..]) == Some(octave)
    ensures ParseNoteName(s) == Some((octave + 1) * 12 + k)
  {
  }

  /** Each row's name reads back as that row's MIDI number. */
  lemma NoteNameRoundTrip(i: nat)
    requires i < PitchCount
    ensures ParseNoteName(NoteNames[i]) == Some(i)
  {
    var k, octave := i % 12, i / 12 - 1;
    assert NoteNames[i] == PitchClasses[k] + IntToString(octave);
    PitchClassShape(k);
    PitchClassFound(k);
    ParseClassThenOctave(PitchClasses[k], k, octave);
    assert i == (i / 12) * 12 + k;
  }

  /** No two rows share a name. */
  lemma NoteNamesDistinct(i: nat, j: nat)
    requires i < PitchCount && j < PitchCount && NoteNames[i] == NoteNames[j]
    ensures i == j
  {
    NoteNameRoundTrip(i);
    NoteNameRoundTrip(j);
  }

  /** Middle C is row 60, "C4"; the lowest row is "C-1" and the highest "G9". */
  lemma NoteNameExamples()
    ensures NoteNames[60] == "C4" && NoteNames[0] == "C-1" && NoteNames[127] == "G9"
  {
    assert NoteName(60) == "C" + NatToString(4);
    assert NoteName(0) == "C" + ("-" + NatToString(1));
    assert NoteName(127) == "G" + NatToString(9);
  }

  // ---------------------------------------------------------------------
  // The grid
  // ---------------------------------------------------------------------

  /** `grid[pitch][step]`. */
  type Grid = seq<seq<bool>>

  /** The shape `createEmptyGrid` gives: 128 rows of `totalSteps` cells. */
  predicate Shaped(g: Grid, spb: nat) {
    |g| == PitchCount && forall r :: 0 <= r < |g| ==> |g[r]| == TotalSteps(spb)
  }

  /** `grid[r][c]` read as a boolean: a step past the end of the row is
      `undefined`, i.e. off. */
  predicate Cell(row: seq<bool>, c: int) {
    0 <= c < |row| && row[c]
  }

  /** `createEmptyGrid`. */
  function EmptyGrid(spb: nat): (g: Grid)
    ensures Shaped(g, spb)
    ensures forall r, c :: 0 <= r < |g| ==> !Cell(g[r], c)
  {
    seq(PitchCount, _ => seq(TotalSteps(spb), _ => false))
  }

  // ---------------------------------------------------------------------
  // Changing the note division
  // ---------------------------------------------------------------------

  /** The step a set cell moves to: the same bar, and the step within the
      bar scaled by `new / old` and rounded down. */
  function NewStart(c: nat, oldSpb: nat, newSpb: nat): nat
    requires oldSpb > 0
  {
    (c / oldSpb) * newSpb + (c % oldSpb) * newSpb / oldSpb
  }

  /** `Math.round(n / d)` for naturals: the quotient rounded, halves up. */
  function RoundRatio(n: nat, d: nat): nat
    requires d > 0
  {
    (2 * n + d) / (2 * d)
  }

  /** `RoundRatio` is within half a unit of the exact ratio, i.e. the
      nearest whole number, with halves going up. */
  lemma RoundRatioNearest(n: nat, d: nat)
    requires d > 0
    ensures (2 * RoundRatio(n, d) - 1) * d <= 2 * n < (2 * RoundRatio(n, d) + 1) * d
    ensures RoundRatio(n, d) == 0 <==> 2 * n < d
  {
    var q := RoundRatio(n, d);
    var m := (2 * n + d) % (2 * d);
    DivMod(2 * n + d, 2 * d);
    var qd := q * d;
    assert q * (2 * d) == 2 * qd;
    assert 2 * n + d == 2 * qd + m;
    assert q == 0 ==> qd == 0;
    assert q >= 1 ==> qd >= d by {
      if q >= 1 {
        MulAtLeast(q, d);
      }
    }
    assert (2 * q - 1) * d == 2 * qd - d;
    assert (2 * q + 1) * d == 2 * qd + d;
  }

  /** `Math.max(1, Math.round(new / old))`: how many new steps a lit cell covers. */
  function Cells(oldSpb: nat, newSpb: nat): (n: nat)
    requires oldSpb > 0
    ensures n >= 1
  {
    var rounded := RoundRatio(newSpb, oldSpb);
    if rounded < 1 then 1 else rounded
  }

  /** `Cells` is the nearest whole number to the ratio of the divisions
      (halves rounding up), but never less than one cell. */
  lemma CellsNearestRatio(oldSpb: nat, newSpb: nat)
    requires oldSpb > 0
    ensures 2 * newSpb < oldSpb ==> Cells(oldSpb, newSpb) == 1
    ensures 2 * newSpb >= oldSpb ==>
              (2 * Cells(oldSpb, newSpb) - 1) * oldSpb <= 2 * newSpb < (2 * Cells(oldSpb, newSpb) + 1) * oldSpb
  {
    RoundRatioNearest(newSpb, oldSpb);
  }

  /** A moved cell stays within its own bar. */
  lemma NewStartInSameBar(c: nat, oldSpb: nat, newSpb: nat)
    requires oldSpb > 0 && newSpb > 0
    ensures (c / oldSpb) * newSpb <= NewStart(c, oldSpb, newSpb) < (c / oldSpb + 1) * newSpb
  {
    var step := c % oldSpb;
    assert step * newSpb < oldSpb * newSpb by {
      MulLess(step, oldSpb, newSpb);
    }
    DivBelow(step * newSpb, newSpb, oldSpb);
  }

  lemma MulLess(a: nat, b: nat, k: nat)
    requires a < b && k > 0
    ensures a * k < b * k
  {
  }

  lemma DivBelow(a: nat, b: nat, d: nat)
    requires d > 0 && a < b * d
    ensures a / d < b
  {
  }

  lemma DivMod(a: nat, d: nat)
    requires d > 0
    ensures a == (a / d) * d + a % d && 0 <= a % d < d
  {
  }

  lemma MulDivCancel(a: nat, d: nat)
    requires d > 0
    ensures a * d / d == a
  {
    DivMod(a * d, d);
    var q := a * d / d;
    var t := a - q;
    assert t * d == a * d - q * d;
    assert t * d == (a * d) % d;
    if t >= 1 {
      MulAtLeast(t, d);
    } else if t <= -1 {
      MulAtLeast(-t, d);
    }
  }

  lemma MulAtLeast(t: int, d: nat)
    requires t >= 1
    ensures t * d >= d
  {
  }

  /** Source cell `c` of the old row lights new step `idx`. */
  predicate Covers(row: seq<bool>, c: nat, idx: int, oldSpb: nat, newSpb: nat)
    requires oldSpb > 0
  {
    Cell(row, c) && NewStart(c, oldSpb, newSpb) <= idx < NewStart(c, oldSpb, newSpb) + Cells(oldSpb, newSpb)
    && idx < TotalSteps(newSpb)
  }

  /** New step `idx` after the first `upTo` cells of the old row are moved. */
  function Painted(row: seq<bool>, upTo: nat, idx: int, oldSpb: nat, newSpb: nat): bool
    requires oldSpb > 0
  {
    if upTo == 0 then false
    else Painted(row, upTo - 1, idx, oldSpb, newSpb) || Covers(row, upTo - 1, idx, oldSpb, newSpb)
  }

  /** The remapped row: a fresh empty row with every moved cell painted in. */
  function RemapRow(row: seq<bool>, oldSpb: nat, newSpb: nat): seq<bool>
    requires oldSpb > 0
  {
    seq(TotalSteps(newSpb), idx => Painted(row, |row|, idx, oldSpb, newSpb))
  }

  /** The grid after the division changes from `oldSpb` to `newSpb` steps
      per bar: row by row, rows missing from the old grid staying empty. */
  function Remap(g: Grid, oldSpb: nat, newSpb: nat): (r: Grid)
    requires oldSpb > 0
    ensures Shaped(r, newSpb)
  {
    seq(PitchCount, p requires 0 <= p => if p < |g| then RemapRow(g[p], oldSpb, newSpb) else seq(TotalSteps(newSpb), _ => false))
  }

  lemma {:induction false} PaintedIff(row: seq<bool>, upTo: nat, idx: int, oldSpb: nat, newSpb: nat)
    requires oldSpb > 0
    ensures Painted(row, upTo, idx, oldSpb, newSpb) <==>
              exists c :: 0 <= c < upTo && Covers(row, c, idx, oldSpb, newSpb)
  {
    if upTo > 0 {
      PaintedIff(row, upTo - 1, idx, oldSpb, newSpb);
    }
  }

  /** A new cell is lit exactly when some lit cell of the same row of the
      old grid, moved into its bar and stretched to `Cells` steps, covers it. */
  lemma RemapCell(g: Grid, oldSpb: nat, newSpb: nat, p: nat, idx: nat)
    requires oldSpb > 0 && p < PitchCount && idx < TotalSteps(newSpb)
    ensures Remap(g, oldSpb, newSpb)[p][idx] <==>
              p < |g| && exists c :: 0 <= c < |g[p]| && Covers(g[p], c, idx, oldSpb, newSpb)
  {
    if p < |g| {
      PaintedIff(g[p], |g[p]|, idx, oldSpb, newSpb);
    }
  }

  /** Every lit cell survives the remap: its moved position is lit, in the
      same row and the same bar, unless it falls past the end of the grid. */
  lemma RemapKeepsNotes(g: Grid, oldSpb: nat, newSpb: nat, p: nat, c: nat)
    requires oldSpb > 0 && newSpb > 0 && p < |g| && p < PitchCount && Cell(g[p], c)
    requires NewStart(c, oldSpb, newSpb) < TotalSteps(newSpb)
    ensures Remap(g, oldSpb, newSpb)[p][NewStart(c, oldSpb, newSpb)]
    ensures (c / oldSpb) * newSpb <= NewStart(c, oldSpb, newSpb) < (c / oldSpb + 1) * newSpb
  {
    RemapCell(g, oldSpb, newSpb, p, NewStart(c, oldSpb, newSpb));
    assert Covers(g[p], c, NewStart(c, oldSpb, newSpb), oldSpb, newSpb);
    NewStartInSameBar(c, oldSpb, newSpb);
  }

  /** With the same division before and after, each cell covers just itself. */
  lemma {:induction false} PaintedSameDivision(row: seq<bool>, upTo: nat, idx: int, spb: nat)
    requires spb > 0 && |row| == TotalSteps(spb)
    ensures Painted(row, upTo, idx, spb, spb) <==> idx < upTo && Cell(row, idx)
  {
    if upTo > 0 {
      PaintedSameDivision(row, upTo - 1, idx, spb);
      SameDivisionMovesNothing(upTo - 1, spb);
    }
  }

  /** With the same division a cell keeps its index and covers one step. */
  lemma SameDivisionMovesNothing(c: nat, spb: nat)
    requires spb > 0
    ensures NewStart(c, spb, spb) == c && Cells(spb, spb) == 1
  {
    RoundRatioNearest(spb, spb);
    MulDivCancel(c % spb, spb);
    DivMod(c, spb);
  }

  /** Remapping to the division already in use gives back the same grid. */
  lemma RemapSameDivision(g: Grid, spb: nat)
    requires spb > 0 && Shaped(g, spb)
    ensures Remap(g, spb, spb) == g
  {
    var r := Remap(g, spb, spb);
    forall p | 0 <= p < PitchCount
      ensures r[p] == g[p]
    {
      forall idx | 0 <= idx < TotalSteps(spb)
        ensures r[p][idx] == g[p][idx]
      {
        PaintedSameDivision(g[p], |g[p]|, idx, spb);
      }
    }
  }

  /** The handler's loops over one row: start from an empty row and, for
      each lit old cell, light `Cells` steps from its new start, skipping
      steps past the end. */
  method RemapRowLoop(row: seq<bool>, oldSpb: nat, newSpb: nat) returns (out: seq<bool>)
    requires oldSpb > 0
    ensures out == RemapRow(row, oldSpb, newSpb)
  {
    var total := TotalSteps(newSpb);
    out := seq(total, _ => false);
    var c := 0;
    while c < |row|
      invariant 0 <= c <= |row| && |out| == total
      invariant forall idx :: 0 <= idx < total ==> out[idx] == Painted(row, c, idx, oldSpb, newSpb)
    {
      if row[c] {
        var start := NewStart(c, oldSpb, newSpb);
        var cells := Cells(oldSpb, newSpb);
        var i := 0;
        while i < cells
          invariant 0 <= i <= cells && |out| == total
          invariant forall idx :: 0 <= idx < total ==>
                      out[idx] == (Painted(row, c, idx, oldSpb, newSpb) || start <= idx < start + i)
        {
          if start + i < total {
            out := out[start + i := true];
          }
          i := i + 1;
        }
      }
      c := c + 1;
    }
  }

  /** The handler's loop over the 128 rows. */
  method RemapLoop(g: Grid, oldSpb: nat, newSpb: nat) returns (out: Grid)
    requires oldSpb > 0
    ensures out == Remap(g, oldSpb, newSpb)
  {
    var target := Remap(g, oldSpb, newSpb);
    out := [];
    var p := 0;
    while p < PitchCount
      invariant 0 <= p <= PitchCount && |out| == p
      invariant forall q :: 0 <= q < p ==> out[q] == target[q]
    {
      var row := seq(TotalSteps(newSpb), _ => false);
      if p < |g| {
        row := RemapRowLoop(g[p], oldSpb, newSpb);
      }
      out := out + [row];
      p := p + 1;
    }
  }

  // ---------------------------------------------------------------------
  // Cutting rows into notes
  // ---------------------------------------------------------------------

  /** A note on one row: its first step and its length in steps. */
  datatype Run = Run(start: nat, len: nat)

  predicate InRun(run: Run, j: int) {
    run.start <= j < run.start + run.len
  }

  /** The inner `while (end + 1 < limit && grid[r][end + 1]) end++`: the
      last lit step of the run through `end`. */
  function RunEnd(row: seq<bool>, limit: nat, end: nat): (e: nat)
    requires end < limit && Cell(row, end)
    ensures end <= e < limit
    ensures forall j :: end <= j <= e ==> Cell(row, j)
    ensures e + 1 == limit || !Cell(row, e + 1)
    decreases limit - end
  {
    if end + 1 < limit && Cell(row, end + 1) then RunEnd(row, limit, end + 1) else end
  }

  /** The runs of lit steps of `row` from step `c` up to `limit`, in order:
      at each lit step a run is cut through its last lit step and the scan
      resumes just after it. */
  function Runs(row: seq<bool>, limit: nat, c: nat): seq<Run>
    decreases limit - c
  {
    if c >= limit then []
    else if Cell(row, c) then
      var e := RunEnd(row, limit, c);
      [Run(c, e - c + 1)] + Runs(row, limit, e + 1)
    else Runs(row, limit, c + 1)
  }

  /** Every run is non-empty and lies in `[c, limit)`. */
  predicate Within(rs: seq<Run>, c: nat, limit: nat) {
    forall k :: 0 <= k < |rs| ==> c <= rs[k].start && 1 <= rs[k].len && rs[k].start + rs[k].len <= limit
  }

  /** Every step of every run is lit. */
  ghost predicate AllLit(rs: seq<Run>, row: seq<bool>) {
    forall k, j :: 0 <= k < |rs| && InRun(rs[k], j) ==> Cell(row, j)
  }

  /** Every run is non-empty, lies in `[c, limit)` and is lit throughout. */
  lemma {:induction false} RunsLit(row: seq<bool>, limit: nat, c: nat)
    ensures Within(Runs(row, limit, c), c, limit)
    ensures AllLit(Runs(row, limit, c), row)
    decreases limit - c
  {
    if c < limit {
      if Cell(row, c) {
        var e := RunEnd(row, limit, c);
        var rest := Runs(row, limit, e + 1);
        var rs := Runs(row, limit, c);
        assert rs == [Run(c, e - c + 1)] + rest;
        RunsLit(row, limit, e + 1);
        forall k | 0 <= k < |rs|
          ensures c <= rs[k].start && 1 <= rs[k].len && rs[k].start + rs[k].len <= limit
        {
          if k > 0 {
            assert rs[k] == rest[k - 1];
          }
        }
        forall k, j | 0 <= k < |rs| && InRun(rs[k], j)
          ensures Cell(row, j)
        {
          if k > 0 {
            assert rs[k] == rest[k - 1];
          }
        }
      } else {
        assert Runs(row, limit, c) == Runs(row, limit, c + 1);
        RunsLit(row, limit, c + 1);
      }
    }
  }

  /** The step before each run is unlit, unless the run starts at `c`. */
  predicate StartAfterGap(rs: seq<Run>, row: seq<bool>, c: nat) {
    forall k :: 0 <= k < |rs| ==> rs[k].start == c || !Cell(row, rs[k].start - 1)
  }

  /** The step after each run is unlit, unless the run reaches `limit`. */
  predicate EndAtGap(rs: seq<Run>, row: seq<bool>, limit: nat) {
    forall k :: 0 <= k < |rs| ==> rs[k].start + rs[k].len == limit || !Cell(row, rs[k].start + rs[k].len)
  }

  /** Runs come in order with at least one step between consecutive runs. */
  predicate Separated(rs: seq<Run>) {
    forall k :: 0 <= k < |rs| - 1 ==> rs[k].start + rs[k].len < rs[k + 1].start
  }

  /** A scan resuming at an unlit step (or at the limit) starts every run
      strictly past it. */
  lemma RestStartsPastGap(row: seq<bool>, limit: nat, s: nat)
    requires s == limit || !Cell(row, s)
    ensures forall k :: 0 <= k < |Runs(row, limit, s)| ==> Runs(row, limit, s)[k].start > s
  {
    var rest := Runs(row, limit, s);
    RunsStartLit(row, limit, s);
    forall k | 0 <= k < |rest|
      ensures rest[k].start > s
    {
      assert s <= rest[k].start && Cell(row, rest[k].start);
    }
  }

  /** Every run starts on a lit step at or after `c`. */
  lemma RunsStartLit(row: seq<bool>, limit: nat, c: nat)
    ensures forall k :: 0 <= k < |Runs(row, limit, c)| ==> c <= Runs(row, limit, c)[k].start && Cell(row, Runs(row, limit, c)[k].start)
  {
    var rs := Runs(row, limit, c);
    RunsLit(row, limit, c);
    forall k | 0 <= k < |rs|
      ensures c <= rs[k].start && Cell(row, rs[k].start)
    {
      assert InRun(rs[k], rs[k].start);
    }
  }

  /** No run can be extended to the left. */
  lemma {:induction false} RunsStartAfterGap(row: seq<bool>, limit: nat, c: nat)
    ensures StartAfterGap(Runs(row, limit, c), row, c)
    decreases limit - c
  {
    if c < limit {
      if Cell(row, c) {
        var e := RunEnd(row, limit, c);
        var rest := Runs(row, limit, e + 1);
        var rs := Runs(row, limit, c);
        assert rs == [Run(c, e - c + 1)] + rest;
        RestStartsPastGap(row, limit, e + 1);
        RunsStartAfterGap(row, limit, e + 1);
        StartAfterGapCons(Run(c, e - c + 1), rest, row, c, e + 1);
      } else {
        assert Runs(row, limit, c) == Runs(row, limit, c + 1);
        RunsStartAfterGap(row, limit, c + 1);
      }
    }
  }

  lemma StartAfterGapCons(first: Run, rest: seq<Run>, row: seq<bool>, c: nat, s: nat)
    requires first.start == c
    requires StartAfterGap(rest, row, s)
    requires forall k :: 0 <= k < |rest| ==> rest[k].start > s
    ensures StartAfterGap([first] + rest, row, c)
  {
    var rs := [first] + rest;
    forall k | 1 <= k < |rs|
      ensures !Cell(row, rs[k].start - 1)
    {
      assert rs[k] == rest[k - 1];
    }
  }

  /** No run can be extended to the right. */
  lemma {:induction false} RunsEndAtGap(row: seq<bool>, limit: nat, c: nat)
    ensures EndAtGap(Runs(row, limit, c), row, limit)
    decreases limit - c
  {
    if c < limit {
      if Cell(row, c) {
        var e := RunEnd(row, limit, c);
        var rest := Runs(row, limit, e + 1);
        var rs := Runs(row, limit, c);
        assert rs == [Run(c, e - c + 1)] + rest;
        RunsEndAtGap(row, limit, e + 1);
        EndAtGapCons(Run(c, e - c + 1), rest, row, limit);
      } else {
        assert Runs(row, limit, c) == Runs(row, limit, c + 1);
        RunsEndAtGap(row, limit, c + 1);
      }
    }
  }

  lemma EndAtGapCons(first: Run, rest: seq<Run>, row: seq<bool>, limit: nat)
    requires EndAtGap(rest, row, limit)
    requires first.start + first.len == limit || !Cell(row, first.start + first.len)
    ensures EndAtGap([first] + rest, row, limit)
  {
    var rs := [first] + rest;
    forall k | 1 <= k < |rs|
      ensures rs[k].start + rs[k].len == limit || !Cell(row, rs[k].start + rs[k].len)
    {
      assert rs[k] == rest[k - 1];
    }
  }

  /** Consecutive runs have an unlit step between them. */
  lemma {:induction false} RunsSeparated(row: seq<bool>, limit: nat, c: nat)
    ensures Separated(Runs(row, limit, c))
    decreases limit - c
  {
    if c < limit {
      if Cell(row, c) {
        var e := RunEnd(row, limit, c);
        var rest := Runs(row, limit, e + 1);
        var rs := Runs(row, limit, c);
        assert rs == [Run(c, e - c + 1)] + rest;
        RestStartsPastGap(row, limit, e + 1);
        RunsSeparated(row, limit, e + 1);
        forall k | 0 <= k < |rs| - 1
          ensures rs[k].start + rs[k].len < rs[k + 1].start
        {
          assert rs[k + 1] == rest[k];
          if k > 0 {
            assert rs[k] == rest[k - 1];
          }
        }
      } else {
        assert Runs(row, limit, c) == Runs(row, limit, c + 1);
        RunsSeparated(row, limit, c + 1);
      }
    }
  }

  /** Every lit step in `[c, limit)` belongs to some run. */
  lemma {:induction false} RunsCover(row: seq<bool>, limit: nat, c: nat, j: int)
    requires c <= j < limit && Cell(row, j)
    ensures exists k :: 0 <= k < |Runs(row, limit, c)| && InRun(Runs(row, limit, c)[k], j)
    decreases limit - c
  {
    var rs := Runs(row, limit, c);
    if Cell(row, c) {
      var e := RunEnd(row, limit, c);
      if j <= e {
        assert InRun(rs[0], j);
      } else {
        RunsCover(row, limit, e + 1, j);
        var rest := Runs(row, limit, e + 1);
        var k :| 0 <= k < |rest| && InRun(rest[k], j);
        assert rs[k + 1] == rest[k];
      }
    } else {
      RunsCover(row, limit, c + 1, j);
    }
  }

  /** The cut of a whole row: the runs are exactly its maximal stretches of
      lit steps below `limit`, in order, one run per stretch. */
  lemma RowRunsAreMaximal(row: seq<bool>, limit: nat)
    ensures var rs := Runs(row, limit, 0);
            && (forall k :: 0 <= k < |rs| ==> 1 <= rs[k].len && rs[k].start + rs[k].len <= limit)
            && (forall k, j :: 0 <= k < |rs| && InRun(rs[k], j) ==> Cell(row, j))
            && (forall k :: 0 <= k < |rs| ==> !Cell(row, rs[k].start - 1))
            && (forall k :: 0 <= k < |rs| ==> rs[k].start + rs[k].len == limit || !Cell(row, rs[k].start + rs[k].len))
            && (forall k :: 0 <= k < |rs| - 1 ==> rs[k].start + rs[k].len < rs[k + 1].start)
            && (forall j :: 0 <= j < limit && Cell(row, j) ==> exists k :: 0 <= k < |rs| && InRun(rs[k], j))
  {
    RunsLit(row, limit, 0);
    RunsStartAfterGap(row, limit, 0);
    RunsEndAtGap(row, limit, 0);
    RunsSeparated(row, limit, 0);
    forall j | 0 <= j < limit && Cell(row, j)
      ensures exists k :: 0 <= k < |Runs(row, limit, 0)| && InRun(Runs(row, limit, 0)[k], j)
    {
      RunsCover(row, limit, 0, j);
    }
  }

  /** The source's loop over one row, stopping at `limit`. */
  method SegmentRow(row: seq<bool>, limit: nat) returns (runs: seq<Run>)
    ensures runs == Runs(row, limit, 0)
  {
    runs := [];
    var c := 0;
    while c < limit
      invariant c <= limit
      invariant runs + Runs(row, limit, c) == Runs(row, limit, 0)
      decreases limit - c
    {
      if Cell(row, c) {
        var end := c;
        while end + 1 < limit && Cell(row, end + 1)
          invariant c <= end < limit && Cell(row, end)
          invariant RunEnd(row, limit, end) == RunEnd(row, limit, c)
          decreases limit - end
        {
          end := end + 1;
        }
        runs := runs + [Run(c, end - c + 1)];
        c := end + 1;
      } else {
        c := c + 1;
      }
    }
  }

  /** A row has no runs exactly when none of its steps below `limit` is lit. */
  lemma NoRunsIffDark(row: seq<bool>, limit: nat)
    ensures Runs(row, limit, 0) == [] <==> forall j :: 0 <= j < limit ==> !Cell(row, j)
  {
    var rs := Runs(row, limit, 0);
    RunsLit(row, limit, 0);
    if rs != [] {
      assert 1 <= rs[0].len && rs[0].start < limit;
      assert InRun(rs[0], rs[0].start);
      assert Cell(row, rs[0].start);
    } else {
      forall j | 0 <= j < limit
        ensures !Cell(row, j)
      {
        if Cell(row, j) {
          RunsCover(row, limit, 0, j);
        }
      }
    }
  }

  /** Two rows that agree below `limit` are cut identically: nothing at or
      past `limit` is read. */
  lemma {:induction false} RunsFrame(row1: seq<bool>, row2: seq<bool>, limit: nat, c: nat)
    requires forall j :: 0 <= j < limit ==> Cell(row1, j) == Cell(row2, j)
    ensures Runs(row1, limit, c) == Runs(row2, limit, c)
    decreases limit - c
  {
    if c < limit {
      if Cell(row1, c) {
        RunEndFrame(row1, row2, limit, c);
        RunsFrame(row1, row2, limit, RunEnd(row1, limit, c) + 1);
      } else {
        RunsFrame(row1, row2, limit, c + 1);
      }
    }
  }

  lemma {:induction false} RunEndFrame(row1: seq<bool>, row2: seq<bool>, limit: nat, end: nat)
    requires forall j :: 0 <= j < limit ==> Cell(row1, j) == Cell(row2, j)
    requires end < limit && Cell(row1, end)
    ensures RunEnd(row1, limit, end) == RunEnd(row2, limit, end)
    decreases limit - end
  {
    if end + 1 < limit && Cell(row1, end + 1) {
      RunEndFrame(row1, row2, limit, end + 1);
    }
  }

  // ---------------------------------------------------------------------
  // Every run of the grid
  // ---------------------------------------------------------------------

  /** A run placed on its row. */
  datatype Placed = Placed(pitch: nat, run: Run)

  function Place(pitch: nat, runs: seq<Run>): (ps: seq<Placed>)
    ensures |ps| == |runs|
    ensures forall k :: 0 <= k < |runs| ==> ps[k] == Placed(pitch, runs[k])
  {
    seq(|runs|, k requires 0 <= k < |runs| => Placed(pitch, runs[k]))
  }

  /** The runs of rows `r`, `r + 1`, ... in the order the two nested loops
      visit them: row by row, left to right. */
  function AllRuns(g: Grid, limit: nat, r: nat): seq<Placed>
    decreases |g| - r
  {
    if r >= |g| then [] else Place(r, Runs(g[r], limit, 0)) + AllRuns(g, limit, r + 1)
  }

  /** A placed run is one of the runs of its row, on a row from `r` on. */
  lemma {:induction false} AllRunsMember(g: Grid, limit: nat, r: nat, p: Placed)
    ensures p in AllRuns(g, limit, r) <==> r <= p.pitch < |g| && p.run in Runs(g[p.pitch], limit, 0)
    decreases |g| - r
  {
    if r < |g| {
      AllRunsMember(g, limit, r + 1, p);
      var here := Place(r, Runs(g[r], limit, 0));
      assert p in here <==> p.pitch == r && p.run in Runs(g[r], limit, 0) by {
        if p in here {
          var k :| 0 <= k < |here| && here[k] == p;
        }
        if p.pitch == r && p.run in Runs(g[r], limit, 0) {
          var k :| 0 <= k < |Runs(g[r], limit, 0)| && Runs(g[r], limit, 0)[k] == p.run;
          assert here[k] == p;
        }
      }
    }
  }

  /** There are no runs at all exactly when no cell below `limit` is lit. */
  lemma {:induction false} AllRunsEmptyIff(g: Grid, limit: nat, r: nat)
    ensures AllRuns(g, limit, r) == [] <==>
              forall p, c :: r <= p < |g| && 0 <= c < limit ==> !Cell(g[p], c)
    decreases |g| - r
  {
    if r < |g| {
      AllRunsEmptyIff(g, limit, r + 1);
      NoRunsIffDark(g[r], limit);
      if AllRuns(g, limit, r) == [] {
        assert Runs(g[r], limit, 0) == [];
      }
    }
  }

  /** Every placed run is a non-empty run of lit cells below `limit`. */
  lemma PlacedRunLit(g: Grid, limit: nat, p: Placed)
    requires p in AllRuns(g, limit, 0)
    ensures p.pitch < |g| && 1 <= p.run.len && p.run.start + p.run.len <= limit
    ensures forall j :: InRun(p.run, j) ==> Cell(g[p.pitch], j)
  {
    AllRunsMember(g, limit, 0, p);
    RunsLit(g[p.pitch], limit, 0);
    var k :| 0 <= k < |Runs(g[p.pitch], limit, 0)| && Runs(g[p.pitch], limit, 0)[k] == p.run;
  }

  /** Two grids that agree below `limit` have the same runs. */
  lemma {:induction false} AllRunsFrame(g1: Grid, g2: Grid, limit: nat, r: nat)
    requires |g1| == |g2|
    requires forall p, c :: 0 <= p < |g1| && 0 <= c < limit ==> Cell(g1[p], c) == Cell(g2[p], c)
    ensures AllRuns(g1, limit, r) == AllRuns(g2, limit, r)
    decreases |g1| - r
  {
    if r < |g1| {
      RunsFrame(g1[r], g2[r], limit, 0);
      AllRunsFrame(g1, g2, limit, r + 1);
    }
  }

  // ---------------------------------------------------------------------
  // Playback
  // ---------------------------------------------------------------------

  /** One bar at the fixed 120 bpm: `(60 / 120) * 4` seconds. */
  const BarSeconds: real := 2.0

  /** `barDuration / stepsPerBar`. */
  function StepDuration(spb: nat): (d: real)
    requires spb > 0
    ensures d > 0.0 && d * spb as real == BarSeconds
  {
    BarSeconds / spb as real
  }

  /** A `Transport.schedule` call: the row's note, when, and for how long. */
  datatype Scheduled = Scheduled(pitch: nat, time: real, duration: real)

  /** A run as an event: it starts at `start * stepDuration` and lasts
      `len * stepDuration`. */
  function EventOf(p: Placed, sd: real): Scheduled {
    Scheduled(p.pitch, p.run.start as real * sd, p.run.len as real * sd)
  }

  /** Every event `playGrid` schedules, one per run, over the whole grid. */
  function Schedule(g: Grid, spb: nat): (events: seq<Scheduled>)
    requires spb > 0
    ensures |events| == |AllRuns(g, TotalSteps(spb), 0)|
  {
    var runs := AllRuns(g, TotalSteps(spb), 0);
    seq(|runs|, k requires 0 <= k < |runs| => EventOf(runs[k], StepDuration(spb)))
  }

  /** Every event starts at or after zero and ends by the time the
      end-of-playback callback fires, `totalSteps * stepDuration`, which is
      24 seconds at every division. */
  lemma EventsWithinPlayback(g: Grid, spb: nat, k: nat)
    requires spb > 0 && k < |Schedule(g, spb)|
    ensures var ev := Schedule(g, spb)[k];
            && 0.0 <= ev.time && 0.0 < ev.duration
            && ev.time + ev.duration <= TotalSteps(spb) as real * StepDuration(spb)
    ensures TotalSteps(spb) as real * StepDuration(spb) == 24.0
  {
    var runs := AllRuns(g, TotalSteps(spb), 0);
    var sd := StepDuration(spb);
    var p := runs[k];
    assert p in runs;
    PlacedRunLit(g, TotalSteps(spb), p);
    EventInWindow(p, TotalSteps(spb), sd);
    PlaybackLength(spb);
  }

  lemma EventInWindow(p: Placed, total: nat, sd: real)
    requires sd > 0.0 && 1 <= p.run.len && p.run.start + p.run.len <= total
    ensures var ev := EventOf(p, sd);
            0.0 <= ev.time && 0.0 < ev.duration && ev.time + ev.duration <= total as real * sd
  {
    EventBounds(p.run.start, p.run.len, total, sd);
  }

  /** A run inside the grid becomes an event inside the playback window. */
  lemma EventBounds(start: nat, len: nat, total: nat, sd: real)
    requires sd > 0.0 && 1 <= len && start + len <= total
    ensures 0.0 <= start as real * sd && 0.0 < len as real * sd
    ensures start as real * sd + len as real * sd <= total as real * sd
  {
    Timeline.MulMonotone(0.0, start as real, sd);
    Timeline.MulStrict(0.0, len as real, sd);
    Timeline.MulMonotone((start + len) as real, total as real, sd);
    assert (start + len) as real * sd == start as real * sd + len as real * sd;
  }

  /** Twelve bars of two seconds, whatever the division. */
  lemma PlaybackLength(spb: nat)
    requires spb > 0
    ensures TotalSteps(spb) as real * StepDuration(spb) == 24.0
  {
    var sd := StepDuration(spb);
    assert TotalSteps(spb) as real == 12.0 * spb as real;
    assert 12.0 * spb as real * sd == 12.0 * (sd * spb as real);
  }

  // ---------------------------------------------------------------------
  // Export
  // ---------------------------------------------------------------------

  /** Ticks in one bar of the exported file. */
  const TicksPerBar: nat := 512

  /** `Math.round(steps * ticksPerStep)` with `ticksPerStep = 512 / stepsPerBar`. */
  function Ticks(steps: nat, spb: nat): nat
    requires spb > 0
  {
    RoundRatio(steps * TicksPerBar, spb)
  }

  /** A `track.addNote(0, note, durationTicks, wait)` call. */
  datatype Command = Command(pitch: nat, durationTicks: int, wait: int)

  /** The export loop over runs: each note waits from where the previous
      note ended, `currentTick`, to its own start tick. */
  function Encode(ps: seq<Placed>, spb: nat, tick: int): (cmds: seq<Command>)
    requires spb > 0
    ensures |cmds| == |ps|
  {
    if |ps| == 0 then []
    else
      var start := Ticks(ps[0].run.start, spb);
      var dur := Ticks(ps[0].run.len, spb);
      [Command(ps[0].pitch, dur, start - tick)] + Encode(ps[1..], spb, start + dur)
  }

  /** Reads commands back to absolute start ticks: each note starts `wait`
      ticks after the previous one ended. The wait is signed, so a negative
      one steps back in time, which a MIDI delta time cannot express. */
  function StartTicks(cmds: seq<Command>, tick: int): (starts: seq<int>)
    ensures |starts| == |cmds|
  {
    if |cmds| == 0 then []
    else
      var start := tick + cmds[0].wait;
      [start] + StartTicks(cmds[1..], start + cmds[0].durationTicks)
  }

  /** The command list loses nothing: reading its signed waits back gives
      every note's own start tick, and each command keeps its row and rounded
      length. */
  lemma {:induction false} EncodeRoundTrip(ps: seq<Placed>, spb: nat, tick: int)
    requires spb > 0
    ensures var cmds := Encode(ps, spb, tick);
            && StartTicks(cmds, tick) == seq(|ps|, k requires 0 <= k < |ps| => Ticks(ps[k].run.start, spb) as int)
            && forall k :: 0 <= k < |ps| ==> cmds[k].pitch == ps[k].pitch && cmds[k].durationTicks == Ticks(ps[k].run.len, spb)
  {
    if |ps| > 0 {
      var start := Ticks(ps[0].run.start, spb);
      var dur := Ticks(ps[0].run.len, spb);
      EncodeRoundTrip(ps[1..], spb, start + dur);
      var cmds := Encode(ps, spb, tick);
      assert cmds[1..] == Encode(ps[1..], spb, start + dur);
      forall k | 1 <= k < |ps|
        ensures cmds[k].pitch == ps[k].pitch && cmds[k].durationTicks == Ticks(ps[k].run.len, spb)
      {
        assert cmds[k] == cmds[1..][k - 1];
        assert ps[k] == ps[1..][k - 1];
      }
    }
  }

  /** The file `buildMidiFromGrid` writes: tempo, program, notes. */
  datatype MidiFile = MidiFile(bpm: nat, program: nat, commands: seq<Command>)

  /** `setInstrument(0, program)`: 64 for the saxophone, 0 otherwise. */
  function Program(instrument: string): nat {
    if instrument == "sax" then 64 else 0
  }

  /** `buildMidiFromGrid(numBars)`: the runs below `numBars * stepsPerBar`. */
  function Export(g: Grid, spb: nat, numBars: nat, instrument: string): MidiFile
    requires spb > 0
  {
    MidiFile(120, Program(instrument), Encode(AllRuns(g, numBars * spb, 0), spb, 0))
  }

  /** One command per run of the selected bars; read with signed waits, each
      starts at its run's rounded start tick and lasts its rounded length. */
  lemma ExportRoundTrip(g: Grid, spb: nat, numBars: nat, instrument: string)
    requires spb > 0
    ensures var runs := AllRuns(g, numBars * spb, 0);
            var cmds := Export(g, spb, numBars, instrument).commands;
            && |cmds| == |runs|
            && StartTicks(cmds, 0) == seq(|runs|, k requires 0 <= k < |runs| => Ticks(runs[k].run.start, spb) as int)
            && forall k :: 0 <= k < |runs| ==> cmds[k].pitch == runs[k].pitch && cmds[k].durationTicks == Ticks(runs[k].run.len, spb)
  {
    EncodeRoundTrip(AllRuns(g, numBars * spb, 0), spb, 0);
  }

  /** Only the selected bars are read: grids that agree there export the same file. */
  lemma ExportReadsSelectedBars(g1: Grid, g2: Grid, spb: nat, numBars: nat, instrument: string)
    requires spb > 0 && |g1| == |g2|
    requires forall p, c :: 0 <= p < |g1| && 0 <= c < numBars * spb ==> Cell(g1[p], c) == Cell(g2[p], c)
    ensures Export(g1, spb, numBars, instrument) == Export(g2, spb, numBars, instrument)
  {
    AllRunsFrame(g1, g2, numBars * spb, 0);
  }

  /** `buildMidiFromGrid`'s loops: rows in order, each row cut into runs,
      one `addNote` per run with `currentTick` carried across rows. */
  method BuildMidi(g: Grid, spb: nat, numBars: nat, instrument: string) returns (file: MidiFile)
    requires spb > 0
    ensures file == Export(g, spb, numBars, instrument)
  {
    var maxStep := numBars * spb;
    ghost var target := Encode(AllRuns(g, maxStep, 0), spb, 0);
    var cmds: seq<Command> := [];
    var tick: int := 0;
    var r := 0;
    while r < |g|
      invariant 0 <= r <= |g|
      invariant cmds + Encode(AllRuns(g, maxStep, r), spb, tick) == target
    {
      var runs := SegmentRow(g[r], maxStep);
      assert AllRuns(g, maxStep, r) == Place(r, runs) + AllRuns(g, maxStep, r + 1);
      cmds, tick := EncodeRow(r, runs, AllRuns(g, maxStep, r + 1), spb, cmds, tick);
      r := r + 1;
    }
    file := MidiFile(120, Program(instrument), cmds);
  }

  /** The inner loop of the export: one `addNote` per run of row `r`, each
      waiting from `tick`, where the previous note ended. */
  method EncodeRow(r: nat, runs: seq<Run>, ghost tail: seq<Placed>, spb: nat, cmds: seq<Command>, tick: int)
      returns (cmds': seq<Command>, tick': int)
    requires spb > 0
    ensures cmds' + Encode(tail, spb, tick') == cmds + Encode(Place(r, runs) + tail, spb, tick)
  {
    cmds', tick' := cmds, tick;
    var k := 0;
    assert runs[0..] == runs;
    while k < |runs|
      invariant 0 <= k <= |runs|
      invariant cmds' + Encode(Place(r, runs[k..]) + tail, spb, tick') == cmds + Encode(Place(r, runs) + tail, spb, tick)
    {
      var start := Ticks(runs[k].start, spb);
      var dur := Ticks(runs[k].len, spb);
      EncodeRunStep(r, runs, k, tail, spb, tick');
      cmds' := cmds' + [Command(r, dur, start - tick')];
      tick' := start + dur;
      k := k + 1;
    }
    assert Place(r, runs[k..]) + tail == tail;
  }

  /** Encoding the rest of a row from run `k` emits run `k`'s command, then
      the rest from run `k + 1`, waiting from where run `k` ends. */
  lemma EncodeRunStep(r: nat, runs: seq<Run>, k: nat, tail: seq<Placed>, spb: nat, tick: int)
    requires spb > 0 && k < |runs|
    ensures var start := Ticks(runs[k].start, spb);
            var dur := Ticks(runs[k].len, spb);
            Encode(Place(r, runs[k..]) + tail, spb, tick)
              == [Command(r, dur, start - tick)] + Encode(Place(r, runs[k + 1..]) + tail, spb, start + dur)
  {
    var rest := Place(r, runs[k..]) + tail;
    assert rest[0] == Placed(r, runs[k]);
    assert rest[1..] == Place(r, runs[k + 1..]) + tail;
  }

  /** `currentTick` is carried from one row to the next, so a note on a
      higher row that starts before the last note of a lower row ended gets
      a negative wait: here C-1 on steps 4-7 and C#-1 on steps 0-3, at four
      steps per bar. */
  lemma NegativeWaitAcrossRows()
    ensures Export([LateRow, EarlyRow], 4, 2, "piano").commands == [Command(0, 512, 512), Command(1, 512, -1024)]
  {
    ExampleRuns();
    ExampleEncode();
  }

  /** A chord, two notes placed one after the other with the same start step,
      always gives the second note a wait of minus the first note's length. */
  lemma ChordWaitIsNegative(p: Placed, q: Placed, rest: seq<Placed>, spb: nat, tick: int)
    requires spb > 0 && p.run.start == q.run.start
    ensures Encode([p, q] + rest, spb, tick)[1].wait == 0 - Ticks(p.run.len, spb) as int
  {
    var ps := [p, q] + rest;
    var start := Ticks(p.run.start, spb);
    var dur := Ticks(p.run.len, spb);
    assert ps[1..] == [q] + rest;
    assert Encode(ps, spb, tick)[1..] == Encode([q] + rest, spb, start + dur);
  }

  lemma ExampleRuns()
    ensures AllRuns([LateRow, EarlyRow], 8, 0) == [Placed(0, Run(4, 4)), Placed(1, Run(0, 4))]
  {
    var g := [LateRow, EarlyRow];
    LateRowRuns();
    EarlyRowRuns();
    assert AllRuns(g, 8, 2) == [];
    assert AllRuns(g, 8, 1) == [Placed(1, Run(0, 4))];
  }

  lemma ExampleEncode()
    ensures Encode([Placed(0, Run(4, 4)), Placed(1, Run(0, 4))], 4, 0) == [Command(0, 512, 512), Command(1, 512, -1024)]
  {
    var ps := [Placed(0, Run(4, 4)), Placed(1, Run(0, 4))];
    assert Ticks(4, 4) == 512 && Ticks(0, 4) == 0;
    assert ps[1..] == [Placed(1, Run(0, 4))];
    assert Encode(ps[1..], 4, 1024) == [Command(1, 512, -1024)] by {
      assert ps[1..][1..] == [];
    }
  }

  const LateRow: seq<bool> := [false, false, false, false, true, true, true, true]
  const EarlyRow: seq<bool> := [true, true, true, true, false, false, false, false]

  lemma LateRowRuns()
    ensures Runs(LateRow, 8, 0) == [Run(4, 4)]
  {
    var row := LateRow;
    assert RunEnd(row, 8, 7) == 7;
    assert RunEnd(row, 8, 6) == 7;
    assert RunEnd(row, 8, 5) == 7;
    assert RunEnd(row, 8, 4) == 7;
    assert Runs(row, 8, 8) == [];
    assert Runs(row, 8, 4) == [Run(4, 4)];
    assert Runs(row, 8, 3) == Runs(row, 8, 4);
    assert Runs(row, 8, 2) == Runs(row, 8, 3);
    assert Runs(row, 8, 1) == Runs(row, 8, 2);
  }

  lemma EarlyRowRuns()
    ensures Runs(EarlyRow, 8, 0) == [Run(0, 4)]
  {
    var row := EarlyRow;
    assert RunEnd(row, 8, 3) == 3;
    assert RunEnd(row, 8, 2) == 3;
    assert RunEnd(row, 8, 1) == 3;
    assert RunEnd(row, 8, 0) == 3;
    assert Runs(row, 8, 8) == [];
    assert Runs(row, 8, 7) == [];
    assert Runs(row, 8, 6) == [];
    assert Runs(row, 8, 5) == [];
    assert Runs(row, 8, 4) == [];
  }

  // ---------------------------------------------------------------------
  // The editor
  // ---------------------------------------------------------------------

  /** Which buttons are disabled. */
  datatype Controls = Controls(playDisabled: bool, stopDisabled: bool, generateDisabled: bool)

  /** A generated candidate: its own copy of the grid and its MIDI file. */
  datatype Candidate = Candidate(grid: Grid, midi: MidiFile)

  /** The page's global state. */
  datatype Editor = Editor(
    grid: Grid,
    spb: nat,
    selectedBars: nat,
    midiLoaded: bool,
    playing: bool,
    playhead: Option<nat>,
    candidates: seq<Candidate>,
    current: int,
    controls: Controls)

  /** `enableControls`: play and stop on, generate on only once some bars are selected. */
  function EnableControls(e: Editor): (r: Editor)
    ensures !r.controls.playDisabled && !r.controls.stopDisabled
    ensures r.controls.generateDisabled <==> e.selectedBars == 0
    ensures r.(controls := e.controls) == e
  {
    e.(controls := Controls(false, false, e.selectedBars == 0))
  }

  /** The note-division handler: remap the grid, forget the bar selection,
      the playhead and the candidates, disable generate, and disable every
      control when no pattern is loaded. */
  function ChangeResolution(e: Editor, key: string): (r: Editor)
    requires e.spb > 0 && StepsFor(key).Some?
    ensures r.spb == StepsFor(key).value && Shaped(r.grid, r.spb)
    ensures r.grid == Remap(e.grid, e.spb, r.spb)
    ensures r.selectedBars == 0 && r.playhead.None? && r.candidates == [] && r.current == -1
    ensures r.controls.generateDisabled
    ensures !e.midiLoaded ==> r.controls.playDisabled && r.controls.stopDisabled
    ensures e.midiLoaded ==> r.controls.playDisabled == e.controls.playDisabled && r.controls.stopDisabled == e.controls.stopDisabled
    ensures r.midiLoaded == e.midiLoaded && r.playing == e.playing
  {
    var spb := StepsFor(key).value;
    var controls := if e.midiLoaded then e.controls.(generateDisabled := true) else Controls(true, true, true);
    e.(grid := Remap(e.grid, e.spb, spb), spb := spb, selectedBars := 0, playhead := None,
       candidates := [], current := -1, controls := controls)
  }

  /** Choosing the division already in use leaves the notes as they were. */
  lemma ChangeToSameResolution(e: Editor, key: string)
    requires e.spb > 0 && StepsFor(key) == Some(e.spb) && Shaped(e.grid, e.spb)
    ensures ChangeResolution(e, key).grid == e.grid
  {
    RemapSameDivision(e.grid, e.spb);
  }

  /** `playGrid` on the Tone.js path: nothing while already playing; with no
      notes it gives up; otherwise it schedules one event per run and starts. */
  function PlayGrid(e: Editor): (r: (Editor, seq<Scheduled>))
    requires e.spb > 0
    ensures e.playing ==> r == (e, [])
    ensures !e.playing ==> (r.0.playing <==> |r.1| > 0)
    ensures r.0.playing && !e.playing ==>
              r.1 == Schedule(e.grid, e.spb) && r.0.playhead == Some(0)
              && r.0.controls.playDisabled && !r.0.controls.stopDisabled
    ensures !r.0.playing ==> r.0 == e
  {
    if e.playing then (e, [])
    else
      var events := Schedule(e.grid, e.spb);
      if |events| == 0 then (e, [])
      else (e.(playing := true, playhead := Some(0),
               controls := e.controls.(playDisabled := true, stopDisabled := false)), events)
  }

  /** Playback starts exactly when some cell of the grid is lit. */
  lemma PlayStartsIffSomeCellLit(e: Editor)
    requires e.spb > 0 && !e.playing
    ensures PlayGrid(e).0.playing <==>
              exists p, c :: 0 <= p < |e.grid| && 0 <= c < TotalSteps(e.spb) && Cell(e.grid[p], c)
  {
    AllRunsEmptyIff(e.grid, TotalSteps(e.spb), 0);
  }

  /** `parseInt(numOutputsInput.value, 10)` as a loop bound: NaN and
      non-positive values run the loop zero times. */
  function OutputCount(numOutputs: Option<int>): nat {
    if numOutputs.Some? && numOutputs.value > 0 then numOutputs.value else 0
  }

  /** The generate button: a no-op unless a pattern is loaded and bars are
      selected; otherwise `numOutputs` candidates, each its own copy of the
      grid with the file of the selected bars, and the first one selected. */
  function Generate(e: Editor, numOutputs: Option<int>, instrument: string): (r: Editor)
    requires e.spb > 0
    ensures !e.midiLoaded || e.selectedBars == 0 ==> r == e
    ensures e.midiLoaded && e.selectedBars > 0 ==>
              && |r.candidates| == OutputCount(numOutputs)
              && (forall k :: 0 <= k < |r.candidates| ==>
                    r.candidates[k] == Candidate(e.grid, Export(e.grid, e.spb, e.selectedBars, instrument)))
              && (r.current == 0 <==> |r.candidates| > 0)
              && (|r.candidates| == 0 ==> r.current == -1)
    ensures r.grid == e.grid && r.spb == e.spb && r.selectedBars == e.selectedBars
  {
    if !e.midiLoaded || e.selectedBars == 0 then e
    else
      var file := Export(e.grid, e.spb, e.selectedBars, instrument);
      var cands := seq(OutputCount(numOutputs), _ => Candidate(e.grid, file));
      var cleared := e.(candidates := cands, current := -1);
      if |cands| > 0 then SelectCandidate(cleared, 0) else cleared
  }

  /** Clicking candidate tab `idx`: select it and load a copy of its grid. */
  function SelectCandidate(e: Editor, idx: nat): (r: Editor)
    requires idx < |e.candidates|
    ensures r.current == idx && r.grid == e.candidates[idx].grid
    ensures r.candidates == e.candidates && r.spb == e.spb && r.selectedBars == e.selectedBars
  {
    e.(current := idx, grid := e.candidates[idx].grid)
  }

  /** Every candidate holds the grid as it was when generate was pressed, so
      switching between candidates always brings that grid back. */
  lemma CandidatesRestoreGrid(e: Editor, numOutputs: Option<int>, instrument: string, idx: nat)
    requires e.spb > 0 && e.midiLoaded && e.selectedBars > 0
    requires idx < |Generate(e, numOutputs, instrument).candidates|
    ensures SelectCandidate(Generate(e, numOutputs, instrument), idx).grid == e.grid
  {
  }

  /** After a change of division no bars are selected, so the generate
      button stays disabled even once the controls are enabled again, and
      generating does nothing. */
  lemma GenerateBlockedAfterResolutionChange(e: Editor, key: string, numOutputs: Option<int>, instrument: string)
    requires e.spb > 0 && StepsFor(key).Some?
    ensures EnableControls(ChangeResolution(e, key)).controls.generateDisabled
    ensures Generate(ChangeResolution(e, key), numOutputs, instrument) == ChangeResolution(e, key)
  {
  }
}

=== FILE: text.dfy ===
/** String helpers shared by the formatters: JavaScript's `String(n)` for
    integers, `Number(s)` for digit strings, `s.split(c)`, `s.endsWith(x)`,
    `s.includes(x)` and `a.join(c)`, with the round trips the formatters
    rely on. */
module Text {
  import opened Wrappers

  predicate IsDigit(c: char) {
    '0' <= c <= '9'
  }

  predicate AllDigits(s: string) {
    forall i :: 0 <= i < |s| ==> IsDigit(s[i])
  }

  function DigitChar(d: nat): char
    requires d < 10
  {
    "0123456789"[d]
  }

  function DigitValue(c: char): nat
    requires IsDigit(c)
  {
    (c as int - '0' as int) as nat
  }

  lemma DigitRoundTrip(d: nat)
    requires d < 10
    ensures IsDigit(DigitChar(d)) && DigitValue(DigitChar(d)) == d
  {
  }

  /** Decimal value of a digit string, most significant digit first. */
  function DigitsValue(s: string): nat
    requires AllDigits(s)
  {
    if |s| == 0 then 0 else DigitsValue(s[..|s| - 1]) * 10 + DigitValue(s[|s| - 1])
  }

  /** `String(n)` for a natural number: decimal digits, no leading zero. */
  function NatToString(n: nat): (s: string)
    ensures 1 <= |s| && AllDigits(s)
    ensures |s| > 1 ==> s[0] != '0'
    decreases n
  {
    if n < 10 then [DigitChar(n)] else NatToString(n / 10) + [DigitChar(n % 10)]
  }

  /** `String(i)` for an integer: a minus sign before the magnitude when negative. */
  function IntToString(i: int): (s: string)
    ensures 1 <= |s|
    ensures i < 0 <==> s[0] == '-'
  {
    if i < 0 then "-" + NatToString(-i) else NatToString(i)
  }

  /** `Number(s)` restricted to what the model needs: the empty string is 0,
      a string of digits is its decimal value, anything else is NaN (None). */
  function NumberOfDigits(s: string): (r: Option<nat>)
    ensures r.Some? <==> AllDigits(s)
  {
    if AllDigits(s) then Some(DigitsValue(s)) else None
  }

  /** Parses what `IntToString` prints. */
  function ParseInt(s: string): Option<int> {
    if |s| > 0 && s[0] == '-' then
      if |s| > 1 && AllDigits(s[1..]) then Some(-(DigitsValue(s[1..]) as int)) else None
    else if |s| > 0 && AllDigits(s) then Some(DigitsValue(s) as int)
    else None
  }

  lemma {:induction false} NatToStringRoundTrip(n: nat)
    ensures DigitsValue(NatToString(n)) == n
    decreases n
  {
    if n < 10 {
      DigitRoundTrip(n);
    } else {
      var s := NatToString(n);
      NatToStringRoundTrip(n / 10);
      DigitRoundTrip(n % 10);
      assert s[..|s| - 1] == NatToString(n / 10);
    }
  }

  lemma IntToStringRoundTrip(i: int)
    ensures ParseInt(IntToString(i)) == Some(i)
  {
    if i < 0 {
      var n: nat := -i;
      assert IntToString(i) == "-" + NatToString(n);
      PrintedNegative(n);
    } else {
      NatToStringRoundTrip(i);
      ParsePlain(NatToString(i));
    }
  }

  lemma PrintedNegative(n: nat)
    ensures ParseInt("-" + NatToString(n)) == Some(-(n as int))
  {
    NatToStringRoundTrip(n);
    ParseNegative(NatToString(n));
  }

  /** A printed integer starts with a minus sign or a digit. */
  lemma IntToStringStart(i: int)
    ensures IntToString(i)[0] == '-' || IsDigit(IntToString(i)[0])
  {
    if i >= 0 {
      assert IntToString(i) == NatToString(i);
    }
  }

  lemma ParseNegative(m: string)
    requires |m| >= 1 && AllDigits(m)
    ensures ParseInt("-" + m) == Some(-(DigitsValue(m) as int))
  {
    assert ("-" + m)[1..] == m;
  }

  lemma ParsePlain(m: string)
    requires |m| >= 1 && AllDigits(m)
    ensures ParseInt(m) == Some(DigitsValue(m) as int)
  {
    assert IsDigit(m[0]);
  }

  lemma NumberOfNatToString(n: nat)
    ensures NumberOfDigits(NatToString(n)) == Some(n)
  {
    NatToStringRoundTrip(n);
  }

  /** Index of the first occurrence of `c` in `s`, if any. */
  function IndexOf(s: string, c: char): (r: Option<nat>)
    ensures r.None? <==> c !in s
    ensures r.Some? ==> r.value < |s| && s[r.value] == c && c !in s[..r.value]
  {
    if |s| == 0 then None
    else if s[0] == c then Some(0)
    else match IndexOf(s[1..], c)
      case None => None
      case Some(k) => assert s[..k + 1] == [s[0]] + s[1..][..k]; Some(k + 1)
  }

  /** JavaScript's `s.split(c)` for a one-character separator: always at
      least one part, and no part contains the separator. */
  function Split(s: string, c: char): (parts: seq<string>)
    ensures |parts| >= 1
    ensures forall k :: 0 <= k < |parts| ==> c !in parts[k]
    decreases |s|
  {
    match IndexOf(s, c)
    case None => [s]
    case Some(i) => [s[..i]] + Split(s[i + 1..], c)
  }

  /** JavaScript's `parts.join(c)`. */
  function Join(parts: seq<string>, c: char): string {
    if |parts| == 0 then ""
    else if |parts| == 1 then parts[0]
    else parts[0] + [c] + Join(parts[1..], c)
  }

  lemma SplitSingle(s: string, c: char)
    requires c !in s
    ensures Split(s, c) == [s]
  {
  }

  lemma SplitCons(a: string, c: char, b: string)
    requires c !in a
    ensures Split(a + [c] + b, c) == [a] + Split(b, c)
  {
    var s := a + [c] + b;
    assert s[|a|] == c;
    assert s[..|a|] == a;
    assert IndexOf(s, c) == Some(|a|);
    assert s[|a| + 1..] == b;
  }

  /** Splitting a joined list gives the list back when no part holds the separator. */
  lemma {:induction false} SplitJoinRoundTrip(parts: seq<string>, c: char)
    requires |parts| >= 1
    requires forall k :: 0 <= k < |parts| ==> c !in parts[k]
    ensures Split(Join(parts, c), c) == parts
    decreases |parts|
  {
    if |parts| == 1 {
      SplitSingle(parts[0], c);
    } else {
      SplitJoinRoundTrip(parts[1..], c);
      SplitCons(parts[0], c, Join(parts[1..], c));
      assert parts == [parts[0]] + parts[1..];
    }
  }

  predicate EndsWith(s: string, suffix: string) {
    |suffix| <= |s| && s[|s| - |suffix|..] == suffix
  }

  predicate OccursAt(s: string, part: string, i: int) {
    0 <= i <= |s| - |part| && s[i..i + |part|] == part
  }

  /** JavaScript's `s.includes(part)`. */
  predicate Contains(s: string, part: string) {
    exists i | 0 <= i <= |s| :: OccursAt(s, part, i)
  }
}

=== FILE: timeline.dfy ===
/** The note/track data model shared by every view: the part of a
    `@tonejs/midi` `Midi` object the application reads. Times are seconds,
    written as exact reals. */
module Timeline {

  /** One note: MIDI pitch, start time and length in seconds, velocity in [0, 1]. */
  datatype Note = Note(midi: int, time: real, duration: real, velocity: real)

  /** A track: its notes in insertion order, its General MIDI program and its channel. */
  datatype Track = Track(notes: seq<Note>, instrument: int, channel: int)

  datatype TimeSignature = TimeSignature(beats: int, unit: int)

  /** The header fields the application reads: tempo events and time signatures. */
  datatype Header = Header(tempos: seq<real>, timeSignatures: seq<TimeSignature>)

  datatype Composition = Composition(header: Header, tracks: seq<Track>)

  /** The instant a note is released. */
  function End(n: Note): real {
    n.time + n.duration
  }

  /** Tempo events carry positive BPM values and time signatures a positive beat count. */
  predicate ValidHeader(h: Header) {
    && (forall k :: 0 <= k < |h.tempos| ==> h.tempos[k] > 0.0)
    && (forall k :: 0 <= k < |h.timeSignatures| ==> h.timeSignatures[k].beats > 0)
  }

  /** The same note, `delta` seconds later. */
  function Moved(n: Note, delta: real): Note {
    n.(time := n.time + delta)
  }

  /** A note that starts at or after time 0 and has a non-negative length. */
  predicate ValidNote(n: Note) {
    n.time >= 0.0 && n.duration >= 0.0
  }

  /** `header.tempos[0]?.bpm || 120`: the first tempo, or 120 when there is
      none (or it is 0, which JavaScript's `||` also replaces). */
  function Bpm(h: Header): (bpm: real)
    ensures bpm != 0.0
    ensures ValidHeader(h) ==> bpm > 0.0
    ensures |h.tempos| == 0 ==> bpm == 120.0
  {
    if |h.tempos| > 0 && h.tempos[0] != 0.0 then h.tempos[0] else 120.0
  }

  /** Total number of notes over a list of tracks. */
  function NoteCount(tracks: seq<Track>): nat {
    if |tracks| == 0 then 0 else |tracks[0].notes| + NoteCount(tracks[1..])
  }

  /** `tracks.flatMap(t => t.notes)`: every track's notes, track by track. */
  function AllNotes(tracks: seq<Track>): (r: seq<Note>)
    ensures |r| == NoteCount(tracks)
    ensures forall i, n :: 0 <= i < |tracks| && n in tracks[i].notes ==> n in r
    ensures forall n :: n in r ==> exists i :: 0 <= i < |tracks| && n in tracks[i].notes
  {
    if |tracks| == 0 then []
    else
      var rest := AllNotes(tracks[1..]);
      assert forall i, n :: 1 <= i < |tracks| && n in tracks[i].notes ==> n in tracks[1..][i - 1].notes;
      tracks[0].notes + rest
  }

  /** `allNotes` is the tracks' notes laid end to end, in track order and
      with every note as often as in its track. */
  lemma {:induction false} AllNotesConcatenates(tracks: seq<Track>)
    ensures Concatenates(AllNotes(tracks), tracks)
    decreases |tracks|
  {
    if |tracks| > 0 {
      AllNotesConcatenates(tracks[1..]);
      ConcatenatesCons(tracks, AllNotes(tracks[1..]));
    }
  }

  /** `r` is the tracks' notes laid end to end: track i's notes, in their
      order, fill the slice of `r` that starts after the notes of tracks
      0 .. i-1. */
  predicate Concatenates(r: seq<Note>, tracks: seq<Track>) {
    forall i :: 0 <= i < |tracks| ==>
      && NoteCount(tracks[..i]) + |tracks[i].notes| <= |r|
      && r[NoteCount(tracks[..i])..NoteCount(tracks[..i]) + |tracks[i].notes|] == tracks[i].notes
  }

  /** Putting the first track's notes in front of a concatenation of the
      other tracks concatenates all of them. */
  lemma ConcatenatesCons(tracks: seq<Track>, rest: seq<Note>)
    requires |tracks| > 0
    requires |rest| == NoteCount(tracks[1..]) && Concatenates(rest, tracks[1..])
    ensures Concatenates(tracks[0].notes + rest, tracks)
  {
    var r := tracks[0].notes + rest;
    var h := |tracks[0].notes|;
    forall i | 0 <= i < |tracks|
      ensures NoteCount(tracks[..i]) + |tracks[i].notes| <= |r|
      ensures r[NoteCount(tracks[..i])..NoteCount(tracks[..i]) + |tracks[i].notes|] == tracks[i].notes
    {
      if i == 0 {
        assert NoteCount(tracks[..0]) == 0;
      } else {
        assert tracks[..i][1..] == tracks[1..][..i - 1];
        assert NoteCount(tracks[..i]) == h + NoteCount(tracks[1..][..i - 1]);
        assert tracks[i] == tracks[1..][i - 1];
        var o := NoteCount(tracks[1..][..i - 1]);
        assert r[h + o..h + o + |tracks[i].notes|] == rest[o..o + |tracks[i].notes|];
      }
    }
  }

  /** The latest release time among `notes`, and 0 when there is none. */
  function MaxEnd(notes: seq<Note>): (d: real)
    ensures d >= 0.0
    ensures forall k :: 0 <= k < |notes| ==> End(notes[k]) <= d
    ensures d == 0.0 || exists k :: 0 <= k < |notes| && End(notes[k]) == d
  {
    if |notes| == 0 then 0.0
    else
      var d := MaxEnd(notes[..|notes| - 1]);
      var e := End(notes[|notes| - 1]);
      assert forall k :: 0 <= k < |notes| - 1 ==> notes[k] == notes[..|notes| - 1][k];
      if e > d then e else d
  }

  /** `midi.duration`: recomputed from the notes on every read, never stored. */
  function Duration(c: Composition): real {
    MaxEnd(AllNotes(c.tracks))
  }

  /** The duration bounds every release time and is reached by one of them
      unless the composition holds no note ending after 0. */
  lemma DurationIsLatestEnd(c: Composition)
    ensures Duration(c) >= 0.0
    ensures forall i, n :: 0 <= i < |c.tracks| && n in c.tracks[i].notes ==> End(n) <= Duration(c)
    ensures Duration(c) == 0.0 || exists i, n :: 0 <= i < |c.tracks| && n in c.tracks[i].notes && End(n) == Duration(c)
  {
    var all := AllNotes(c.tracks);
    forall i, n | 0 <= i < |c.tracks| && n in c.tracks[i].notes
      ensures End(n) <= Duration(c)
    {
      assert n in all;
      var k :| 0 <= k < |all| && all[k] == n;
    }
    if Duration(c) != 0.0 {
      var k :| 0 <= k < |all| && End(all[k]) == Duration(c);
      assert all[k] in all;
    }
  }

  /** A composition whose notes all appear in another has no later duration. */
  lemma DurationMonotone(c: Composition, d: Composition)
    requires forall i, n :: 0 <= i < |c.tracks| && n in c.tracks[i].notes ==>
               exists j :: 0 <= j < |d.tracks| && n in d.tracks[j].notes
    ensures Duration(c) <= Duration(d)
  {
    DurationIsLatestEnd(c);
    DurationIsLatestEnd(d);
  }

  lemma MulMonotone(a: real, b: real, k: real)
    requires a <= b && k > 0.0
    ensures a * k <= b * k
  {
  }

  lemma MulStrict(a: real, b: real, k: real)
    requires a < b && k > 0.0
    ensures a * k < b * k
  {
  }
}

=== FILE: vsmode.dfy ===
/** The side-by-side comparison mode: pick a first model, pick a second one
    of the same family, then generate with both from the same prompt and
    play either result or the common starting point. */
module VsMode {
  import opened Wrappers
  import opened Timeline

  /** A model as the comparison sees it: its name and `tag.model`, the
      family it belongs to (absent when the model has no tag). */
  datatype Model = Model(name: string, family: Option<string>)

  /** The component's state: the step (1, 2 or 3), the chosen models, the
      two results, the base captured at step 3 (`baseMidiRef`), which
      result is playing, and whether both generations are running. */
  datatype Vs = Vs(
    step: int,
    model1: Option<Model>,
    model2: Option<Model>,
    result1: Option<Composition>,
    result2: Option<Composition>,
    base: Option<Composition>,
    playing: Option<int>,
    generating: bool)

  const Initial: Vs := Vs(1, None, None, None, None, None, None, false)

  // ---------------------------------------------------------------------
  // Model filter
  // ---------------------------------------------------------------------

  /** The candidates for model 2 that `filteredModels` keeps. */
  predicate Rival(m: Model, first: Model) {
    m.family == first.family && m.name != first.name
  }

  function Filter(models: seq<Model>, first: Model): (r: seq<Model>)
    ensures forall m :: m in r <==> m in models && Rival(m, first)
    ensures |r| <= |models|
  {
    if |models| == 0 then []
    else if Rival(models[0], first) then [models[0]] + Filter(models[1..], first)
    else Filter(models[1..], first)
  }

  /** `filteredModels`: nothing without a first model or a model list;
      otherwise the listed models of the same family with another name. */
  function FilteredModels(models: Option<seq<Model>>, model1: Option<Model>): (r: seq<Model>)
    ensures model1.None? || models.None? ==> r == []
    ensures model1.Some? && models.Some? ==>
              forall m :: m in r <==> m in models.value && m.family == model1.value.family && m.name != model1.value.name
  {
    if model1.None? || models.None? then [] else Filter(models.value, model1.value)
  }

  /** The first model is never offered against itself. */
  lemma FirstModelNotOffered(models: Option<seq<Model>>, model1: Option<Model>)
    requires model1.Some?
    ensures model1.value !in FilteredModels(models, model1)
  {
  }

  /** The filter keeps the models in list order: the second-step list is an
      order-preserving selection of the whole list. */
  lemma {:induction false} FilterKeepsOrder(models: seq<Model>, first: Model, i: nat, j: nat)
    requires i < j < |Filter(models, first)|
    ensures exists a, b :: 0 <= a < b < |models| && models[a] == Filter(models, first)[i] && models[b] == Filter(models, first)[j]
  {
    var r := Filter(models, first);
    var rest := Filter(models[1..], first);
    if Rival(models[0], first) {
      assert r == [models[0]] + rest;
      if i == 0 {
        assert rest[j - 1] in models[1..];
        HeadBefore(models, rest[j - 1]);
      } else {
        FilterKeepsOrder(models[1..], first, i - 1, j - 1);
        OrderInTail(models, rest[i - 1], rest[j - 1]);
      }
    } else {
      FilterKeepsOrder(models[1..], first, i, j);
      OrderInTail(models, rest[i], rest[j]);
    }
  }

  /** The head of a list comes before anything in its tail. */
  lemma HeadBefore(models: seq<Model>, y: Model)
    requires |models| > 0 && y in models[1..]
    ensures exists a, b :: 0 <= a < b < |models| && models[a] == models[0] && models[b] == y
  {
    var b :| 0 <= b < |models[1..]| && models[1..][b] == y;
    assert models[b + 1] == y;
  }

  /** Two models in order in the tail are in order in the whole list. */
  lemma OrderInTail(models: seq<Model>, x: Model, y: Model)
    requires |models| > 0
    requires exists a, b :: 0 <= a < b < |models[1..]| && models[1..][a] == x && models[1..][b] == y
    ensures exists a, b :: 0 <= a < b < |models| && models[a] == x && models[b] == y
  {
    var a, b :| 0 <= a < b < |models[1..]| && models[1..][a] == x && models[1..][b] == y;
    assert models[a + 1] == x && models[b + 1] == y;
  }

  // ---------------------------------------------------------------------
  // Steps
  // ---------------------------------------------------------------------

  /** `handleModel1Select`. */
  function SelectModel1(s: Vs, m: Model): (r: Vs)
    ensures r.step == 2 && r.model1 == Some(m) && r.model2 == s.model2
  {
    s.(model1 := Some(m), step := 2)
  }

  /** `handleModel2Select`. */
  function SelectModel2(s: Vs, m: Model): (r: Vs)
    ensures r.step == 3 && r.model2 == Some(m) && r.model1 == s.model1
  {
    s.(model2 := Some(m), step := 3)
  }

  /** `resetSelection`, the "Reset Models" button of step 3. */
  function ResetSelection(s: Vs): (r: Vs)
    ensures r.step == 1 && r.model1.None? && r.model2.None?
  {
    s.(step := 1, model1 := None, model2 := None)
  }

  /** The "Back to Model 1" button of step 2: only the step changes. */
  function Back(s: Vs): (r: Vs)
    ensures r.step == 1 && r == s.(step := 1)
  {
    s.(step := 1)
  }

  // ---------------------------------------------------------------------
  // Effects
  // ---------------------------------------------------------------------

  /** The capture effect: at step 3, with a composition loaded and no base
      yet, the loaded composition becomes the base. */
  function Capture(s: Vs, midi: Option<Composition>): (r: Vs)
    ensures s.base.Some? ==> r == s
    ensures s.base.None? && s.step == 3 && midi.Some? ==> r == s.(base := midi)
    ensures s.step != 3 || midi.None? ==> r == s
  {
    if s.step == 3 && midi.Some? && s.base.None? then s.(base := midi) else s
  }

  /** The reset effect: both results, the base and the playing marker are cleared. */
  function Reset(s: Vs): (r: Vs)
    ensures r.result1.None? && r.result2.None? && r.base.None? && r.playing.None?
    ensures r.(result1 := s.result1, result2 := s.result2, base := s.base, playing := s.playing) == s
  {
    s.(result1 := None, result2 := None, base := None, playing := None)
  }

  predicate ModelsChanged(before: Vs, after: Vs) {
    before.model1 != after.model1 || before.model2 != after.model2
  }

  predicate CaptureDepsChanged(before: Vs, after: Vs, midiBefore: Option<Composition>, midi: Option<Composition>) {
    before.step != after.step || midiBefore != midi
  }

  /** The commit after a state change, as written: React runs the effects
      whose dependencies changed in declaration order, the capture effect
      (step, loaded composition) before the reset effect (the two models). */
  function CommitAsWritten(before: Vs, after: Vs, midiBefore: Option<Composition>, midi: Option<Composition>): (r: Vs)
    ensures ModelsChanged(before, after) ==> r.base.None?
  {
    var captured := if CaptureDepsChanged(before, after, midiBefore, midi) then Capture(after, midi) else after;
    if ModelsChanged(before, after) then Reset(captured) else captured
  }

  /** The commit with the reset effect first, so that a model change clears
      the old base and the new step-3 base is then captured. */
  function Commit(before: Vs, after: Vs, midiBefore: Option<Composition>, midi: Option<Composition>): (r: Vs)
    ensures ModelsChanged(before, after) ==> r.result1.None? && r.result2.None? && r.playing.None?
    ensures ModelsChanged(before, after) && after.step == 3 && midi.Some? && CaptureDepsChanged(before, after, midiBefore, midi) ==>
              r.base == midi
    ensures !ModelsChanged(before, after) && after.base.Some? ==> r.base == after.base
  {
    var reset := if ModelsChanged(before, after) then Reset(after) else after;
    if CaptureDepsChanged(before, after, midiBefore, midi) then Capture(reset, midi) else reset
  }

  /** Choosing the second model moves to step 3 and changes a model in the
      same update, so both effects run in the same commit. As written the
      reset effect clears the base the capture effect has just taken, and
      until the loaded composition changes nothing captures it again: both
      play buttons do nothing before a generation. */
  lemma CaptureLostOnSecondModel(s: Vs, m: Model, midi: Composition)
    requires s.step == 2 && s.model2 != Some(m)
    ensures var r := CommitAsWritten(s, SelectModel2(s, m), Some(midi), Some(midi));
            && r.step == 3 && r.base.None? && r.result1.None? && r.result2.None?
            && PlayModel(r, 1) == (r, None) && PlayModel(r, 2) == (r, None)
  {
  }

  /** With the reset effect first, the composition loaded when the second
      model is chosen becomes the base, and either play button plays it. */
  lemma CaptureKeptOnSecondModel(s: Vs, m: Model, midi: Composition)
    requires s.step == 2 && s.model2 != Some(m)
    ensures var r := Commit(s, SelectModel2(s, m), Some(midi), Some(midi));
            && r.step == 3 && r.base == Some(midi)
            && PlayModel(r, 1).1 == Some(midi) && PlayModel(r, 2).1 == Some(midi)
  {
  }

  /** Once captured, the base survives every commit that changes no model:
      a later composition never overwrites it. */
  lemma BaseCapturedOnce(before: Vs, after: Vs, midiBefore: Option<Composition>, midi: Option<Composition>)
    requires !ModelsChanged(before, after) && after.base.Some?
    ensures Commit(before, after, midiBefore, midi).base == after.base
    ensures CommitAsWritten(before, after, midiBefore, midi).base == after.base
  {
  }

  /** A full selection from the start: after the first and second model
      are chosen (each change committed), the comparison is at step 3 with
      both models, no results, and the loaded composition as its base. */
  lemma SelectionReachesComparison(m1: Model, m2: Model, midi: Composition)
    ensures var s1 := Commit(Initial, SelectModel1(Initial, m1), Some(midi), Some(midi));
            var s2 := Commit(s1, SelectModel2(s1, m2), Some(midi), Some(midi));
            && s2.step == 3 && s2.model1 == Some(m1) && s2.model2 == Some(m2)
            && s2.result1.None? && s2.result2.None? && s2.base == Some(midi)
  {
  }

  /** Resetting from the comparison returns to step 1 with no models, no
      results and no base. */
  lemma ResetReturnsToStart(s: Vs, midi: Option<Composition>)
    requires s.step == 3 && (s.model1.Some? || s.model2.Some?)
    ensures var r := Commit(s, ResetSelection(s), midi, midi);
            && r.step == 1 && r.model1.None? && r.model2.None?
            && r.result1.None? && r.result2.None? && r.base.None? && r.playing.None?
  {
  }

  // ---------------------------------------------------------------------
  // Playing and generating
  // ---------------------------------------------------------------------

  /** `handlePlayModel`: the composition handed to the main player and the
      new state, or no change when there is nothing to play. Index 1 picks
      the first model, any other index the second. */
  function PlayModel(s: Vs, index: int): (r: (Vs, Option<Composition>))
    ensures var own := if index == 1 then s.result1 else s.result2;
            && (own.Some? ==> r.1 == own)
            && (own.None? ==> r.1 == s.base)
    ensures r.1.Some? ==> r.0 == s.(playing := Some(index))
    ensures r.1.None? ==> r.0 == s
  {
    var target := if index == 1 then (if s.result1.Some? then s.result1 else s.base)
                  else (if s.result2.Some? then s.result2 else s.base);
    if target.Some? then (s.(playing := Some(index)), target) else (s, None)
  }

  /** What one `onGenerate` call settled to. */
  datatype Reply = Midis(midis: seq<Composition>) | Nothing | Threw

  /** A reply's first composition, if it carried any. */
  function FirstOf(reply: Reply): Option<Composition> {
    if reply.Midis? && |reply.midis| > 0 then Some(reply.midis[0]) else None
  }

  /** `handleGenerateBoth` once both calls have settled: nothing without a
      generator or without both models; otherwise each result becomes the
      first composition of its reply, keeps its old value when the reply is
      empty, and a failure of the first call skips the second. */
  function GenerateBoth(s: Vs, hasGenerator: bool, reply1: Reply, reply2: Reply): (r: Vs)
    ensures !hasGenerator || s.model1.None? || s.model2.None? ==> r == s
    ensures hasGenerator && s.model1.Some? && s.model2.Some? ==>
              && !r.generating
              && r.result1 == (if FirstOf(reply1).Some? then FirstOf(reply1) else s.result1)
              && r.result2 == (if reply1.Threw? || FirstOf(reply2).None? then s.result2 else FirstOf(reply2))
              && r.(result1 := s.result1, result2 := s.result2, generating := s.generating) == s
  {
    if !hasGenerator || s.model1.None? || s.model2.None? then s
    else
      var s1 := if FirstOf(reply1).Some? then s.(result1 := FirstOf(reply1)) else s;
      var s2 := if reply1.Threw? || FirstOf(reply2).None? then s1 else s1.(result2 := FirstOf(reply2));
      s2.(generating := false)
  }

  /** After both models answered, each play button plays its own model's
      first composition. */
  lemma PlayAfterGenerate(s: Vs, c1: Composition, c2: Composition, more1: seq<Composition>, more2: seq<Composition>)
    requires s.model1.Some? && s.model2.Some?
    ensures var g := GenerateBoth(s, true, Midis([c1] + more1), Midis([c2] + more2));
            PlayModel(g, 1).1 == Some(c1) && PlayModel(g, 2).1 == Some(c2)
  {
  }
}

=== FILE: wrappers.dfy ===
/** The optional-value datatype used throughout the model for JavaScript's
    `null` / `undefined` and for lookups that may fail. */
module Wrappers {

  datatype Option<+T> = None | Some(value: T) {

    /** The value, or `default` when absent (JavaScript's `x ?? default`). */
    function GetOr(default: T): T {
      match this
      case Some(v) => v
      case None => default
    }
  }
}
